=== FILE: README.md ===
# BlogSphere, modelled in Dafny

BlogSphere is a blogging site. A Node/Express backend serves accounts, blogs, comments, likes, shares and subscriptions. A React frontend keeps the session in the browser's storage and renders the feed, editors and forms. An older React prototype under `src/` mocks some of the same pages. This project models the logic of that system as pure Dafny functions over immutable data:

- the e-mail verification state machine of `server/` (register, verify, resend, login over a user table and a ledger of hashed one-time codes) and the always-verified variant of `backend/`;
- the `protect` middleware, which reads a Bearer token, checks it and looks up the user;
- the blog, comment, like, share, profile, password and subscription handlers;
- the client session: the HTTP client's interceptors, the auth context, the two `App` components and the route guard;
- the string helpers of the frontend: image and avatar URLs, initials, truncation, tag-stripping excerpts and selection markup;
- the form validators and list filters: the create-blog form and its tag parser, the picture checks of the profile page, the feed filter and search, tag de-duplication, the top-authors ranking, the six-slot code input, the settings page and the blog detail page.

The database is a sequence of documents, searched in insertion order: `findOne` is the first match. Browser storage is a string map. bcrypt and JWT are abstract:

- `Crypto.Hash`/`Compare` only promise that a digest verifies exactly its plaintext.
- `Crypto.Sign`/`Verify` only promise that a token verifies to the id it was issued for, and that no other string verifies.

Randomness, the clock, e-mail delivery and the upload service are parameters of the functions that use them.

Where the written code and its documentation differ, the model follows the code:

- A duplicate register answers 400, not 409.
- Comments are prepended, not appended.
- The `server/` register sends the mail before it saves the user. A failed send answers 500 with the code kept and no user saved.
- The create-blog page posts the data-URL preview itself as the cover image, not an uploaded URL.

Files, one module per concern:

- `optional.dfy`, `js_strings.dfy`, `lists.dfy`: `Option`, the JavaScript string operations used (`startsWith`, `includes`, `split`, `join`, `trim`, ASCII case mapping, decimal digits), and sequence helpers (`filter`, toggle membership, `new Set` order).
- `crypto.dfy`, `accounts.dfy`: the abstract hash and token, and the user table with its look-ups.
- `otp_auth.dfy`, `otp_auth_props.dfy`: the verification flow of `server/controllers/authController.js` and its properties.
- `simple_auth.dfy`, `auth_gate.dfy`: `backend/controllers/authController.js` and `backend/middlewares/authMiddleware.js`.
- `blogs.dfy`, `server_users.dfy`, `backend_users.dfy`: the blog and user controllers.
- `client_session.dfy`: storage, the HTTP client, the auth context, the frontend `App` and the prototype's routes.
- `image_urls.dfy`, `uri_component.dfy`, `avatars.dfy`, `text_utils.dfy`, `formatting.dfy`: URL and text helpers (`uri_component.dfy` is `encodeURIComponent` and its inverse).
- `blog_forms.dfy`, `feed.dfy`, `carousel.dfy`, `otp_input.dfy`, `settings.dfy`, `profile_forms.dfy`, `blog_detail.dfy`: the pages.

## Model

| member | source | states |
|---|---|---|
| Crypto.Hash | server/controllers/authController.js:50-51 | a digest verifies against exactly the plaintext it was made from and no other |
| Crypto.Sign | server/controllers/authController.js:13-17 | a token is non-empty after its prefix and contains no space, so it survives the header split |
| Crypto.Verify | backend/middlewares/authMiddleware.js:31 | only a string that signing an id produces verifies, and to that id |
| Crypto.VerifySign | server/controllers/authController.js:13-17 | an issued token verifies to the id it was issued for |
| Crypto.SignInjective | server/controllers/authController.js:13-17 | two users never share a token |
| Accounts.FindByEmail | server/controllers/authController.js:104 | the first user with the email, or none has it |
| Accounts.FindByEmailOrUsername | server/controllers/authController.js:27 | the first user whose email or username matches; every earlier user matches neither |
| Accounts.FindByUsername | server/controllers/userController.js:46 | the first user with the username, or none has it |
| Accounts.FindById | backend/middlewares/authMiddleware.js:35 | the user with the id, or no user has it |
| Accounts.AppendKeepsValid | server/controllers/authController.js:27-60 | adding a user whose email and username are free, with the next id, keeps ids, emails and usernames unique |
| OtpAuth.GenerateOtp | server/controllers/authController.js:8-10 | every draw gives six decimal digits whose value is 100000 plus the draw, so it lies in [100000, 999999] |
| OtpAuth.WithoutEmail | server/controllers/authController.js:171 | the ledger keeps no record for the email and every other email's records unchanged, in order |
| OtpAuth.Latest | server/controllers/authController.js:84 | the index of the email's last record: no later record is the email's; none when it has no record |
| OtpAuth.RemoveAt | server/controllers/authController.js:109 | exactly one record leaves the ledger; the others keep their order |
| OtpAuth.Register | server/controllers/authController.js:22-74 | 400 exactly when the email or username is taken, and then nothing changes; otherwise one hashed code for the email is added, and the status is 201 iff delivery succeeds, else 500 with the server-error message and no user saved; on 201 the mailed code is six digits that verifies against the stored code, and the one new user has the next id, the given names and email, a password digest matching the password, the default picture, an empty bio, no subscribers and no verification |
| OtpAuth.VerifyEmail | server/controllers/authController.js:79-136 | no record: 400 "OTP has expired or is invalid"; a code not matching the newest record: 400 "Invalid OTP"; success iff the newest record matches and the user exists, and then only that user's flag turns on, exactly that record is deleted, and the reply carries "Email verified successfully", a token for the user and the user's view (id, names, email, picture, bio, and the flag now true); nothing changes on failure |
| OtpAuth.ResendOtp | server/controllers/authController.js:141-191 | 404 for an unknown email, 400 for a verified user, both changing nothing; for a known unverified user the email keeps exactly one record, for the new code, other emails' records are untouched, and the answer is 200 with the resent message iff delivery succeeds, else 500 with the server-error message |
| OtpAuth.Login | server/controllers/authController.js:196-251 | 200 iff the email is known, the password matches and the user is verified, with a token for that user and the six-field view (id, names, email, picture, bio); any other outcome is 401 without token; "verify first" only after a password match |
| OtpAuthProps.RegisterKeepsValid | server/controllers/authController.js:27-60 | registering keeps ids, emails and usernames unique |
| OtpAuthProps.EmailReportedFirst | server/controllers/authController.js:27-32 | when the first user found has the email, the answer is "Email already in use" whatever the username |
| OtpAuthProps.UsernameReportedBeforeLaterEmail | server/controllers/authController.js:27-35 | when an earlier user has only the username and a later one the email, the answer is "Username already taken": the single document found decides |
| OtpAuthProps.RegisterVerifyLogin | server/controllers/authController.js:22-242 | after a register, login is refused until the mailed code is verified; after verifying, the returned token and user view name the new user, with the registered username, and login succeeds |
| OtpAuthProps.VerifyConsumesOneRecord | server/controllers/authController.js:84-109 | a successful verify removes exactly one of the email's records and no other email's |
| OtpAuthProps.SecondVerifyFails | server/controllers/authController.js:84-109 | with a single record, a second verify finds no code, so one code cannot be used twice |
| OtpAuthProps.StaleRecordStillVerifies | server/controllers/authController.js:84-109 | when two records are kept, the older code verifies once the newer one is used |
| OtpAuthProps.ResendInvalidatesEarlierCodes | server/controllers/authController.js:171-174 | after a resend, the new code verifies and any other earlier code is "Invalid OTP" |
| OtpAuthProps.LoginHidesUnknownEmail | server/controllers/authController.js:201-217 | an unknown email and a wrong password get the identical 401 answer |
| SimpleAuth.Register | backend/controllers/authController.js:15-57 | 400 exactly when the email or username is taken, changing nothing; otherwise 201 with one new verified user holding the fields and a password digest, the next id, its token and a view without password |
| SimpleAuth.Login | backend/controllers/authController.js:62-100 | 200 iff the email is known and the password matches, never looking at the flag, with the user's token and the six-field view; otherwise the same 401 "Invalid credentials" |
| SimpleAuth.RegisterKeepsValid | backend/controllers/authController.js:20-38 | registering keeps ids, emails and usernames unique |
| SimpleAuth.RegisterThenLogin | backend/controllers/authController.js:32-95 | a fresh account can log in at once with its password, gets the token the register returned, and that token verifies to the new id |
| AuthGate.ExtractToken | backend/middlewares/authMiddleware.js:12-17 | a token is taken only from a header starting with `Bearer`, and it never contains a space |
| AuthGate.Protect | backend/middlewares/authMiddleware.js:5-55 | the request passes iff a non-empty token is extracted, verifies, and names an existing user, and then carries that user; every refusal is the same 401 message |
| AuthGate.BearerRoundTrip | backend/middlewares/authMiddleware.js:12-47 | `Bearer <token>` for an existing user's token passes as that user |
| AuthGate.NoTokenNoEntry | backend/middlewares/authMiddleware.js:20-26 | a missing, non-Bearer or unverifiable header is refused with 401 |
| AuthGate.DoubleSpaceRefused | backend/middlewares/authMiddleware.js:12-26 | with two spaces after `Bearer` the second field is empty and the request is refused |
| Blogs.FindBlog | backend/controllers/blogController.js:94-101 | the first blog with the id, or no blog has it |
| Blogs.FindComment | backend/controllers/blogController.js:269-278 | the first comment with the id, or no comment has it |
| Blogs.DropComment | backend/controllers/blogController.js:292-294 | exactly the comments with other ids remain; with no such id the list is unchanged |
| Blogs.CreateBlog | backend/controllers/blogController.js:7-23 | 201 and one blog appended, authored by the caller, with the default cover when none is given, `[]` tags when none, no likes, no comments and no shares |
| Blogs.ApplyPatch | backend/controllers/blogController.js:112-115 | every field the body carries replaces the blog's, including author, likes, comments and shares; absent fields stay; the id never changes |
| Blogs.PatchExtremes | backend/controllers/blogController.js:112-115 | an empty body changes nothing; a body naming every field replaces the whole blog but its id |
| Blogs.UpdateBlog | backend/controllers/blogController.js:92-120 | 404 iff the blog is missing; success iff it exists and the caller is its author, changing only that blog; 401 otherwise; nothing changes on failure |
| Blogs.UpdateThenFind | backend/controllers/blogController.js:92-120 | after a successful update the blog is still found under its id and is the patched blog; an empty body leaves the collection as it was |
| Blogs.CreateThenFind | backend/controllers/blogController.js:7-23 | a blog created under an unused id is found under it, at the end, and ids stay unique |
| Blogs.DeleteBlog | backend/controllers/blogController.js:134-158 | 404 iff missing; removal of exactly that blog iff the caller is its author; 401 otherwise and nothing changes |
| Blogs.DeleteThenFind | backend/controllers/blogController.js:134-158 | with unique ids a successful delete leaves exactly the blogs with other ids, so the id is no longer found, and ids stay unique |
| Blogs.RemovedIds | backend/controllers/blogController.js:153 | with unique ids, removing one blog leaves exactly the blogs with other ids, still unique |
| Blogs.LikeBlog | backend/controllers/blogController.js:172-200 | the caller's membership in likes flips, nobody else's changes, only that blog changes, and the message is "unliked" iff the caller was present |
| Blogs.LikeTwice | backend/controllers/blogController.js:184-192 | liking twice restores the set of likers, and the exact list when the caller had not liked |
| Blogs.CommentOnBlog | backend/controllers/blogController.js:214-243 | the new comment is the head and the old comments are the tail, unchanged; nothing else changes |
| Blogs.CommentThenDelete | backend/controllers/blogController.js:214-301 | a comment added under an unused id can be deleted by its writer, and that restores the collection |
| Blogs.DropFresh | backend/controllers/blogController.js:292-294 | filtering out the id of a new head comment whose id no other comment has gives the old comments back |
| Blogs.DeleteComment | backend/controllers/blogController.js:257-301 | 404 iff the blog or comment is missing, with "Blog not found" or "Comment not found" respectively; success iff the caller wrote the comment or the blog, removing exactly the comments with that id; 401 otherwise and nothing changes |
| Blogs.AuthorMayDeleteAnyComment | backend/controllers/blogController.js:281-294 | a blog's author can delete any comment on it |
| Blogs.BystanderCannotDeleteComment | backend/controllers/blogController.js:281-289 | anyone else than the two authors gets 401 and nothing changes |
| Blogs.ShareBlog | backend/controllers/blogController.js:315-334 | shares grow by exactly one and nothing else changes; 404 for a missing blog |
| Blogs.SharesCount | backend/controllers/blogController.js:327 | n shares add exactly n to the counter |
| Blogs.ShareOnce | backend/controllers/blogController.js:315-334 | one share leaves the blog at the same place and adds one to its counter |
| ServerUsers.GetCurrentUser | server/controllers/userController.js:7-39 | 404 iff the caller is missing; otherwise 200 with the caller's id, full name, username, email, picture, bio, subscriber list and its length, and no password |
| ServerUsers.PublicView | server/controllers/userController.js:55-65 | the public profile carries the user's id, full name, username, picture and bio, no email and no subscriber list, and a subscriber count equal to the list's length |
| ServerUsers.ProfilesAgree | server/controllers/userController.js:7-65 | in a valid store every user is found by username and by id, and the public profile is the current-user view without email and subscriber list |
| ServerUsers.GetUserByUsername | server/controllers/userController.js:44-74 | 404 iff no user has the username; otherwise the first such user's public view |
| ServerUsers.Patched | server/controllers/userController.js:83-86 | only truthy fields replace full name, bio and picture; username, email, password, flag and subscribers never change |
| ServerUsers.UpdateProfile | server/controllers/userController.js:79-110 | 404 iff the caller is missing; otherwise only the caller's record is patched and its view returned |
| ServerUsers.UpdateThenGet | server/controllers/userController.js:7-110 | what a profile update answers is what the next current-user request shows, apart from the subscriber fields |
| ServerUsers.UpdateProfileKeepsValid | server/controllers/userController.js:84-91 | a profile patch keeps ids, emails and usernames unique |
| ServerUsers.EmptyUpdateChangesNothing | server/controllers/userController.js:84-86 | empty strings never clear a field |
| ServerUsers.SubscribeUser | server/controllers/userController.js:157-200 | 400 for oneself before any look-up, 404 for an unknown target; otherwise the caller's membership flips, nobody else's changes, and the reply's flag and count describe the list after the toggle |
| ServerUsers.CheckSubscription | server/controllers/userController.js:214-231 | read-only: 404 for an unknown target, else membership and count of the target's list |
| ServerUsers.SubscribeThenCheck | server/controllers/userController.js:176-231 | a check right after a toggle reports what the toggle answered |
| ServerUsers.SubscribeTwice | server/controllers/userController.js:176-193 | toggling twice restores the subscriber set, and the exact table when the caller was not subscribed |
| BackendUsers.GetCurrentUser | backend/controllers/userController.js:7-37 | 404 iff the caller is missing; otherwise 200 with the caller's id, full name, username, email, picture and bio, and no password |
| BackendUsers.UpdateProfile | backend/controllers/userController.js:74-123 | full name and bio change only for truthy values, the picture only from an uploaded path; nothing else of the caller and no other user changes |
| BackendUsers.UpdateThenGet | backend/controllers/userController.js:7-123 | what a profile update answers is exactly what the next current-user request answers |
| BackendUsers.ChangePassword | backend/controllers/userController.js:170-208 | 400 when either password is missing, before any look-up; success iff the caller exists and the current password matches, and then only the stored password changes, to one that verifies exactly the new password; 401 "Current password is incorrect" changes nothing |
| BackendUsers.ChangeThenLogin | backend/controllers/userController.js:193-203 | after a change the new password logs in and a different old one is refused |
| Lists.Without | backend/controllers/blogController.js:188 | every occurrence of the element goes and every other element keeps its count |
| Lists.Toggle | backend/controllers/blogController.js:184-192 | membership of the element flips and nothing else's changes; an absent element is appended |
| Lists.ToggleTwice | server/controllers/userController.js:176-192 | two toggles restore the members, and the list itself when the element was absent |
| Lists.Dedup | frontend/src/pages/MainPage.jsx:135 | each element once, the same members, in first-occurrence order |
| HttpClient.WithAuth | frontend/src/config/axios.js:11-18 | a Bearer header with the stored token iff a truthy token is stored; other headers as configured |
| HttpClient.OnError | frontend/src/config/axios.js:25-38 | a 401 removes exactly token, userId and username; other failures leave storage alone |
| HttpClient.UnauthorizedThenRequest | frontend/src/config/axios.js:10-38 | after a 401 the next request carries no Authorization header, and a second 401 removes nothing more |
| HttpClient.StoredTokenAdmits | frontend/src/config/axios.js:13-15 | a stored server-issued token yields a header that `protect` admits as its user |
| Storage.RemoveAll | frontend/src/context/AuthContext.jsx:57-59 | the listed keys are gone and every other key keeps its value |
| Storage.RemoveAllTwice | frontend/src/context/AuthContext.jsx:57-59 | removing the same keys twice is removing them once |
| AuthSession.Initial | frontend/src/context/AuthContext.jsx:9-11 | no user, not new, still loading |
| AuthSession.Kept | frontend/src/context/AuthContext.jsx:27-34 | the user kept has the six profile fields of the answer and nothing else |
| AuthSession.CheckAuth | frontend/src/context/AuthContext.jsx:14-44 | a request goes out iff a token is stored; a failure clears the user and the token (after the 401 interceptor); a fetched profile becomes the user; loading ends in every case |
| AuthSession.Login | frontend/src/context/AuthContext.jsx:49-52 | the user is set and the new-user flag defaults to false |
| AuthSession.Logout | frontend/src/context/AuthContext.jsx:54-60 | no user, not new, and exactly the three session keys removed |
| AuthSession.LoginLogout | frontend/src/context/AuthContext.jsx:49-60 | login then logout leaves no user, not new, no session key, and every other key as before |
| AuthSession.ChildrenAfterCheck | frontend/src/context/AuthContext.jsx:13-73 | children are hidden before the check and shown after it, and a refused token leaves no user and no session key |
| LegacyApp.Load | frontend/src/App.jsx:14-21 | authenticated iff a truthy token is stored, with the stored user then |
| LegacyApp.Login | frontend/src/App.jsx:23-28 | token and serialised user stored, authenticated, other keys kept |
| LegacyApp.Logout | frontend/src/App.jsx:30-35 | both keys removed, unauthenticated, other keys kept |
| LegacyApp.LoginLogout | frontend/src/App.jsx:23-35 | login then logout leaves neither key and every other key as before |
| LegacyApp.LoginThenReload | frontend/src/App.jsx:14-28 | a reload after login is authenticated with the same user iff the token is non-empty |
| Routing.InitialAuth | src/App.jsx:20-26 | authenticated iff a non-empty token is stored |
| Routing.Render | src/App.jsx:36-96 | protected pages render iff authenticated, else redirect to /signin; sign-in and sign-up redirect to /main iff authenticated; home, verify and about always render |
| Routing.NoProtectedPageWithoutSession | src/App.jsx:53-96 | without a session no protected page is ever rendered |
| ImageUrls.Secured | frontend/src/utils/imageUtils.js:6-8 | an `http:` prefix becomes `https:` with the rest unchanged; the result never starts with `http:` |
| ImageUrls.Optimised | frontend/src/utils/imageUtils.js:11-16 | a Cloudinary URL without `f_auto` and one `/upload/` gets the transformation right after `/upload/`; any other URL is unchanged |
| ImageUrls.FixImageUrl | frontend/src/utils/imageUtils.js:2-19 | null iff the input is falsy; the result is never `http:`; a non-Cloudinary URL that is not `http:` is unchanged |
| ImageUrls.OptimisedKeepsScheme | frontend/src/utils/imageUtils.js:11-16 | the transformation neither shortens a URL nor changes its scheme |
| ImageUrls.OptimisedIdempotent | frontend/src/utils/imageUtils.js:11-16 | an optimised URL is not optimised again |
| ImageUrls.FixIdempotent | frontend/src/utils/imageUtils.js:2-19 | fixing a fixed URL changes nothing |
| UriComponent.EncodeChar | frontend/src/utils/avatarUtils.js:30 | a character encodes to a non-empty string of URI-safe characters |
| UriComponent.Encode | frontend/src/utils/avatarUtils.js:30 | the encoding contains only unreserved characters and `%`-escapes |
| UriComponent.EncodeAppend | frontend/src/utils/avatarUtils.js:30 | encoding distributes over concatenation |
| UriComponent.EncodeUnreserved | frontend/src/utils/avatarUtils.js:30 | unreserved text encodes to itself |
| UriComponent.DecodeEncode | frontend/src/utils/avatarUtils.js:30 | decoding an encoding gives the string back |
| Avatars.AvatarUrl | frontend/src/utils/avatar.js:2-17 | `''` iff the path is falsy, else the path itself |
| Avatars.AvatarUrlIdempotent | frontend/src/utils/avatar.js:2-17 | resolving twice is resolving once |
| Avatars.DefaultAvatar | frontend/src/utils/avatarUtils.js:9-31 | the URL is the DiceBear prefix, the encoded seed, `&` and the option query, in that order |
| Avatars.SeedReadBack | frontend/src/utils/avatarUtils.js:11-30 | decoding what lies between `seed=` and the first `&` gives the seed back |
| Avatars.AvatarInjective | frontend/src/utils/avatarUtils.js:11-30 | different seeds give different URLs |
| Avatars.SameIdSameAvatar | frontend/src/utils/avatarUtils.js:11 | a user with an id gets the same avatar whatever the username or random draw |
| TextUtils.NonEmpty | frontend/src/utils/avatarUtils.js:41-43 | the non-empty words, and only those |
| TextUtils.Heads | frontend/src/utils/avatarUtils.js:41-44 | one character per non-empty word: its first one, in order |
| TextUtils.Initials | frontend/src/utils/avatarUtils.js:39-46 | the fallback for a falsy name, otherwise the upper-cased heads of the words |
| TextUtils.AvatarInitials | frontend/src/pages/ProfilePage.jsx:140-147 | `''` for a falsy name; otherwise one letter per non-empty word |
| TextUtils.CardInitials | frontend/src/components/BlogCard.jsx:14-21 | `'A'` for a falsy name; otherwise one letter per non-empty word |
| TextUtils.OneWordInitial | frontend/src/utils/avatarUtils.js:39-46 | a single word gives its first letter upper-cased |
| TextUtils.BlankNameNoInitials | frontend/src/components/BlogCard.jsx:14-21 | a name of spaces is truthy yet has no initials, so the card shows none rather than `'A'` |
| TextUtils.Truncate | frontend/src/components/BlogCard.jsx:10-12 | absent passes through; up to n is unchanged; longer keeps n-1 characters and adds `...`: n+2 in all for n ≥ 1, and `...` alone for n = 0 (`substr(0, -1)` is empty) |
| TextUtils.TruncateText | frontend/src/pages/MainPage.jsx:51-55 | `''` for falsy text, unchanged up to max, else the first max characters and `...` |
| TextUtils.CardKeepsOneFewer | frontend/src/components/BlogCard.jsx:10-12 | the card keeps one character fewer than the main page's truncation with the same limit |
| TextUtils.CardOf | frontend/src/components/BlogCard.jsx:87-101 | at most three tags, a title of at most 82 and an excerpt of at most 182 characters |
| TextUtils.StripTags | frontend/src/pages/ProfilePage.jsx:12 | never longer, and only characters of the input |
| TextUtils.StripLeavesNoTag | frontend/src/pages/ProfilePage.jsx:12 | after stripping no `<` is followed anywhere later by `>` |
| TextUtils.StripTagFree | frontend/src/pages/ProfilePage.jsx:12 | tag-free text is left as it is |
| TextUtils.StripIdempotent | frontend/src/pages/ProfilePage.jsx:12 | stripping twice is stripping once |
| TextUtils.EmptyTagKept | frontend/src/pages/HomePage.jsx:95 | the home page pattern leaves `<>` alone, the profile page pattern removes it |
| TextUtils.PlainTextKept | frontend/src/pages/HomePage.jsx:95 | text without `<` passes either pattern unchanged |
| TextUtils.ProfileExcerpt | frontend/src/pages/ProfilePage.jsx:10-14 | the stripped text, cut to 150 characters and `...` when longer; never tag-like |
| TextUtils.HomeExcerpt | frontend/src/pages/HomePage.jsx:93-96 | a prefix of the stripped text of at most 100 characters |
| Carousel.StepsInRange | frontend/src/pages/HomePage.jsx:157-159 | from a valid index every run of ticks stays on a valid index |
| Carousel.StepsCompose | frontend/src/pages/HomePage.jsx:157-159 | a + b ticks are a ticks then b ticks |
| Carousel.StepsCountUp | frontend/src/pages/HomePage.jsx:157-159 | before the last blog, ticks count up one by one |
| Carousel.AlwaysInRange | frontend/src/pages/HomePage.jsx:123-159 | starting from 0 the index is always in range |
| Carousel.FullTurn | frontend/src/pages/HomePage.jsx:157-159 | after as many ticks as blogs the index is back, and not earlier |
| Formatting.Wrap | frontend/src/components/DirectionalTextarea.jsx:74-91 | bold, italic and colour markup around the selection; nothing for an unknown type |
| Formatting.ApplyFormattingAsWritten | frontend/src/components/DirectionalTextarea.jsx:64-107 | nothing for an empty selection or unknown type; otherwise prefix, wrapped selection, suffix, and the cursor at start plus the written offset |
| Formatting.BoldCursorInsideMarkup | frontend/src/components/DirectionalTextarea.jsx:77 | bolding `hello` leaves the cursor after `**he` |
| Formatting.ApplyFormatting | frontend/src/components/DirectionalTextarea.jsx:100-106 | the same text, with the cursor right after the wrapped selection |
| Formatting.CursorAfterMarkup | frontend/src/components/DirectionalTextarea.jsx:103-106 | before the corrected cursor lie the old prefix and the markup, after it the old suffix |
| Formatting.WrittenAgreesOnlyForColor | frontend/src/components/DirectionalTextarea.jsx:77-88 | the written cursor is the intended one exactly for colour |
| Formatting.ApplyColor | frontend/src/pages/PlainTextEditor.jsx:8-38 | nothing for an empty selection; otherwise the colour markup around the selection and the cursor after the closing tag |
| Formatting.ColorEditorsAgree | frontend/src/pages/PlainTextEditor.jsx:19-36 | both editors colour a selection to the same text and cursor |
| Formatting.BreakLines | frontend/src/pages/PlainTextEditor.jsx:47 | no newline survives and nothing gets shorter |
| Formatting.BreakLinesIsSplitJoin | frontend/src/pages/PlainTextEditor.jsx:47 | the newline replacement equals splitting on newlines and joining with `<br>` |
| BlogForm.LengthRule | frontend/src/pages/CreateBlogPage.jsx:78-88 | "required" when blank after trim, "too short" when the raw length is under the minimum, no error iff neither |
| BlogForm.ValidateFormAsWritten | frontend/src/pages/CreateBlogPage.jsx:75-100 | title and content by the length rule; a tag error iff the field is blank; a cover error iff neither cover nor preview |
| BlogForm.Clean | frontend/src/pages/CreateBlogPage.jsx:114-115 | the kept pieces are non-empty and trimmed, and there are no more of them than pieces |
| BlogForm.ParseTags | frontend/src/pages/CreateBlogPage.jsx:113-116 | no parsed tag is empty or has surrounding white space |
| BlogForm.ParseJoinedTags | frontend/src/pages/CreateBlogPage.jsx:113-116 | parsing a comma-joined list of clean tags gives the list back |
| BlogForm.BlankTagsParseToNothing | frontend/src/pages/CreateBlogPage.jsx:113-116 | a blank field parses to no tags |
| BlogForm.CommaTagsPass | frontend/src/pages/CreateBlogPage.jsx:90-92 | a lone comma passes the written tag rule yet parses to no tags |
| BlogForm.ValidateForm | frontend/src/pages/CreateBlogPage.jsx:90-92 | the tag error is set iff no tag survives parsing; other errors as written |
| BlogForm.CorrectedIsStricter | frontend/src/pages/CreateBlogPage.jsx:90-92 | the corrected rule rejects all the written one rejects, and an accepted form has a tag |
| BlogForm.Submit | frontend/src/pages/CreateBlogPage.jsx:102-125 | nothing is posted iff the page's own validator reports an error; otherwise raw title and content, the parsed tags (possibly none), and the preview or the default cover |
| BlogForm.CommaPostsNoTag | frontend/src/pages/CreateBlogPage.jsx:90-125 | a form valid but for a lone-comma tag field is posted with no tag as written, and refused by the corrected handler |
| BlogForm.PostedWithoutTag | frontend/src/pages/CreateBlogPage.jsx:102-125 | a form the written validator accepts although its tags parse to nothing is posted with no tag, and the corrected handler refuses it |
| BlogForm.SubmitCorrected | frontend/src/pages/CreateBlogPage.jsx:90-125 | behind the intended tag rule, a form is posted iff the corrected validator accepts it, always with a tag, and then as the written handler posts it |
| BlogForm.SubmitJoinedTags | frontend/src/pages/CreateBlogPage.jsx:102-125 | a tag field typed as clean tags joined by commas posts exactly those tags, and both handlers agree on it |
| BlogForm.SubmitParsed | frontend/src/pages/CreateBlogPage.jsx:102-125 | a non-blank tag field that parses to some tags posts those tags, and both handlers agree on it |
| BlogForm.JoinedTagsNotBlank | frontend/src/pages/CreateBlogPage.jsx:90-116 | clean tags joined by commas pass the written blank check and parse back to the tags |
| PrototypeBlogForm.Validate | src/pages/CreateBlogPage.jsx:66-91 | the same title, content and tag rules; the cover error iff no file is chosen |
| PrototypeBlogForm.SameRulesAsFrontend | src/pages/CreateBlogPage.jsx:66-91 | without a preview the two pages' validators agree |
| PrototypeBlogForm.ImageChange | src/pages/CreateBlogPage.jsx:37-60 | a file becomes the cover, its data URL the preview, and the cover error is cleared; nothing else changes |
| PrototypeBlogForm.ImageMeetsCoverRule | src/pages/CreateBlogPage.jsx:85-87 | after a file is chosen the cover rule holds and the other rules are unaffected |
| Feed.FilteredPosts | frontend/src/pages/MainPage.jsx:180-203 | an order-preserving subsequence holding exactly the posts that pass the tag and search steps |
| Feed.NoFilterShowsAll | frontend/src/pages/MainPage.jsx:184-193 | filter `all` and a blank query show every post |
| Feed.FilterIgnoresCase | frontend/src/pages/MainPage.jsx:186-188 | the tag filter does not depend on the filter's case |
| Feed.AllTags | frontend/src/pages/MainPage.jsx:134 | exactly the tags of the posts that have tags |
| Feed.UniqueTags | frontend/src/pages/MainPage.jsx:134-135 | each tag once, in first-occurrence order, the same tags as all posts carry |
| Feed.Tallies | frontend/src/pages/MainPage.jsx:139-150 | one entry per author id with posts, distinct ids, each with that author's post count |
| Feed.Tally1 | frontend/src/pages/MainPage.jsx:140-149 | one blog keeps every existing author entry in place, appending a new author or raising a known one |
| Feed.StepCounts | frontend/src/pages/MainPage.jsx:139-150 | after one more blog the entries are still exactly the authors with their blog counts |
| Feed.InsertDesc | frontend/src/pages/MainPage.jsx:154 | inserting into a non-increasing list keeps it non-increasing and adds exactly that entry |
| Feed.SortDesc | frontend/src/pages/MainPage.jsx:153-154 | a non-increasing permutation of the entries |
| Feed.FirstFive | frontend/src/pages/MainPage.jsx:155 | the first five entries, or all of them when there are fewer |
| Feed.AuthorsOf | frontend/src/pages/MainPage.jsx:156 | the author of each entry, in order |
| Feed.TopAuthors | frontend/src/pages/MainPage.jsx:153-156 | at most five authors |
| Feed.TopAuthorsFromTallies | frontend/src/pages/MainPage.jsx:153-156 | the first five of the sorted tallies, which are exactly the tallies |
| Feed.TopAuthorsRanked | frontend/src/pages/MainPage.jsx:139-156 | distinct authors with posts, by non-increasing post count |
| Feed.TopAuthorsComplete | frontend/src/pages/MainPage.jsx:139-156 | an author with posts left out means five are shown, each with at least as many posts |
| PrototypeFeed.Filtered | src/pages/MainPage.jsx:196-214 | an order-preserving subsequence holding exactly the posts with the exact tag and, for a non-empty query, a match |
| PrototypeFeed.SpaceQuerySearches | src/pages/MainPage.jsx:203 | a query of one space is not blank there and hides posts that do not contain a space |
| PrototypeFeed.Tags | src/pages/MainPage.jsx:361 | exactly the tags the posts carry |
| PrototypeFeed.PopularTags | src/pages/MainPage.jsx:361 | each tag once, in first-occurrence order |
| OtpInput.OtpChange | src/pages/OtpVerificationPage.jsx:52-69 | a non-empty non-digit is ignored; otherwise only the indexed slot changes, focus moves on iff a digit is typed before the last slot, and slots stay empty or one digit |
| OtpInput.BackspaceFocus | src/pages/OtpVerificationPage.jsx:71-76 | focus moves back one iff backspace hits an empty slot after the first |
| OtpInput.DeleteThenBackspace | src/pages/OtpVerificationPage.jsx:52-76 | backspace on a digit empties the slot and keeps focus; a second backspace there moves focus back one, unless it is the first slot |
| OtpInput.Paste | src/pages/OtpVerificationPage.jsx:78-90 | accepted iff exactly six digits, then every slot holds its digit |
| OtpInput.PasteRoundTrip | src/pages/OtpVerificationPage.jsx:83-86 | the code then joined is the pasted text |
| OtpInput.Verify | src/pages/OtpVerificationPage.jsx:128-153 | an error iff a slot is empty; otherwise the mock session of the provider, or the plain one |
| OtpInput.CompleteCodeIsSixDigits | src/pages/OtpVerificationPage.jsx:130-141 | a complete well-formed code joins to six digits |
| OtpInput.OneKeyIsIncomplete | src/pages/OtpVerificationPage.jsx:130-133 | one keystroke on a fresh input cannot be verified |
| OtpInput.Tick | src/pages/OtpVerificationPage.jsx:36-50 | a positive timer loses one second; at zero resend is offered |
| OtpInput.CountDown | src/pages/OtpVerificationPage.jsx:39-42 | while positive the timer counts down one per tick, resend unchanged |
| OtpInput.ResendOfferedAtZero | src/pages/OtpVerificationPage.jsx:39-45 | resend is offered exactly from the tick after the timer reaches zero |
| OtpInput.Resend | src/pages/OtpVerificationPage.jsx:97-126 | timer back at 60, resend withdrawn, every slot empty, error cleared, success shown |
| OtpInput.ResendWaitsAMinute | src/pages/OtpVerificationPage.jsx:110-111 | after a resend the next is offered only after more than 60 ticks |
| OtpInput.ProviderCodeVerifies | src/pages/OtpVerificationPage.jsx:29-32 | the social sign-in code is complete and verifies to the provider's session |
| Settings.Checklist | frontend/src/pages/SettingsPage.jsx:490-498 | length at least 8, some A-Z, some 0-9, each iff |
| Settings.ItemClass | frontend/src/pages/SettingsPage.jsx:490 | `valid` iff the rule holds |
| Settings.UpperIffLowerChanges | frontend/src/pages/SettingsPage.jsx:494 | under the model's ASCII case mapping, a password has an upper-case letter iff lower-casing changes it (the page does not lower-case; JavaScript's mapping also changes non-ASCII letters) |
| Settings.ChecklistMonotone | frontend/src/pages/SettingsPage.jsx:490-498 | typing more never unticks a rule |
| Settings.SetField | frontend/src/pages/SettingsPage.jsx:67-89 | the named field takes the value and every other field is kept |
| Settings.SetSameValue | frontend/src/pages/SettingsPage.jsx:67-73 | writing a field's own value changes nothing |
| Settings.SetTwice | frontend/src/pages/SettingsPage.jsx:75-81 | the last of two writes wins |
| Settings.TextChange | frontend/src/pages/SettingsPage.jsx:67-81 | the field holds the text and the others are kept |
| Settings.NotificationChange | frontend/src/pages/SettingsPage.jsx:83-89 | the field holds the checkbox state and the others are kept |
| Settings.PrivacyChange | frontend/src/pages/SettingsPage.jsx:91-97 | a flag iff the input is a checkbox, the text otherwise; others kept |
| Settings.PrivacyIsOneOfTheOthers | frontend/src/pages/SettingsPage.jsx:83-97 | a privacy change is a notification change on a checkbox and a text change otherwise |
| Settings.SaveMessage | frontend/src/pages/SettingsPage.jsx:140-162 | the whole message table: one fixed message for each of the four known form types, none otherwise; a table stated in full is its own reference definition |
| Settings.SelectAvatar | frontend/src/pages/SettingsPage.jsx:127-130 | the suggestion becomes the picture and the gallery closes |
| Settings.SelectThenToggle | frontend/src/pages/SettingsPage.jsx:127-138 | choosing the same suggestion twice equals choosing it once, and reopening the gallery keeps the chosen picture |
| Settings.ToggleGallery | frontend/src/pages/SettingsPage.jsx:136-138 | the gallery flips and the picture stays |
| Settings.ToggleGalleryTwice | frontend/src/pages/SettingsPage.jsx:136-138 | toggling twice restores the state |
| ProfileForm.FileChange | frontend/src/pages/CreateProfilePage.jsx:30-60 | no file changes nothing; a non-image and then an over-size file set their error and keep the form; a taken file clears the error; the bio never changes |
| ProfileForm.FileChangeIffAcceptable | src/pages/CreateProfilePage.jsx:25-55 | a file is taken with no error iff it is an image of at most 5 MiB; otherwise only the error changes |
| ProfileForm.SizeBoundary | frontend/src/pages/CreateProfilePage.jsx:41-44 | exactly 5 MiB is accepted, one byte more is not |
| ProfileForm.TypeBeforeSize | src/pages/CreateProfilePage.jsx:29-38 | a large non-image gets the type error |
| ProfileForm.UploadedUrl | frontend/src/pages/CreateProfilePage.jsx:71-86 | no picture means no upload; a failed upload is an error; otherwise the returned URL |
| ProfileForm.Payload | frontend/src/pages/CreateProfilePage.jsx:89-95 | always the bio, and the picture iff the URL is truthy |
| ProfileForm.UpdatedUser | frontend/src/pages/CreateProfilePage.jsx:101-105 | the new bio; the new URL or else the old picture; all else kept |
| ProfileForm.Submit | frontend/src/pages/CreateProfilePage.jsx:62-125 | success iff the upload (when needed) and the update succeed, with the payload and user above |
| ProfileForm.SentPictureIsKept | frontend/src/pages/CreateProfilePage.jsx:89-105 | the picture sent is the picture the local user keeps |
| BlogDetail.SubmitComment | frontend/src/pages/BlogDetailPage.jsx:159-188 | a blank input changes nothing; otherwise a new comment without likes heads the old ones and the input clears |
| BlogDetail.OldCommentsStayLast | frontend/src/pages/BlogDetailPage.jsx:174-187 | after any run of submits the old comments follow the new ones in order, one new per non-blank entry |
| BlogDetail.ToggleLike | frontend/src/pages/BlogDetailPage.jsx:143-146 | the like flag flips and nothing else changes |
| BlogDetail.ToggleBookmark | frontend/src/pages/BlogDetailPage.jsx:148-151 | the bookmark flag flips and nothing else changes |
| BlogDetail.TogglesUndo | frontend/src/pages/BlogDetailPage.jsx:143-151 | each toggle twice restores the view |
| BlogDetail.ShownLikes | frontend/src/pages/BlogDetailPage.jsx:286 | the count shown is one more than the blog's iff the reader likes it |
| BlogDetail.LikeMovesCountByOne | frontend/src/pages/BlogDetailPage.jsx:286 | liking adds one to the shown count, unliking removes it, bookmarking leaves it |

## Left out

- OtpAuth.Register and SimpleAuth.Register: the User schema's defaults for `profilePicture` and `bio` come from a schema file that is not part of this model; both are taken to be `""` (`Accounts.DefaultPicture` and the empty bio).
- Database queries with sort or populate (`getBlogs`, `getBlog`, `getPopularBlogs`, and `getUserBlogs` in both user controllers): their order and joins belong to the database.
- The 500 answers of a database or network failure, except where a handler's own logic leads there (the failed mail of register and resend, verify without a user).
- bcrypt and JWT: hashes never collide, tokens never expire and carry no secret.
- Randomness: the OTP draw and the avatar's random seed are parameters.
- Clock and timers: `setInterval`, `setTimeout`, `Date.now` and the date formatting; the carousel and the code countdown are modelled as ticks.
- The upload services: Cloudinary, multer, `imageUpload.js`, `uploadController.js` and the data-URL reader. Their results are parameters.
- E-mail delivery (`sendEmail.js`): success or failure is a parameter.
- The settings page's `handleImageUpload`: it calls a `setError` that the page never defines, so its error path would throw.
- `frontend/src/pages/CreateBlogPage.jsx` `handleCoverImageChange` and the generic `handleChange` of the forms: they only copy an input into state.
- `extractPlainText` of the main page: it parses HTML with the DOM.
- The colour-tag regex of the plain-text editor's preview: only its newline step is modelled.
- Presentation, animation and mock pages, the browser editors built on `execCommand`, and the thin sign-in and sign-up forms.
- `handleShare` (clipboard), `skipProfileSetup` and `deleteAccount` (`window.confirm`).
- Concurrency between requests: the model is sequential.
- Logging: `protect` logs every request's headers, the Bearer token included, and the handlers log their progress and errors with `console.log` and `console.error`; output is not modelled.
- Code expiry: the code schema's expiry lives in a model file that is not part of this model, so a stored code stays valid until a handler deletes it.
- JsStrings: strings are sequences of Unicode code points, while JavaScript's `.length`, `substr`, `substring`, `word[0]` and `split('')` count UTF-16 code units. The two agree on text inside the Basic Multilingual Plane and differ on characters beyond it, such as emoji, which take two units; the members below inherit the difference.
- BlogForm.LengthRule: minimum lengths are counted in code points; three emoji are six units and pass the five-character title rule on the page, but the model reports the title too short.
- Settings.Checklist: the eight-character rule is counted in code points; four emoji tick it on the page but not here.
- TextUtils.Heads: a word's head is its first code point; `word[0]` on a word starting with an emoji is a lone surrogate.
- TextUtils.Initials: built from TextUtils.Heads, so the same lone-surrogate case is not modelled.
- TextUtils.OneWordInitial: for a word starting with an emoji the page shows a lone surrogate, the model the whole emoji.
- TextUtils.Truncate: the threshold and the kept length are in code points; `substr` counts units and may split a surrogate pair.
- TextUtils.TruncateText: the same code-point counting for the maximum length and the cut.
- TextUtils.ProfileExcerpt: the 150 limit and the cut are in code points, not units.
- TextUtils.HomeExcerpt: `substring(0, 100)` is modelled as the first 100 code points, not units.
- ServerUsers.SubscribeUser: user ids are numbers, so the self-check and the look-up see the same id. The handler compares the raw route string with the caller's id but looks the target up by casting it, so the caller's own id written in upper-case hex passes the check and subscribes the caller to themselves; that path is not modelled.
- Blogs.ApplyPatch: the body may set any field of the modelled blog but its id, by plain replacement. Update operators in the body (`$inc`, `$push`, `$pull`, `$unset` and the like, which mongoose applies as such), further fields of the blog schema, its validators (`runValidators`) and an `_id` in the body are not modelled; the schema file is not part of this model.
- Blogs.UpdateBlog: inherits the field set of Blogs.ApplyPatch, so a body holding update operators (`$inc`, `$push`, `$unset`, …) is not modelled either.
- LegacyApp: `JSON.stringify` and `JSON.parse` are taken to be inverse, so the user is stored and read back as the same value; serialisation itself is not modelled.
- JsStrings.Lower: `toLowerCase`/`toUpperCase` are modelled on ASCII letters only.
- Avatars.DefaultAvatar: the option query is the literal text the options object serialises to; it is not derived from the object.
- Feed.TopAuthors: its own contract only bounds the length; the ranking is stated by `Feed.TopAuthorsRanked` and `Feed.TopAuthorsComplete`. The model's sort is a stable insertion sort, and JavaScript's sort is stable too; which of two equally ranked authors comes first is not stated.
- OtpInput.Verify: the mock request delay and the navigation are not modelled.
- ProfileForm.Submit: the page's thrown-error messages are modelled as the two fixed messages it sets.

## Findings

| source | as written | input that shows it | evidently intended | confidence | as-written member | corrected member |
|---|---|---|---|---|---|---|
| frontend/src/components/DirectionalTextarea.jsx:77 | the cursor after bold is `start + 4` and after italic `start + 2`, whatever the selection's length | bolding `hello` (0 to 5) gives `**hello**` with the cursor at 4, between `**he` and `llo**` | the cursor right after the wrapped selection, as the comment "Set cursor position after selection" says and as the colour case computes | not executed | Formatting.ApplyFormattingAsWritten, Formatting.BoldCursorInsideMarkup | Formatting.ApplyFormatting, Formatting.CursorAfterMarkup |
| frontend/src/pages/CreateBlogPage.jsx:90-92 | the tag rule only checks that the field is not blank | tags `,` pass validation, but `handleSubmit` then posts the blog with no tag at all | "At least one tag is required": at least one tag must survive the parse | not executed | BlogForm.ValidateFormAsWritten, BlogForm.CommaTagsPass, BlogForm.Submit, BlogForm.CommaPostsNoTag | BlogForm.ValidateForm, BlogForm.CorrectedIsStricter, BlogForm.SubmitCorrected |

=== FILE: accounts.dfy ===
/** The user collection shared by the controllers: user records, the
    look-ups the controllers perform on them, and the JSON views of a user
    they send back. `findOne` returns the first match in insertion order. */
module Accounts {
  import opened Optional
  import opened Crypto

  type UserId = nat

  datatype User = User(
    id: UserId,
    fullName: string,
    username: string,
    email: string,
    password: Digest,
    profilePicture: string,
    bio: string,
    isVerified: bool,
    subscribers: seq<UserId>)

  /** The users in insertion order, and the id the next insertion receives. */
  datatype Store = Store(users: seq<User>, nextId: UserId)

  /** The invariant the database keeps: ids are below `nextId` and distinct,
      and no two users share an email or a username. */
  ghost predicate Valid(st: Store) {
    && (forall i :: 0 <= i < |st.users| ==> st.users[i].id < st.nextId)
    && (forall i, j :: 0 <= i < j < |st.users| ==>
          st.users[i].id != st.users[j].id
          && st.users[i].email != st.users[j].email
          && st.users[i].username != st.users[j].username)
  }

  /** Index of the first user satisfying `p`. */
  function FindFirst(users: seq<User>, p: User -> bool): (r: Option<nat>)
    ensures r.Some? ==> r.value < |users| && p(users[r.value])
    ensures r.Some? ==> forall j :: 0 <= j < r.value ==> !p(users[j])
    ensures r.None? ==> forall j :: 0 <= j < |users| ==> !p(users[j])
    decreases |users|
  {
    if |users| == 0 then None
    else if p(users[0]) then Some(0)
    else
      match FindFirst(users[1..], p)
      case None => None
      case Some(k) => Some(k + 1)
  }

  /** `User.findOne({ email })`. */
  function FindByEmail(users: seq<User>, email: string): (r: Option<nat>)
    ensures r.Some? ==> r.value < |users| && users[r.value].email == email
    ensures r.Some? ==> forall j :: 0 <= j < r.value ==> users[j].email != email
    ensures r.None? ==> forall j :: 0 <= j < |users| ==> users[j].email != email
  {
    FindFirst(users, (u: User) => u.email == email)
  }

  /** `User.findOne({ username })`. */
  function FindByUsername(users: seq<User>, username: string): (r: Option<nat>)
    ensures r.Some? ==> r.value < |users| && users[r.value].username == username
    ensures r.Some? ==> forall j :: 0 <= j < r.value ==> users[j].username != username
    ensures r.None? ==> forall j :: 0 <= j < |users| ==> users[j].username != username
  {
    FindFirst(users, (u: User) => u.username == username)
  }

  /** `User.findById(id)`. */
  function FindById(users: seq<User>, id: UserId): (r: Option<nat>)
    ensures r.Some? ==> r.value < |users| && users[r.value].id == id
    ensures r.Some? ==> forall j :: 0 <= j < r.value ==> users[j].id != id
    ensures r.None? ==> forall j :: 0 <= j < |users| ==> users[j].id != id
  {
    FindFirst(users, (u: User) => u.id == id)
  }

  /** `User.findOne({ $or: [{ email }, { username }] })`. */
  function FindByEmailOrUsername(users: seq<User>, email: string, username: string): (r: Option<nat>)
    ensures r.Some? ==> r.value < |users|
    ensures r.Some? ==> users[r.value].email == email || users[r.value].username == username
    ensures r.Some? ==> forall j :: 0 <= j < r.value ==> users[j].email != email && users[j].username != username
    ensures r.None? ==> forall j :: 0 <= j < |users| ==> users[j].email != email && users[j].username != username
  {
    FindFirst(users, (u: User) => u.email == email || u.username == username)
  }

  /** Some user already has this email or this username. */
  predicate Taken(users: seq<User>, email: string, username: string) {
    exists j :: 0 <= j < |users| && (users[j].email == email || users[j].username == username)
  }

  /** Appending a user with the next id and an unused email and username
      keeps the store valid. */
  lemma AppendKeepsValid(st: Store, u: User)
    requires Valid(st) && u.id == st.nextId && !Taken(st.users, u.email, u.username)
    ensures Valid(Store(st.users + [u], st.nextId + 1))
  {
    var users := st.users + [u];
    assert forall i :: 0 <= i < |st.users| ==> users[i] == st.users[i];
  }

  /** The user with the given index replaced. */
  function Put(users: seq<User>, i: nat, u: User): (r: seq<User>)
    requires i < |users|
    ensures |r| == |users| && r[i] == u
    ensures forall j :: 0 <= j < |users| && j != i ==> r[j] == users[j]
  {
    users[i := u]
  }

  /** Replacing a user by one with the same id keeps every id look-up. */
  lemma SameIds(users: seq<User>, i: nat, u: User)
    requires i < |users| && u.id == users[i].id
    ensures forall id :: FindById(users[i := u], id) == FindById(users, id)
  {
    var after := users[i := u];
    assert forall j :: 0 <= j < |users| ==> after[j].id == users[j].id;
    forall id ensures FindById(after, id) == FindById(users, id) {
      var a, b := FindById(after, id), FindById(users, id);
      if b.Some? {
        assert after[b.value].id == id;
      }
      if a.Some? {
        assert users[a.value].id == id;
      }
    }
  }

  /** A user as a JSON object. Absent keys are `None`; there is no password
      key at all. */
  datatype View = View(
    id: UserId,
    fullName: string,
    username: string,
    email: Option<string>,
    profilePicture: Option<string>,
    bio: Option<string>,
    isVerified: Option<bool>,
    subscribers: Option<seq<UserId>>,
    subscribersCount: Option<nat>)

  /** `{ id, fullName, username, email, profilePicture, bio }`, the view the
      login, profile-update and current-user handlers return. */
  function ProfileView(u: User): View {
    View(u.id, u.fullName, u.username, Some(u.email), Some(u.profilePicture), Some(u.bio),
         None, None, None)
  }

  /** An HTTP reply of the authentication and user handlers. */
  datatype Reply = Reply(status: nat, message: string, token: Option<string>, user: Option<View>)

  function Fail(status: nat, message: string): Reply {
    Reply(status, message, None, None)
  }

  /** The picture a new user starts with (the User schema's default is not
      part of this model). */
  const DefaultPicture: string := ""

  const ServerError: string := "Server Error"
  const MsgEmailInUse: string := "Email already in use"
  const MsgUsernameTaken: string := "Username already taken"
  const MsgBadCredentials: string := "Invalid credentials"
  const MsgNoUser: string := "User not found"
}

=== FILE: auth_gate.dfy ===
/** The `protect` middleware of backend/middlewares/authMiddleware.js: it
    takes the second space-separated word of an `Authorization` header that
    starts with `Bearer`, verifies it as a token and loads the user it
    names. Every failure is the same 401. */
module AuthGate {
  import opened Optional
  import opened JsStrings
  import opened Crypto
  import opened Accounts

  const MsgNotAuthorized: string := "Not authorized to access this route"
  const BearerWord: string := "Bearer"

  /** Either the request proceeds as the user at index `user`, or it is
      answered with `reply`. */
  datatype Gate = Pass(user: nat) | Deny(reply: Reply)

  /** The token `protect` extracts: `authorization.split(' ')[1]` when the
      header is present, non-empty and starts with `Bearer`. */
  function ExtractToken(header: Option<string>): (t: Option<string>)
    ensures t.Some? ==> header.Some? && StartsWith(header.value, BearerWord)
    ensures t.Some? ==> !Includes(t.value, " ")
  {
    if TruthyOpt(header) && StartsWith(header.value, BearerWord) then
      var parts := Split(header.value, " ");
      if |parts| > 1 then Some(parts[1]) else None
    else None
  }

  /** `protect(req, res, next)`. */
  function Protect(users: seq<User>, header: Option<string>): (g: Gate)
    ensures g.Deny? ==> g.reply == Fail(401, MsgNotAuthorized)
    ensures g.Pass? <==>
              && ExtractToken(header).Some? && Truthy(ExtractToken(header).value)
              && Verify(ExtractToken(header).value).Some?
              && FindById(users, Verify(ExtractToken(header).value).value).Some?
    ensures g.Pass? ==>
              && g.user < |users|
              && ExtractToken(header) == Some(Sign(users[g.user].id))
  {
    var token := ExtractToken(header);
    if !TruthyOpt(token) then Deny(Fail(401, MsgNotAuthorized))
    else
      match Verify(token.value)
      case None => Deny(Fail(401, MsgNotAuthorized))
      case Some(id) =>
        match FindById(users, id)
        case None => Deny(Fail(401, MsgNotAuthorized))
        case Some(i) => Pass(i)
  }

  /** A string without the space character does not include it. */
  lemma NoSpaceNotIncluded(t: string)
    requires forall i :: 0 <= i < |t| ==> t[i] != ' '
    ensures !Includes(t, " ")
  {
    AtChar(t, ' ');
  }

  /** The first space of `Bearer` followed by a space-led rest is the one
      right after the word. */
  lemma BearerFirstSpace(rest: string)
    requires |rest| > 0 && rest[0] == ' '
    ensures IndexOf(BearerWord + rest, " ") == Some(6)
  {
    assert BearerWord + rest == BearerWord + [' '] + rest[1..];
    IndexOfChar(BearerWord, ' ', rest[1..]);
  }

  /** `("Bearer " + t).split(' ')` for a token without spaces. */
  lemma SplitBearer(t: string)
    requires forall i :: 0 <= i < |t| ==> t[i] != ' '
    ensures Split(BearerWord + " " + t, " ") == [BearerWord, t]
  {
    NoSpaceNotIncluded(t);
    SplitBearerToken(t);
  }

  /** The same split, for a token that does not include a space. */
  lemma SplitBearerToken(t: string)
    requires !Includes(t, " ")
    ensures Split(BearerWord + " " + t, " ") == [BearerWord, t]
  {
    BearerFirstSpace(" " + t);
    assert BearerWord + " " + t == BearerWord + (" " + t);
    SplitOnce(BearerWord, " ", t);
  }

  /** The header the clients send, `Bearer <token>`, admits exactly the user
      the token was signed for, when that user exists in a valid store. */
  lemma {:induction false} BearerRoundTrip(st: Store, i: nat)
    requires Valid(st) && i < |st.users|
    ensures Protect(st.users, Some(BearerWord + " " + Sign(st.users[i].id))) == Pass(i)
  {
    var t := Sign(st.users[i].id);
    SplitBearer(t);
    VerifySign(st.users[i].id);
    assert ExtractToken(Some(BearerWord + " " + t)) == Some(t);
    assert FindById(st.users, st.users[i].id) == Some(i);
  }

  /** A token that does not verify, or a header without one, is refused. */
  lemma NoTokenNoEntry(users: seq<User>, header: Option<string>)
    requires ExtractToken(header).None? || Verify(ExtractToken(header).value).None?
    ensures Protect(users, header) == Deny(Fail(401, MsgNotAuthorized))
  {
  }

  /** A header with two spaces after `Bearer` yields the empty token and is
      refused even when a valid token follows. */
  lemma DoubleSpaceRefused(users: seq<User>, t: string)
    requires forall i :: 0 <= i < |t| ==> t[i] != ' '
    ensures Protect(users, Some(BearerWord + "  " + t)).Deny?
  {
    var h := BearerWord + "  " + t;
    assert h == BearerWord + ("  " + t);
    BearerFirstSpace("  " + t);
    SplitUnfold(h, " ", 6);
    assert h[..6] == BearerWord;
    var rest := h[7..];
    AtChar(rest, ' ');
    assert IndexOf(rest, " ") == Some(0);
    SplitUnfold(rest, " ", 0);
    assert Split(rest, " ")[0] == "";
  }
}

=== FILE: avatars.dfy ===
/** The avatar helpers of frontend/src/utils: `getAvatarUrl` passes a stored
    picture path through, and `getDefaultAvatar` builds a DiceBear URL from a
    seed. The random fallback seed, `Math.random().toString(36)`, is a
    parameter. */
module Avatars {
  import opened Optional
  import opened JsStrings
  import opened UriComponent

  /** `getAvatarUrl(avatarPath)`: `''` for a falsy path; full URLs,
      Cloudinary URLs and relative paths alike come back as they are. */
  function AvatarUrl(path: Option<string>): (r: string)
    ensures !TruthyOpt(path) <==> r == ""
    ensures TruthyOpt(path) ==> r == path.value
  {
    if !TruthyOpt(path) then ""
    else if StartsWith(path.value, "http") then path.value
    else if Includes(path.value, "cloudinary") then path.value
    else path.value
  }

  /** Resolving an already resolved avatar changes nothing. */
  lemma AvatarUrlIdempotent(path: Option<string>)
    ensures AvatarUrl(Some(AvatarUrl(path))) == AvatarUrl(path)
  {
  }

  const AvatarPrefix: string := "https://api.dicebear.com/6.x/adventurer/svg?seed="

  /** The options `backgroundColor=b6e3f4,c0aede,d1d4f9`, `radius=50` and
      `size=200`, each value URI-encoded, joined with `&`. */
  const AvatarQuery: string := "backgroundColor=b6e3f4%2Cc0aede%2Cd1d4f9&radius=50&size=200"

  /** `userId || username || random`. */
  function Seed(userId: Option<string>, username: Option<string>, random: string): string {
    if TruthyOpt(userId) then userId.value
    else if TruthyOpt(username) then username.value
    else random
  }

  /** Where the pieces of `a + e + "&" + q` lie. */
  lemma Pieces(a: string, e: string, q: string)
    ensures var url := a + e + "&" + q;
            && |a| + |e| < |url|
            && url[..|a|] == a
            && url[|a|..|a| + |e|] == e
            && url[|a| + |e|] == '&'
            && url[|a| + |e| + 1..] == q
  {
  }

  /** `getDefaultAvatar(username, userId)`: the encoded seed sits between the
      fixed prefix and the `&` that opens the options. */
  function DefaultAvatar(username: Option<string>, userId: Option<string>, random: string): (url: string)
    ensures var e := Encode(Seed(userId, username, random));
            && |AvatarPrefix| + |e| < |url|
            && url[..|AvatarPrefix|] == AvatarPrefix
            && url[|AvatarPrefix|..|AvatarPrefix| + |e|] == e
            && url[|AvatarPrefix| + |e|] == '&'
            && url[|AvatarPrefix| + |e| + 1..] == AvatarQuery
  {
    var e := Encode(Seed(userId, username, random));
    Pieces(AvatarPrefix, e, AvatarQuery);
    AvatarPrefix + e + "&" + AvatarQuery
  }

  /** The seed can be read back from the URL: decode what lies between the
      prefix and the first `&`. */
  lemma {:induction false} SeedReadBack(username: Option<string>, userId: Option<string>, random: string)
    ensures var url := DefaultAvatar(username, userId, random);
            var q := url[|AvatarPrefix|..];
            && IndexOf(q, "&").Some?
            && Decode(q[..IndexOf(q, "&").value]) == Some(Seed(userId, username, random))
  {
    var url := DefaultAvatar(username, userId, random);
    var e := Encode(Seed(userId, username, random));
    var q := url[|AvatarPrefix|..];
    assert q == e + ['&'] + url[|AvatarPrefix| + |e| + 1..];
    IndexOfChar(e, '&', url[|AvatarPrefix| + |e| + 1..]);
    assert q[..|e|] == e;
    DecodeEncode(Seed(userId, username, random));
  }

  /** Different seeds give different avatars. */
  lemma {:induction false} AvatarInjective(username: Option<string>, userId: Option<string>, random: string,
                                           username': Option<string>, userId': Option<string>, random': string)
    requires Seed(userId, username, random) != Seed(userId', username', random')
    ensures DefaultAvatar(username, userId, random) != DefaultAvatar(username', userId', random')
  {
    SeedReadBack(username, userId, random);
    SeedReadBack(username', userId', random');
  }

  /** A user with an id always gets the same avatar, whatever the username
      and the random fallback. */
  lemma SameIdSameAvatar(userId: string, username: Option<string>, random: string,
                         username': Option<string>, random': string)
    requires userId != ""
    ensures DefaultAvatar(username, Some(userId), random) == DefaultAvatar(username', Some(userId), random')
  {
  }
}

=== FILE: backend_users.dfy ===
/** The current-user, profile and password handlers of
    backend/controllers/userController.js. The uploaded picture's path is
    a parameter (the upload middleware is not part of this model); the new
    password is stored as `Hash(newPassword, salt)`, standing for the User
    schema's hashing hook. */
module BackendUsers {
  import opened Optional
  import opened JsStrings
  import opened Crypto
  import opened Accounts
  import SimpleAuth

  const MsgPasswordsRequired: string := "Both current and new password are required"
  const MsgWrongPassword: string := "Current password is incorrect"
  const MsgPasswordUpdated: string := "Password updated successfully"

  datatype Outcome = Outcome(users: seq<User>, reply: Reply)

  /** `getCurrentUser`: the caller's profile, never the password. */
  function GetCurrentUser(users: seq<User>, caller: UserId): (r: Reply)
    ensures FindById(users, caller).None? <==> r == Fail(404, MsgNoUser)
    ensures FindById(users, caller).Some? ==>
              var u := users[FindById(users, caller).value];
              && r.status == 200 && r.token.None?
              && r.user == Some(View(caller, u.fullName, u.username, Some(u.email), Some(u.profilePicture),
                                     Some(u.bio), None, None, None))
  {
    match FindById(users, caller)
    case None => Fail(404, MsgNoUser)
    case Some(i) => Reply(200, "", None, Some(ProfileView(users[i])))
  }

  /** `updateProfile`: full name and bio from the body when truthy, the
      picture only from an uploaded file's path. */
  function UpdateProfile(users: seq<User>, caller: UserId, fullName: Option<string>, bio: Option<string>,
                         filePath: Option<string>): (r: Outcome)
    ensures FindById(users, caller).None? <==> r == Outcome(users, Fail(404, MsgNoUser))
    ensures FindById(users, caller).Some? ==>
              var i := FindById(users, caller).value;
              && r.reply.status == 200
              && |r.users| == |users|
              && var u := r.users[i];
              && r.users == Put(users, i, u)
              && u.(fullName := users[i].fullName, bio := users[i].bio,
                    profilePicture := users[i].profilePicture) == users[i]
              && u.fullName == (if TruthyOpt(fullName) then fullName.value else users[i].fullName)
              && u.bio == (if TruthyOpt(bio) then bio.value else users[i].bio)
              && u.profilePicture == (if TruthyOpt(filePath) then filePath.value else users[i].profilePicture)
              && r.reply.user == Some(ProfileView(u))
  {
    match FindById(users, caller)
    case None => Outcome(users, Fail(404, MsgNoUser))
    case Some(i) =>
      var u0 := users[i];
      var u1 := if TruthyOpt(fullName) then u0.(fullName := fullName.value) else u0;
      var u2 := if TruthyOpt(bio) then u1.(bio := bio.value) else u1;
      var u := if TruthyOpt(filePath) then u2.(profilePicture := filePath.value) else u2;
      Outcome(Put(users, i, u), Reply(200, "", None, Some(ProfileView(u))))
  }

  /** What a profile update answers is exactly what the next current-user
      request shows. */
  lemma UpdateThenGet(users: seq<User>, caller: UserId, fullName: Option<string>, bio: Option<string>,
                      filePath: Option<string>)
    requires FindById(users, caller).Some?
    ensures var r := UpdateProfile(users, caller, fullName, bio, filePath);
            GetCurrentUser(r.users, caller) == r.reply
  {
    var i := FindById(users, caller).value;
    var r := UpdateProfile(users, caller, fullName, bio, filePath);
    SameIds(users, i, r.users[i]);
  }

  /** `changePassword`: both fields required (400, before any look-up);
      404 for a missing user; 401 unless the current password matches;
      otherwise only the stored password changes. */
  function ChangePassword(users: seq<User>, caller: UserId, current: Option<string>, next: Option<string>,
                          salt: nat): (r: Outcome)
    ensures !TruthyOpt(current) || !TruthyOpt(next) ==> r == Outcome(users, Fail(400, MsgPasswordsRequired))
    ensures r.reply.status != 200 ==> r.users == users
    ensures r.reply.status == 401 ==> r.reply.message == MsgWrongPassword
    ensures r.reply.status == 200 <==>
              && TruthyOpt(current) && TruthyOpt(next)
              && FindById(users, caller).Some?
              && Compare(current.value, users[FindById(users, caller).value].password)
    ensures r.reply.status == 200 ==>
              var i := FindById(users, caller).value;
              && |r.users| == |users|
              && r.users == Put(users, i, users[i].(password := r.users[i].password))
              && Compare(next.value, r.users[i].password)
              && (forall q :: Compare(q, r.users[i].password) ==> q == next.value)
              && r.reply.message == MsgPasswordUpdated
  {
    if !TruthyOpt(current) || !TruthyOpt(next) then Outcome(users, Fail(400, MsgPasswordsRequired))
    else
      match FindById(users, caller)
      case None => Outcome(users, Fail(404, MsgNoUser))
      case Some(i) =>
        if !Compare(current.value, users[i].password) then Outcome(users, Fail(401, MsgWrongPassword))
        else
          var u := users[i].(password := Hash(next.value, salt));
          Outcome(Put(users, i, u), Reply(200, MsgPasswordUpdated, None, None))
  }

  /** After a password change the new password logs in and the old one, if
      different, no longer does. */
  lemma {:induction false} ChangeThenLogin(st: Store, caller: UserId, current: string, next: string, salt: nat)
    requires Valid(st)
    requires ChangePassword(st.users, caller, Some(current), Some(next), salt).reply.status == 200
    ensures var after := Store(ChangePassword(st.users, caller, Some(current), Some(next), salt).users, st.nextId);
            var email := st.users[FindById(st.users, caller).value].email;
            && SimpleAuth.Login(after, email, next).status == 200
            && (current != next ==> SimpleAuth.Login(after, email, current) == Fail(401, MsgBadCredentials))
  {
    var i := FindById(st.users, caller).value;
    var after := ChangePassword(st.users, caller, Some(current), Some(next), salt).users;
    var email := st.users[i].email;
    assert FindByEmail(after, email) == Some(i) by {
      assert forall j :: 0 <= j < |after| ==> after[j].email == st.users[j].email;
      assert FindByEmail(st.users, email) == Some(i);
    }
  }
}

=== FILE: blog_detail.dfy ===
/** The blog detail page of the frontend: the optimistic comment submit,
    the like and bookmark toggles and the like count it displays. The
    comment id (`Date.now()`) and timestamp are parameters. */
module BlogDetail {
  import opened JsStrings

  /** The signed-in placeholder the page uses as a new comment's author. */
  const CurrentUserId: string := "current-user"

  datatype Comment = Comment(id: string, authorId: string, content: string, createdAt: string, likes: nat)

  /** The page state these handlers touch: the shown blog's comments and
      like count, the two toggles and the comment input. */
  datatype View = View(comments: seq<Comment>, likes: nat, liked: bool, bookmarked: bool, draft: string)

  /** `handleCommentSubmit`: a blank input does nothing; otherwise a new
      comment with the input's text and no likes goes in front of the old
      ones, and the input is cleared. */
  function SubmitComment(v: View, id: string, now: string): (r: View)
    ensures Trim(v.draft) == "" ==> r == v
    ensures Trim(v.draft) != "" ==>
              && |r.comments| == |v.comments| + 1
              && r.comments[0] == Comment(id, CurrentUserId, v.draft, now, 0)
              && r.comments[1..] == v.comments
              && r.draft == ""
              && r.(comments := v.comments, draft := v.draft) == v
  {
    if Trim(v.draft) == "" then v
    else v.(comments := [Comment(id, CurrentUserId, v.draft, now, 0)] + v.comments, draft := "")
  }

  /** A typed comment and the id and time it gets when submitted. */
  datatype Entry = Entry(text: string, id: string, now: string)

  /** How many entries are not blank. */
  function NonBlank(entries: seq<Entry>): nat
    decreases |entries|
  {
    if |entries| == 0 then 0
    else (if Trim(entries[0].text) == "" then 0 else 1) + NonBlank(entries[1..])
  }

  /** Typing and submitting each entry in turn. */
  function SubmitAll(v: View, entries: seq<Entry>): View
    decreases |entries|
  {
    if |entries| == 0 then v
    else SubmitAll(SubmitComment(v.(draft := entries[0].text), entries[0].id, entries[0].now), entries[1..])
  }

  /** Comments are only ever prepended: after any run of submits the old
      comments follow the new ones in their original order, and there is
      one new comment per non-blank entry. */
  lemma {:induction false} OldCommentsStayLast(v: View, entries: seq<Entry>)
    ensures var r := SubmitAll(v, entries);
            && |r.comments| == |v.comments| + NonBlank(entries)
            && r.comments[NonBlank(entries)..] == v.comments
            && r.likes == v.likes
    decreases |entries|
  {
    if |entries| > 0 {
      var w := SubmitComment(v.(draft := entries[0].text), entries[0].id, entries[0].now);
      OldCommentsStayLast(w, entries[1..]);
      var r := SubmitAll(w, entries[1..]);
      var k := NonBlank(entries[1..]);
      if Trim(entries[0].text) != "" {
        assert r.comments[k..] == w.comments;
        assert r.comments[k + 1..] == w.comments[1..];
      }
    }
  }

  /** `handleLikeToggle`. */
  function ToggleLike(v: View): (r: View)
    ensures r.liked != v.liked && r.(liked := v.liked) == v
  {
    v.(liked := !v.liked)
  }

  /** `handleBookmarkToggle`. */
  function ToggleBookmark(v: View): (r: View)
    ensures r.bookmarked != v.bookmarked && r.(bookmarked := v.bookmarked) == v
  {
    v.(bookmarked := !v.bookmarked)
  }

  /** Toggling twice restores the view. */
  lemma TogglesUndo(v: View)
    ensures ToggleLike(ToggleLike(v)) == v
    ensures ToggleBookmark(ToggleBookmark(v)) == v
  {
  }

  /** The like count next to the heart: one more than the blog's count
      while the reader's own like is on. */
  function ShownLikes(v: View): (n: nat)
    ensures n >= v.likes
    ensures n == v.likes + 1 <==> v.liked
    ensures n == v.likes <==> !v.liked
  {
    if v.liked then v.likes + 1 else v.likes
  }

  /** Liking adds one to the shown count and unliking takes it away again;
      bookmarking leaves it alone. */
  lemma LikeMovesCountByOne(v: View)
    ensures !v.liked ==> ShownLikes(ToggleLike(v)) == ShownLikes(v) + 1
    ensures v.liked ==> ShownLikes(ToggleLike(v)) + 1 == ShownLikes(v)
    ensures ShownLikes(ToggleBookmark(v)) == ShownLikes(v)
  {
  }
}

=== FILE: blog_forms.dfy ===
/** The create-blog page of the frontend: the form validator, the
    comma-separated tag parser and the payload `handleSubmit` posts. The
    cover-image upload itself is left out; the form holds its resulting URL
    and the page holds the file reader's data-URL preview. */
module BlogForm {
  import opened Optional
  import opened JsStrings

  const MsgTitleRequired: string := "Title is required"
  const MsgTitleShort: string := "Title should be at least 5 characters"
  const MsgContentRequired: string := "Content is required"
  const MsgContentShort: string := "Content should be at least 100 characters"
  const MsgTagRequired: string := "At least one tag is required"
  const MsgCoverRequired: string := "Cover image is required"
  const DefaultCover: string := "default-blog-cover.jpg"

  const MinTitle: nat := 5
  const MinContent: nat := 100

  datatype Form = Form(title: string, content: string, tags: string, coverImage: Option<string>)

  /** The `errors` object: one optional message per field. */
  datatype Errors = Errors(title: Option<string>, content: Option<string>, tags: Option<string>,
                           coverImage: Option<string>)

  /** `Object.keys(newErrors).length === 0`. */
  predicate NoErrors(e: Errors) {
    e.title.None? && e.content.None? && e.tags.None? && e.coverImage.None?
  }

  /** The rule for a required text field with a minimum length: blank after
      trimming is "required"; otherwise the untrimmed length is compared. */
  function LengthRule(s: string, min: nat, required: string, short: string): (r: Option<string>)
    ensures Trim(s) == "" ==> r == Some(required)
    ensures Trim(s) != "" && |s| < min ==> r == Some(short)
    ensures r.None? <==> Trim(s) != "" && |s| >= min
  {
    if Trim(s) == "" then Some(required)
    else if |s| < min then Some(short)
    else None
  }

  /** `validateForm` as written: the tag field only has to be non-blank. */
  function ValidateFormAsWritten(f: Form, preview: Option<string>): (e: Errors)
    ensures e.title == LengthRule(f.title, MinTitle, MsgTitleRequired, MsgTitleShort)
    ensures e.content == LengthRule(f.content, MinContent, MsgContentRequired, MsgContentShort)
    ensures e.tags.Some? <==> Trim(f.tags) == ""
    ensures e.coverImage.Some? <==> !TruthyOpt(f.coverImage) && !TruthyOpt(preview)
  {
    Errors(LengthRule(f.title, MinTitle, MsgTitleRequired, MsgTitleShort),
           LengthRule(f.content, MinContent, MsgContentRequired, MsgContentShort),
           if Trim(f.tags) == "" then Some(MsgTagRequired) else None,
           if !TruthyOpt(f.coverImage) && !TruthyOpt(preview) then Some(MsgCoverRequired) else None)
  }

  /** Neither end is white space. */
  predicate Tidy(s: string) {
    |s| > 0 ==> !IsSpace(s[0]) && !IsSpace(s[|s| - 1])
  }

  /** The trimmed, non-empty pieces, in order. */
  function Clean(parts: seq<string>): (r: seq<string>)
    ensures |r| <= |parts|
    ensures forall k :: 0 <= k < |r| ==> r[k] != "" && Tidy(r[k])
    decreases |parts|
  {
    if |parts| == 0 then []
    else
      var t := Trim(parts[0]);
      var rest := Clean(parts[1..]);
      if t == "" then rest
      else
        ConsTidy(t, rest);
        [t] + rest
  }

  /** A tidy, non-empty piece in front of tidy, non-empty pieces. */
  lemma ConsTidy(t: string, rest: seq<string>)
    requires t != "" && Tidy(t)
    requires forall k :: 0 <= k < |rest| ==> rest[k] != "" && Tidy(rest[k])
    ensures forall k :: 0 <= k < |[t] + rest| ==> ([t] + rest)[k] != "" && Tidy(([t] + rest)[k])
  {
    assert forall k :: 1 <= k <= |rest| ==> ([t] + rest)[k] == rest[k - 1];
  }

  /** `tags.split(',').map(tag => tag.trim()).filter(tag => tag !== '')`. */
  function ParseTags(tags: string): (r: seq<string>)
    ensures forall k :: 0 <= k < |r| ==> r[k] != "" && Trim(r[k]) == r[k]
  {
    var r := Clean(Split(tags, ","));
    forall k | 0 <= k < |r| ensures Trim(r[k]) == r[k] {
      TrimKeeps(r[k]);
    }
    r
  }

  /** Parsing a comma-joined list of clean tags gives the list back. */
  lemma {:induction false} ParseJoinedTags(ts: seq<string>)
    requires |ts| >= 1
    requires forall k :: 0 <= k < |ts| ==> ts[k] != "" && ',' !in ts[k] && Trim(ts[k]) == ts[k]
    ensures ParseTags(Join(ts, ",")) == ts
  {
    SplitJoinChar(ts, ',');
    CleanKeeps(ts);
  }

  lemma {:induction false} CleanKeeps(ts: seq<string>)
    requires forall k :: 0 <= k < |ts| ==> ts[k] != "" && Trim(ts[k]) == ts[k]
    ensures Clean(ts) == ts
    decreases |ts|
  {
    if |ts| > 0 {
      assert ts == [ts[0]] + ts[1..];
      CleanKeeps(ts[1..]);
      CleanCons(ts[0], ts[1..]);
    }
  }

  /** A trimmed, non-empty piece is kept in front of the cleaned rest. */
  lemma CleanCons(t: string, rest: seq<string>)
    requires t != "" && Trim(t) == t
    ensures Clean([t] + rest) == [t] + Clean(rest)
  {
    assert ([t] + rest)[1..] == rest;
  }

  /** A tag field of white space only parses to no tags. */
  lemma BlankTagsParseToNothing(tags: string)
    requires Trim(tags) == ""
    ensures ParseTags(tags) == []
  {
    BlankHasNoComma(tags);
    SplitWhole(tags, ",");
    assert Split(tags, ",") == [tags];
  }

  /** A blank field holds no comma. */
  lemma BlankHasNoComma(tags: string)
    requires Trim(tags) == ""
    ensures !Includes(tags, ",")
  {
    TrimEmptyIffAllSpace(tags);
    assert ',' !in tags by {
      assert forall i :: 0 <= i < |tags| ==> IsSpace(tags[i]);
    }
    AtChar(tags, ',');
  }

  /** A tag field of a lone comma passes the written rule, yet the posted
      blog gets no tag; the intended rule rejects it. */
  lemma CommaTagsPass(f: Form, preview: Option<string>)
    requires f.tags == ","
    ensures ValidateFormAsWritten(f, preview).tags.None?
    ensures ParseTags(f.tags) == []
    ensures ValidateForm(f, preview).tags == Some(MsgTagRequired)
  {
    TrimKeeps(",");
    assert At(",", 0, ",");
    SplitUnfold(",", ",", 0);
    assert ","[1..] == "";
    SplitWhole("", ",");
    assert Split(",", ",") == ["", ""];
    TrimEmptyIffAllSpace("");
  }

  /** `validateForm` with the tag rule its message states: at least one tag
      must survive parsing. */
  function ValidateForm(f: Form, preview: Option<string>): (e: Errors)
    ensures e.title == ValidateFormAsWritten(f, preview).title
    ensures e.content == ValidateFormAsWritten(f, preview).content
    ensures e.coverImage == ValidateFormAsWritten(f, preview).coverImage
    ensures e.tags.Some? <==> ParseTags(f.tags) == []
  {
    ValidateFormAsWritten(f, preview).(tags := if ParseTags(f.tags) == [] then Some(MsgTagRequired) else None)
  }

  /** The intended rule rejects everything the written one rejects, and a
      form it accepts always has a tag. */
  lemma CorrectedIsStricter(f: Form, preview: Option<string>)
    ensures !NoErrors(ValidateFormAsWritten(f, preview)) ==> !NoErrors(ValidateForm(f, preview))
    ensures NoErrors(ValidateForm(f, preview)) ==> |ParseTags(f.tags)| >= 1
  {
    if Trim(f.tags) == "" {
      BlankTagsParseToNothing(f.tags);
    }
  }

  /** The body `handleSubmit` posts. */
  datatype Payload = Payload(title: string, content: string, tags: seq<string>, coverImage: string)

  /** `handleSubmit` as written: nothing is posted for a form the page's own
      validator refuses; otherwise the raw title and content, the parsed
      tags, and the preview as the cover (the default cover without one).
      A tag field that parses to nothing is posted as it is. */
  function Submit(f: Form, preview: Option<string>): (r: Option<Payload>)
    ensures r.None? <==> !NoErrors(ValidateFormAsWritten(f, preview))
    ensures r.Some? ==>
              && r.value.title == f.title && r.value.content == f.content
              && r.value.tags == ParseTags(f.tags)
              && r.value.coverImage == (if TruthyOpt(preview) then preview.value else DefaultCover)
  {
    if !NoErrors(ValidateFormAsWritten(f, preview)) then None
    else
      Some(Payload(f.title, f.content, ParseTags(f.tags),
                   if TruthyOpt(preview) then preview.value else DefaultCover))
  }

  /** `handleSubmit` behind the intended tag rule: it posts only forms with
      at least one tag, and then exactly what the written handler posts. */
  function SubmitCorrected(f: Form, preview: Option<string>): (r: Option<Payload>)
    ensures r.None? <==> !NoErrors(ValidateForm(f, preview))
    ensures r.Some? ==> |r.value.tags| >= 1 && Submit(f, preview) == r
  {
    CorrectedIsStricter(f, preview);
    if !NoErrors(ValidateForm(f, preview)) then None else Submit(f, preview)
  }

  /** A form that is valid but for its lone-comma tag field is posted with
      no tag by the written handler and refused by the corrected one. */
  lemma CommaPostsNoTag(f: Form, preview: Option<string>)
    requires f.tags == "," && NoErrors(ValidateFormAsWritten(f, preview).(tags := None))
    ensures Submit(f, preview).Some? && Submit(f, preview).value.tags == []
    ensures SubmitCorrected(f, preview).None?
  {
    CommaTagsPass(f, preview);
    PostedWithoutTag(f, preview);
  }

  /** A form the written validator accepts although no tag survives parsing
      is posted with no tag, and the corrected handler refuses it. */
  lemma PostedWithoutTag(f: Form, preview: Option<string>)
    requires NoErrors(ValidateFormAsWritten(f, preview)) && ParseTags(f.tags) == []
    ensures Submit(f, preview).Some? && Submit(f, preview).value.tags == []
    ensures SubmitCorrected(f, preview).None?
  {
  }

  /** A tag field typed as clean tags joined by commas posts exactly those
      tags, and then both handlers agree. */
  lemma SubmitJoinedTags(f: Form, preview: Option<string>, ts: seq<string>)
    requires |ts| >= 1 && f.tags == Join(ts, ",")
    requires forall k :: 0 <= k < |ts| ==> CleanTag(ts[k])
    ensures Submit(f, preview).Some? ==> Submit(f, preview).value.tags == ts
    ensures SubmitCorrected(f, preview) == Submit(f, preview)
  {
    JoinedTagsNotBlank(ts);
    SubmitParsed(f, preview, ts);
  }

  /** A tag field that is not blank and parses to some tags posts those
      tags, and then both handlers agree. */
  lemma SubmitParsed(f: Form, preview: Option<string>, ts: seq<string>)
    requires |ts| >= 1 && ParseTags(f.tags) == ts && Trim(f.tags) != ""
    ensures Submit(f, preview).Some? ==> Submit(f, preview).value.tags == ts
    ensures SubmitCorrected(f, preview) == Submit(f, preview)
  {
    assert ValidateForm(f, preview) == ValidateFormAsWritten(f, preview);
  }

  /** A tag as the parser leaves it, without a comma. */
  predicate CleanTag(t: string) {
    t != "" && ',' !in t && Trim(t) == t
  }

  /** Clean tags joined by commas are not blank and parse back to the tags. */
  lemma JoinedTagsNotBlank(ts: seq<string>)
    requires |ts| >= 1
    requires forall k :: 0 <= k < |ts| ==> CleanTag(ts[k])
    ensures ParseTags(Join(ts, ",")) == ts && Trim(Join(ts, ",")) != ""
  {
    ParseJoinedTags(ts);
    if Trim(Join(ts, ",")) == "" {
      BlankTagsParseToNothing(Join(ts, ","));
    }
  }
}

/** The create-blog page of the prototype app under src/: the same title,
    content and tag rules, a cover check on the chosen file alone, and the
    file-selection handler. A chosen file is its name; a `File` object is
    always truthy. */
module PrototypeBlogForm {
  import opened Optional
  import opened JsStrings
  import BlogForm

  datatype Draft = Draft(title: string, content: string, tags: string, coverImage: Option<string>,
                         preview: Option<string>, errors: BlogForm.Errors)

  /** `validateForm`: the cover error depends only on the chosen file. */
  function Validate(d: Draft): (e: BlogForm.Errors)
    ensures e.title == BlogForm.LengthRule(d.title, BlogForm.MinTitle, BlogForm.MsgTitleRequired,
                                           BlogForm.MsgTitleShort)
    ensures e.content == BlogForm.LengthRule(d.content, BlogForm.MinContent, BlogForm.MsgContentRequired,
                                             BlogForm.MsgContentShort)
    ensures e.tags.Some? <==> Trim(d.tags) == ""
    ensures e.coverImage.Some? <==> d.coverImage.None?
  {
    BlogForm.Errors(
      BlogForm.LengthRule(d.title, BlogForm.MinTitle, BlogForm.MsgTitleRequired, BlogForm.MsgTitleShort),
      BlogForm.LengthRule(d.content, BlogForm.MinContent, BlogForm.MsgContentRequired, BlogForm.MsgContentShort),
      if Trim(d.tags) == "" then Some(BlogForm.MsgTagRequired) else None,
      if d.coverImage.None? then Some(BlogForm.MsgCoverRequired) else None)
  }

  /** Without a preview, the two pages' validators agree. */
  lemma SameRulesAsFrontend(d: Draft)
    requires d.coverImage.Some? ==> d.coverImage.value != ""
    ensures Validate(d) ==
            BlogForm.ValidateFormAsWritten(BlogForm.Form(d.title, d.content, d.tags, d.coverImage), None)
  {
  }

  /** `handleImageChange`: with a file, set it as the cover, show its data
      URL as the preview (once the reader is done) and blank a cover error;
      without one, nothing changes. */
  function ImageChange(d: Draft, file: Option<string>, dataUrl: string): (r: Draft)
    ensures file.None? ==> r == d
    ensures file.Some? ==>
              && r.coverImage == file && r.preview == Some(dataUrl)
              && !TruthyOpt(r.errors.coverImage)
              && r.errors.(coverImage := d.errors.coverImage) == d.errors
              && r.(coverImage := d.coverImage, preview := d.preview, errors := d.errors) == d
  {
    match file
    case None => d
    case Some(_) =>
      var errors := if TruthyOpt(d.errors.coverImage) then d.errors.(coverImage := Some("")) else d.errors;
      d.(coverImage := file, preview := Some(dataUrl), errors := errors)
  }

  /** After a file is chosen the cover rule is met. */
  lemma ImageMeetsCoverRule(d: Draft, file: string, dataUrl: string)
    ensures Validate(ImageChange(d, Some(file), dataUrl)).coverImage.None?
    ensures Validate(ImageChange(d, Some(file), dataUrl)).title == Validate(d).title
  {
  }
}

=== FILE: blogs.dfy ===
/** The blog mutations of backend/controllers/blogController.js over the
    blog collection: create with defaults, author-only update and delete,
    the like toggle, prepended comments, owner-or-author comment deletion
    and the share counter. The caller is the user `protect` admitted; the
    comment id and the clock are parameters. */
module Blogs {
  import opened Optional
  import opened JsStrings
  import opened Lists
  import opened Accounts

  datatype Comment = Comment(id: nat, user: UserId, text: string, date: nat)

  datatype Blog = Blog(
    id: nat,
    title: string,
    content: string,
    coverImage: string,
    author: UserId,
    tags: seq<string>,
    likes: seq<UserId>,
    comments: seq<Comment>,
    shares: nat)

  /** The collection after a handler, the HTTP status and the message. */
  datatype Outcome = Outcome(blogs: seq<Blog>, status: nat, message: string)

  const DefaultCover: string := "default-blog-cover.jpg"
  const MsgBlogNotFound: string := "Blog not found"
  const MsgNoUpdate: string := "Not authorized to update this blog"
  const MsgNoDelete: string := "Not authorized to delete this blog"
  const MsgDeleted: string := "Blog deleted successfully"
  const MsgLiked: string := "Blog liked"
  const MsgUnliked: string := "Blog unliked"
  const MsgCommentNotFound: string := "Comment not found"
  const MsgNoCommentDelete: string := "Not authorized to delete this comment"
  const MsgCommentDeleted: string := "Comment deleted successfully"
  const MsgShared: string := "Share count incremented"

  /** `Blog.findById(id)`. */
  function FindBlog(blogs: seq<Blog>, id: nat): (r: Option<nat>)
    ensures r.Some? ==> r.value < |blogs| && blogs[r.value].id == id
    ensures r.Some? ==> forall j :: 0 <= j < r.value ==> blogs[j].id != id
    ensures r.None? ==> forall j :: 0 <= j < |blogs| ==> blogs[j].id != id
    decreases |blogs|
  {
    if |blogs| == 0 then None
    else if blogs[0].id == id then Some(0)
    else
      match FindBlog(blogs[1..], id)
      case None => None
      case Some(k) => Some(k + 1)
  }

  /** `blog.comments.find(c => c._id === commentId)`. */
  function FindComment(cs: seq<Comment>, id: nat): (r: Option<nat>)
    ensures r.Some? ==> r.value < |cs| && cs[r.value].id == id
    ensures r.Some? ==> forall j :: 0 <= j < r.value ==> cs[j].id != id
    ensures r.None? ==> forall j :: 0 <= j < |cs| ==> cs[j].id != id
    decreases |cs|
  {
    if |cs| == 0 then None
    else if cs[0].id == id then Some(0)
    else
      match FindComment(cs[1..], id)
      case None => None
      case Some(k) => Some(k + 1)
  }

  /** `blog.comments.filter(c => c._id !== commentId)`. */
  function DropComment(cs: seq<Comment>, id: nat): (r: seq<Comment>)
    ensures |r| <= |cs|
    ensures forall k :: 0 <= k < |r| ==> r[k].id != id
    ensures forall c :: c in r <==> c in cs && c.id != id
    ensures (forall k :: 0 <= k < |cs| ==> cs[k].id != id) ==> r == cs
    decreases |cs|
  {
    if |cs| == 0 then []
    else
      var rest := DropComment(cs[1..], id);
      assert forall c :: c in cs <==> c == cs[0] || c in cs[1..];
      if cs[0].id == id then rest else [cs[0]] + rest
  }

  /** `createBlog`: the caller becomes the author; a falsy cover image falls
      back to the default and absent tags to the empty list. */
  function CreateBlog(blogs: seq<Blog>, id: nat, caller: UserId, title: string, content: string,
                      coverImage: Option<string>, tags: Option<seq<string>>): (r: Outcome)
    ensures r.status == 201
    ensures |r.blogs| == |blogs| + 1 && r.blogs[..|blogs|] == blogs
    ensures var b := r.blogs[|blogs|];
            && b.id == id && b.author == caller && b.title == title && b.content == content
            && (TruthyOpt(coverImage) ==> b.coverImage == coverImage.value)
            && (!TruthyOpt(coverImage) ==> b.coverImage == DefaultCover)
            && b.tags == tags.GetOr([])
            && b.likes == [] && b.comments == [] && b.shares == 0
  {
    var cover := if TruthyOpt(coverImage) then coverImage.value else DefaultCover;
    var b := Blog(id, title, content, cover, caller, tags.GetOr([]), [], [], 0);
    Outcome(blogs + [b], 201, "")
  }

  /** The request body `updateBlog` hands to `findByIdAndUpdate`: any field
      of the blog but its id may be present, and an absent key leaves its
      field alone. */
  datatype Patch = Patch(title: Option<string>, content: Option<string>, coverImage: Option<string>,
                         author: Option<UserId>, tags: Option<seq<string>>, likes: Option<seq<UserId>>,
                         comments: Option<seq<Comment>>, shares: Option<nat>)

  /** The body that sets nothing. */
  const NoChange: Patch := Patch(None, None, None, None, None, None, None, None)

  function ApplyPatch(b: Blog, p: Patch): (r: Blog)
    ensures r.id == b.id
    ensures r.title == p.title.GetOr(b.title) && r.content == p.content.GetOr(b.content)
    ensures r.coverImage == p.coverImage.GetOr(b.coverImage) && r.author == p.author.GetOr(b.author)
    ensures r.tags == p.tags.GetOr(b.tags) && r.likes == p.likes.GetOr(b.likes)
    ensures r.comments == p.comments.GetOr(b.comments) && r.shares == p.shares.GetOr(b.shares)
  {
    b.(title := p.title.GetOr(b.title), content := p.content.GetOr(b.content),
       coverImage := p.coverImage.GetOr(b.coverImage), author := p.author.GetOr(b.author),
       tags := p.tags.GetOr(b.tags), likes := p.likes.GetOr(b.likes),
       comments := p.comments.GetOr(b.comments), shares := p.shares.GetOr(b.shares))
  }

  /** A body that sets nothing changes nothing, and a body that names every
      field replaces all of the blog but its id. */
  lemma PatchExtremes(b: Blog, c: Blog)
    ensures ApplyPatch(b, NoChange) == b
    ensures ApplyPatch(b, Patch(Some(c.title), Some(c.content), Some(c.coverImage), Some(c.author),
                                Some(c.tags), Some(c.likes), Some(c.comments), Some(c.shares)))
            == c.(id := b.id)
  {
  }

  /** The part every handler after the look-up shares: only the blog at `i`
      differs. */
  predicate OnlyChanged(before: seq<Blog>, after: seq<Blog>, i: nat) {
    && |after| == |before| && i < |before|
    && forall j :: 0 <= j < |before| && j != i ==> after[j] == before[j]
  }

  /** `updateBlog`: 404 for an unknown blog, 401 for anyone but its author. */
  function UpdateBlog(blogs: seq<Blog>, id: nat, caller: UserId, p: Patch): (r: Outcome)
    ensures r.status in {200, 401, 404}
    ensures r.status != 200 ==> r.blogs == blogs
    ensures FindBlog(blogs, id).None? <==> r.status == 404
    ensures r.status == 404 ==> r.message == MsgBlogNotFound
    ensures r.status == 401 ==> r.message == MsgNoUpdate
    ensures r.status == 200 <==> FindBlog(blogs, id).Some? && blogs[FindBlog(blogs, id).value].author == caller
    ensures r.status == 200 ==>
              var i := FindBlog(blogs, id).value;
              OnlyChanged(blogs, r.blogs, i) && r.blogs[i] == ApplyPatch(blogs[i], p)
  {
    match FindBlog(blogs, id)
    case None => Outcome(blogs, 404, MsgBlogNotFound)
    case Some(i) =>
      if blogs[i].author != caller then Outcome(blogs, 401, MsgNoUpdate)
      else Outcome(blogs[i := ApplyPatch(blogs[i], p)], 200, "")
  }

  /** After a successful update the blog is still found under its id, and
      it is the patched blog; the body that sets nothing changes nothing. */
  lemma UpdateThenFind(blogs: seq<Blog>, id: nat, caller: UserId, p: Patch)
    requires UpdateBlog(blogs, id, caller, p).status == 200
    ensures var i := FindBlog(blogs, id).value;
            var after := UpdateBlog(blogs, id, caller, p).blogs;
            && FindBlog(after, id) == Some(i)
            && after[i] == ApplyPatch(blogs[i], p)
    ensures UpdateBlog(blogs, id, caller, NoChange).blogs == blogs
  {
    var i := FindBlog(blogs, id).value;
    SameBlogIds(blogs, i, ApplyPatch(blogs[i], p), id);
    assert ApplyPatch(blogs[i], NoChange) == blogs[i];
  }

  /** No two blogs share an id, as the database's `_id` guarantees. */
  ghost predicate UniqueIds(blogs: seq<Blog>) {
    forall i, j :: 0 <= i < j < |blogs| ==> blogs[i].id != blogs[j].id
  }

  /** A blog created under an unused id is found under it, and ids stay
      unique. */
  lemma CreateThenFind(blogs: seq<Blog>, id: nat, caller: UserId, title: string, content: string,
                       coverImage: Option<string>, tags: Option<seq<string>>)
    requires FindBlog(blogs, id).None?
    ensures var after := CreateBlog(blogs, id, caller, title, content, coverImage, tags).blogs;
            && FindBlog(after, id) == Some(|blogs|)
            && (UniqueIds(blogs) ==> UniqueIds(after))
  {
    var after := CreateBlog(blogs, id, caller, title, content, coverImage, tags).blogs;
    assert forall j :: 0 <= j < |blogs| ==> after[j] == blogs[j];
  }

  /** `deleteBlog`: 404 for an unknown blog, 401 for anyone but its author;
      otherwise exactly the found blog is removed. */
  function DeleteBlog(blogs: seq<Blog>, id: nat, caller: UserId): (r: Outcome)
    ensures r.status in {200, 401, 404}
    ensures r.status != 200 ==> r.blogs == blogs
    ensures FindBlog(blogs, id).None? <==> r.status == 404
    ensures r.status == 404 ==> r.message == MsgBlogNotFound
    ensures r.status == 401 ==> r.message == MsgNoDelete
    ensures r.status == 200 <==> FindBlog(blogs, id).Some? && blogs[FindBlog(blogs, id).value].author == caller
    ensures r.status == 200 ==>
              var i := FindBlog(blogs, id).value;
              r.blogs == blogs[..i] + blogs[i + 1..] && r.message == MsgDeleted
  {
    match FindBlog(blogs, id)
    case None => Outcome(blogs, 404, MsgBlogNotFound)
    case Some(i) =>
      if blogs[i].author != caller then Outcome(blogs, 401, MsgNoDelete)
      else Outcome(blogs[..i] + blogs[i + 1..], 200, MsgDeleted)
  }

  /** With unique ids, a successful delete leaves exactly the blogs with
      other ids: the deleted one is no longer found. */
  lemma DeleteThenFind(blogs: seq<Blog>, id: nat, caller: UserId)
    requires UniqueIds(blogs) && DeleteBlog(blogs, id, caller).status == 200
    ensures var after := DeleteBlog(blogs, id, caller).blogs;
            && FindBlog(after, id).None?
            && UniqueIds(after)
            && forall b :: b in after <==> b in blogs && b.id != id
  {
    var i := FindBlog(blogs, id).value;
    RemoveAt(blogs, i);
    RemovedIds(blogs, i);
  }

  /** Removing the blog at `i` shifts the later blogs down by one. */
  lemma RemoveAt(blogs: seq<Blog>, i: nat)
    requires i < |blogs|
    ensures var after := blogs[..i] + blogs[i + 1..];
            && |after| == |blogs| - 1
            && (forall k :: 0 <= k < i ==> after[k] == blogs[k])
            && (forall k :: i <= k < |after| ==> after[k] == blogs[k + 1])
  {
  }

  /** With unique ids, removing the blog at `i` leaves exactly the blogs
      with other ids than its own, still with unique ids. */
  lemma RemovedIds(blogs: seq<Blog>, i: nat)
    requires UniqueIds(blogs) && i < |blogs|
    requires var after := blogs[..i] + blogs[i + 1..];
             && |after| == |blogs| - 1
             && (forall k :: 0 <= k < i ==> after[k] == blogs[k])
             && (forall k :: i <= k < |after| ==> after[k] == blogs[k + 1])
    ensures var after := blogs[..i] + blogs[i + 1..];
            && UniqueIds(after)
            && forall b :: b in after <==> b in blogs && b.id != blogs[i].id
  {
    var after := blogs[..i] + blogs[i + 1..];
    forall b | b in blogs && b.id != blogs[i].id ensures b in after {
      var k :| 0 <= k < |blogs| && blogs[k] == b;
      assert after[if k < i then k else k - 1] == b;
    }
    forall b | b in after ensures b in blogs && b.id != blogs[i].id {
      var k :| 0 <= k < |after| && after[k] == b;
      assert b == blogs[if k < i then k else k + 1];
    }
  }

  /** `likeBlog`: the caller's like is toggled; the message reports whether
      the caller had liked the blog before. */
  function LikeBlog(blogs: seq<Blog>, id: nat, caller: UserId): (r: Outcome)
    ensures FindBlog(blogs, id).None? ==> r == Outcome(blogs, 404, MsgBlogNotFound)
    ensures FindBlog(blogs, id).Some? ==>
              var i := FindBlog(blogs, id).value;
              && r.status == 200
              && OnlyChanged(blogs, r.blogs, i)
              && r.blogs[i] == blogs[i].(likes := r.blogs[i].likes)
              && (caller in r.blogs[i].likes <==> caller !in blogs[i].likes)
              && (forall u :: u != caller ==> (u in r.blogs[i].likes <==> u in blogs[i].likes))
              && (r.message == MsgUnliked <==> caller in blogs[i].likes)
              && (r.message == MsgLiked <==> caller !in blogs[i].likes)
  {
    match FindBlog(blogs, id)
    case None => Outcome(blogs, 404, MsgBlogNotFound)
    case Some(i) =>
      var liked := caller in blogs[i].likes;
      var b := blogs[i].(likes := Toggle(blogs[i].likes, caller));
      Outcome(blogs[i := b], 200, if liked then MsgUnliked else MsgLiked)
  }

  /** Liking twice restores who likes the blog, and restores the list
      itself when the caller had not liked it. */
  lemma {:induction false} LikeTwice(blogs: seq<Blog>, id: nat, caller: UserId)
    requires FindBlog(blogs, id).Some?
    ensures var i := FindBlog(blogs, id).value;
            var twice := LikeBlog(LikeBlog(blogs, id, caller).blogs, id, caller).blogs;
            && |twice| == |blogs|
            && (forall u :: u in twice[i].likes <==> u in blogs[i].likes)
            && (caller !in blogs[i].likes ==> twice == blogs)
  {
    var i := FindBlog(blogs, id).value;
    var once := LikeBlog(blogs, id, caller).blogs;
    assert once == blogs[i := blogs[i].(likes := Toggle(blogs[i].likes, caller))];
    SameBlogIds(blogs, i, once[i], id);
    ToggleTwice(blogs[i].likes, caller);
    var twice := LikeBlog(once, id, caller).blogs;
    if caller !in blogs[i].likes {
      assert twice[i] == blogs[i];
    }
  }

  /** `commentOnBlog`: the new comment goes to the front. */
  function CommentOnBlog(blogs: seq<Blog>, id: nat, caller: UserId, text: string, commentId: nat,
                         now: nat): (r: Outcome)
    ensures FindBlog(blogs, id).None? ==> r == Outcome(blogs, 404, MsgBlogNotFound)
    ensures FindBlog(blogs, id).Some? ==>
              var i := FindBlog(blogs, id).value;
              && r.status == 200
              && OnlyChanged(blogs, r.blogs, i)
              && var cs := r.blogs[i].comments;
              && r.blogs[i] == blogs[i].(comments := cs)
              && |cs| == |blogs[i].comments| + 1
              && cs[0] == Comment(commentId, caller, text, now)
              && cs[1..] == blogs[i].comments
  {
    match FindBlog(blogs, id)
    case None => Outcome(blogs, 404, MsgBlogNotFound)
    case Some(i) =>
      var b := blogs[i].(comments := [Comment(commentId, caller, text, now)] + blogs[i].comments);
      Outcome(blogs[i := b], 200, "")
  }

  /** A comment under an unused id can be deleted again by its writer, and
      that restores the collection. */
  lemma CommentThenDelete(blogs: seq<Blog>, id: nat, caller: UserId, text: string, commentId: nat, now: nat)
    requires FindBlog(blogs, id).Some?
    requires FindComment(blogs[FindBlog(blogs, id).value].comments, commentId).None?
    ensures var after := CommentOnBlog(blogs, id, caller, text, commentId, now).blogs;
            DeleteComment(after, id, caller, commentId) == Outcome(blogs, 200, MsgCommentDeleted)
  {
    var i := FindBlog(blogs, id).value;
    var cs := blogs[i].comments;
    var c := Comment(commentId, caller, text, now);
    var b := blogs[i].(comments := [c] + cs);
    SameBlogIds(blogs, i, b, id);
    assert FindComment([c] + cs, commentId) == Some(0);
    DropFresh(c, cs);
    assert blogs[i := b][i := b.(comments := cs)] == blogs;
  }

  /** Dropping the id of a comment put in front of comments without that id
      gives those comments back. */
  lemma DropFresh(c: Comment, cs: seq<Comment>)
    requires forall j :: 0 <= j < |cs| ==> cs[j].id != c.id
    ensures DropComment([c] + cs, c.id) == cs
  {
    assert ([c] + cs)[1..] == cs;
  }

  /** `deleteComment`: 404 for an unknown blog or comment; 401 unless the
      caller wrote the comment or wrote the blog; otherwise every comment
      with that id is removed. */
  function DeleteComment(blogs: seq<Blog>, id: nat, caller: UserId, commentId: nat): (r: Outcome)
    ensures r.status in {200, 401, 404}
    ensures r.status != 200 ==> r.blogs == blogs
    ensures r.status == 404 <==>
              FindBlog(blogs, id).None? || FindComment(blogs[FindBlog(blogs, id).value].comments, commentId).None?
    ensures r.status == 401 ==> r.message == MsgNoCommentDelete
    ensures FindBlog(blogs, id).None? ==> r.message == MsgBlogNotFound
    ensures (FindBlog(blogs, id).Some? && FindComment(blogs[FindBlog(blogs, id).value].comments, commentId).None?)
              ==> r.message == MsgCommentNotFound
    ensures r.status == 200 <==>
              && FindBlog(blogs, id).Some?
              && var b := blogs[FindBlog(blogs, id).value];
                 && FindComment(b.comments, commentId).Some?
                 && (b.comments[FindComment(b.comments, commentId).value].user == caller || b.author == caller)
    ensures r.status == 200 ==>
              var i := FindBlog(blogs, id).value;
              && OnlyChanged(blogs, r.blogs, i)
              && r.blogs[i] == blogs[i].(comments := DropComment(blogs[i].comments, commentId))
              && r.message == MsgCommentDeleted
  {
    match FindBlog(blogs, id)
    case None => Outcome(blogs, 404, MsgBlogNotFound)
    case Some(i) =>
      var b := blogs[i];
      match FindComment(b.comments, commentId)
      case None => Outcome(blogs, 404, MsgCommentNotFound)
      case Some(k) =>
        if b.comments[k].user != caller && b.author != caller then Outcome(blogs, 401, MsgNoCommentDelete)
        else Outcome(blogs[i := b.(comments := DropComment(b.comments, commentId))], 200, MsgCommentDeleted)
  }

  /** The blog's author may delete any comment on it, and the comment
      disappears. */
  lemma AuthorMayDeleteAnyComment(blogs: seq<Blog>, id: nat, commentId: nat)
    requires FindBlog(blogs, id).Some?
    requires var b := blogs[FindBlog(blogs, id).value]; FindComment(b.comments, commentId).Some?
    ensures var i := FindBlog(blogs, id).value;
            var r := DeleteComment(blogs, id, blogs[i].author, commentId);
            && r.status == 200
            && forall c :: c in r.blogs[i].comments ==> c.id != commentId
  {
  }

  /** Someone who wrote neither the blog nor the comment is refused. */
  lemma BystanderCannotDeleteComment(blogs: seq<Blog>, id: nat, caller: UserId, commentId: nat)
    requires FindBlog(blogs, id).Some?
    requires var b := blogs[FindBlog(blogs, id).value];
             && FindComment(b.comments, commentId).Some?
             && b.author != caller && b.comments[FindComment(b.comments, commentId).value].user != caller
    ensures DeleteComment(blogs, id, caller, commentId) == Outcome(blogs, 401, MsgNoCommentDelete)
  {
  }

  /** `shareBlog`: the counter goes up by exactly one. */
  function ShareBlog(blogs: seq<Blog>, id: nat): (r: Outcome)
    ensures FindBlog(blogs, id).None? ==> r == Outcome(blogs, 404, MsgBlogNotFound)
    ensures FindBlog(blogs, id).Some? ==>
              var i := FindBlog(blogs, id).value;
              && r.status == 200 && r.message == MsgShared
              && OnlyChanged(blogs, r.blogs, i)
              && r.blogs[i] == blogs[i].(shares := blogs[i].shares + 1)
  {
    match FindBlog(blogs, id)
    case None => Outcome(blogs, 404, MsgBlogNotFound)
    case Some(i) => Outcome(blogs[i := blogs[i].(shares := blogs[i].shares + 1)], 200, MsgShared)
  }

  /** `n` shares raise the counter by exactly `n`. */
  lemma {:induction false} SharesCount(blogs: seq<Blog>, id: nat, n: nat)
    requires FindBlog(blogs, id).Some?
    ensures var i := FindBlog(blogs, id).value;
            && FindBlog(ShareMany(blogs, id, n), id) == Some(i)
            && ShareMany(blogs, id, n)[i].shares == blogs[i].shares + n
    decreases n
  {
    if n > 0 {
      SharesCount(blogs, id, n - 1);
      ShareOnce(ShareMany(blogs, id, n - 1), id, FindBlog(blogs, id).value);
    }
  }

  /** One share keeps the blog where it was and adds one to its counter. */
  lemma ShareOnce(blogs: seq<Blog>, id: nat, i: nat)
    requires FindBlog(blogs, id) == Some(i)
    ensures FindBlog(ShareBlog(blogs, id).blogs, id) == Some(i)
    ensures ShareBlog(blogs, id).blogs[i].shares == blogs[i].shares + 1
  {
    var b := blogs[i].(shares := blogs[i].shares + 1);
    assert ShareBlog(blogs, id).blogs == blogs[i := b];
    SameBlogIds(blogs, i, b, id);
  }

  /** Replacing a blog by one with the same id keeps the look-up of an id. */
  lemma SameBlogIds(blogs: seq<Blog>, i: nat, b: Blog, id: nat)
    requires i < |blogs| && b.id == blogs[i].id
    ensures FindBlog(blogs[i := b], id) == FindBlog(blogs, id)
  {
    var after := blogs[i := b];
    var x, y := FindBlog(after, id), FindBlog(blogs, id);
    if y.Some? {
      assert after[y.value].id == id;
      assert forall j :: 0 <= j < y.value ==> after[j].id == blogs[j].id;
    }
    if x.Some? {
      assert blogs[x.value].id == id;
      assert forall j :: 0 <= j < x.value ==> after[j].id == blogs[j].id;
    }
  }

  /** The collection after `n` calls of `shareBlog` on the same blog. */
  function ShareMany(blogs: seq<Blog>, id: nat, n: nat): seq<Blog>
    decreases n
  {
    if n == 0 then blogs else ShareBlog(ShareMany(blogs, id, n - 1), id).blogs
  }
}

=== FILE: carousel.dfy ===
/** The home page's popular-blogs carousel: the index starts at 0 and each
    timer tick moves it to the next blog, wrapping from the last to the
    first. The 5-second timer is left out; a tick is a call of `Step`. */
module Carousel {
  /** The tick: the last index goes to 0, any other index `i` to `i + 1`. */
  function Step(i: nat, count: nat): nat {
    if i == count - 1 then 0 else i + 1
  }

  /** `k` ticks from `i`. */
  function Steps(i: nat, count: nat, k: nat): nat
    decreases k
  {
    if k == 0 then i else Steps(Step(i, count), count, k - 1)
  }

  /** From a valid index, any number of ticks stays on a valid index. */
  lemma {:induction false} StepsInRange(i: nat, count: nat, k: nat)
    requires i < count
    ensures Steps(i, count, k) < count
    decreases k
  {
    if k > 0 {
      StepsInRange(Step(i, count), count, k - 1);
    }
  }

  /** Ticks compose: `a + b` ticks are `a` ticks then `b` ticks. */
  lemma {:induction false} StepsCompose(i: nat, count: nat, a: nat, b: nat)
    ensures Steps(i, count, a + b) == Steps(Steps(i, count, a), count, b)
    decreases a
  {
    if a > 0 {
      StepsCompose(Step(i, count), count, a - 1, b);
    }
  }

  /** Before the end of the ring, ticks count up one by one. */
  lemma {:induction false} StepsCountUp(i: nat, count: nat, k: nat)
    requires i + k < count
    ensures Steps(i, count, k) == i + k
    decreases k
  {
    if k > 0 {
      StepsCountUp(i + 1, count, k - 1);
    }
  }

  /** Starting from 0 the index is always a valid index. */
  lemma AlwaysInRange(count: nat, k: nat)
    requires count > 0
    ensures Steps(0, count, k) < count
  {
    StepsInRange(0, count, k);
  }

  /** After as many ticks as there are blogs, the carousel is back where it
      started: it visits every index once per turn. */
  lemma FullTurn(i: nat, count: nat)
    requires i < count
    ensures Steps(i, count, count) == i
    ensures forall k :: 0 < k < count ==> Steps(i, count, k) != i
  {
    var toLast := count - 1 - i;
    StepsCountUp(i, count, toLast);
    StepsCompose(i, count, toLast, 1);
    assert Steps(i, count, toLast + 1) == 0;
    StepsCountUp(0, count, i);
    StepsCompose(i, count, toLast + 1, i);
    forall k | 0 < k < count
      ensures Steps(i, count, k) != i
    {
      if k <= toLast {
        StepsCountUp(i, count, k);
      } else {
        StepsCompose(i, count, toLast + 1, k - toLast - 1);
        StepsCountUp(0, count, k - toLast - 1);
      }
    }
  }
}

=== FILE: client_session.dfy ===
/** The browser's `localStorage`: string keys to string values. */
module Storage {
  import opened Optional

  type Storage = map<string, string>

  /** `localStorage.getItem(k)`, `null` when absent. */
  function Get(st: Storage, k: string): (r: Option<string>)
    ensures r.Some? <==> k in st
    ensures r.Some? ==> r.value == st[k]
  {
    if k in st then Some(st[k]) else None
  }

  /** `localStorage.removeItem(k)`. */
  function Remove(st: Storage, k: string): (r: Storage)
    ensures k !in r
    ensures forall j :: j != k ==> (j in r <==> j in st) && (j in r ==> r[j] == st[j])
  {
    st - {k}
  }

  /** Removing several keys, one after the other. */
  function RemoveAll(st: Storage, ks: seq<string>): (r: Storage)
    ensures forall k :: k in ks ==> k !in r
    ensures forall j :: j !in ks ==> (j in r <==> j in st) && (j in r ==> r[j] == st[j])
    decreases |ks|
  {
    if |ks| == 0 then st else RemoveAll(Remove(st, ks[0]), ks[1..])
  }

  /** Removing the same keys again changes nothing. */
  lemma RemoveAllTwice(st: Storage, ks: seq<string>)
    ensures RemoveAll(RemoveAll(st, ks), ks) == RemoveAll(st, ks)
  {
    var r := RemoveAll(st, ks);
    assert RemoveAll(r, ks).Keys == r.Keys;
  }
}

/** The shared HTTP client of frontend/src/config/axios.js: a request
    interceptor that adds the stored token as a Bearer header, and a
    response interceptor that forgets the session on 401. */
module HttpClient {
  import opened Optional
  import opened JsStrings
  import opened Storage
  import opened Crypto
  import opened Accounts
  import AuthGate

  const SessionKeys: seq<string> := ["token", "userId", "username"]

  /** The request interceptor: `Authorization: Bearer <token>` exactly when
      a truthy token is stored; every other header as configured. */
  function WithAuth(st: Storage, headers: map<string, string>): (r: map<string, string>)
    ensures TruthyOpt(Get(st, "token")) ==>
              "Authorization" in r && r["Authorization"] == "Bearer " + st["token"]
    ensures !TruthyOpt(Get(st, "token")) ==> r == headers
    ensures forall h :: h != "Authorization" ==> (h in r <==> h in headers) && (h in r ==> r[h] == headers[h])
  {
    match Get(st, "token")
    case Some(t) => if Truthy(t) then headers["Authorization" := "Bearer " + t] else headers
    case None => headers
  }

  /** The error interceptor: a 401 clears the three session keys; any other
      failure (or one without a response) leaves storage alone. The error is
      rejected again in every case, so the caller still sees it. */
  function OnError(st: Storage, status: Option<nat>): (r: Storage)
    ensures status == Some(401) ==> forall k :: k in SessionKeys ==> k !in r
    ensures status == Some(401) ==>
              forall j :: j !in SessionKeys ==> (j in r <==> j in st) && (j in r ==> r[j] == st[j])
    ensures status != Some(401) ==> r == st
  {
    if status == Some(401) then RemoveAll(st, SessionKeys) else st
  }

  /** After a 401 the next request goes out without an `Authorization`
      header, and a second 401 changes nothing more. */
  lemma UnauthorizedThenRequest(st: Storage, headers: map<string, string>)
    requires "Authorization" !in headers
    ensures "Authorization" !in WithAuth(OnError(st, Some(401)), headers)
    ensures OnError(OnError(st, Some(401)), Some(401)) == OnError(st, Some(401))
  {
    RemoveAllTwice(st, SessionKeys);
  }

  /** A token the server issued, stored by the client, produces a header
      that the `protect` middleware accepts as that user. */
  lemma StoredTokenAdmits(st: Storage, store: Store, i: nat)
    requires Valid(store) && i < |store.users|
    requires Get(st, "token") == Some(Sign(store.users[i].id))
    ensures var h := WithAuth(st, map[]);
            && "Authorization" in h
            && AuthGate.Protect(store.users, Some(h["Authorization"])) == AuthGate.Pass(i)
  {
    AuthGate.BearerRoundTrip(store, i);
    assert AuthGate.BearerWord + " " == "Bearer ";
    assert AuthGate.BearerWord + " " + Sign(store.users[i].id) == "Bearer " + Sign(store.users[i].id);
  }
}

/** The session state of frontend/src/context/AuthContext.jsx. */
module AuthSession {
  import opened Optional
  import opened JsStrings
  import opened Storage
  import opened Accounts
  import HttpClient

  datatype Session = Session(user: Option<View>, loading: bool, isNewUser: bool, storage: Storage)

  /** The provider's first render: no user, still loading. */
  function Initial(st: Storage): (s: Session)
    ensures s.loading && s.user.None? && !s.isNewUser && s.storage == st
  {
    Session(None, true, false, st)
  }

  /** What `GET /api/users/me` came back with. */
  datatype Fetch = Failed(status: Option<nat>) | Fetched(data: Option<View>)

  /** The user object `checkAuth` keeps: the six profile fields. */
  function Kept(d: View): (v: View)
    ensures v.id == d.id && v.fullName == d.fullName && v.username == d.username
    ensures v.email == d.email && v.profilePicture == d.profilePicture && v.bio == d.bio
    ensures v.isVerified.None? && v.subscribers.None? && v.subscribersCount.None?
  {
    View(d.id, d.fullName, d.username, d.email, d.profilePicture, d.bio, None, None, None)
  }

  /** `checkAuth`: without a token, stop loading and send nothing (the
      returned flag says whether a request went out). With one, a failed
      fetch passes through the client's error interceptor and then drops
      the token and the user; a fetched profile becomes the user. Loading
      ends either way. */
  function CheckAuth(s: Session, fetch: Fetch): (r: (Session, bool))
    ensures !r.0.loading
    ensures r.1 <==> TruthyOpt(Get(s.storage, "token"))
    ensures !r.1 ==> r.0 == s.(loading := false)
    ensures r.1 && fetch.Failed? ==> r.0.user.None? && "token" !in r.0.storage
    ensures r.1 && fetch.Failed? ==>
              r.0.storage == Remove(HttpClient.OnError(s.storage, fetch.status), "token")
    ensures r.1 && fetch.Fetched? ==> r.0.storage == s.storage
    ensures r.1 && fetch.Fetched? && fetch.data.Some? ==> r.0.user == Some(Kept(fetch.data.value))
    ensures r.1 && fetch.Fetched? && fetch.data.None? ==> r.0.user == s.user
    ensures r.0.isNewUser == s.isNewUser
  {
    if !TruthyOpt(Get(s.storage, "token")) then (s.(loading := false), false)
    else
      match fetch
      case Failed(status) =>
        (s.(user := None, loading := false,
            storage := Remove(HttpClient.OnError(s.storage, status), "token")), true)
      case Fetched(data) =>
        var user := if data.Some? then Some(Kept(data.value)) else s.user;
        (s.(user := user, loading := false), true)
  }

  /** `login(userData, newUser = false)`. */
  function Login(s: Session, userData: View, newUser: Option<bool>): (r: Session)
    ensures r.user == Some(userData) && r.isNewUser == newUser.GetOr(false)
    ensures r.storage == s.storage && r.loading == s.loading
  {
    s.(user := Some(userData), isNewUser := newUser.GetOr(false))
  }

  /** `logout()`. */
  function Logout(s: Session): (r: Session)
    ensures r.user.None? && !r.isNewUser && r.loading == s.loading
    ensures forall k :: k in HttpClient.SessionKeys ==> k !in r.storage
    ensures forall j :: j !in HttpClient.SessionKeys ==>
              (j in r.storage <==> j in s.storage) && (j in r.storage ==> r.storage[j] == s.storage[j])
  {
    s.(user := None, isNewUser := false, storage := RemoveAll(s.storage, HttpClient.SessionKeys))
  }

  /** Logging in and then out leaves no user, no new-user flag and no
      session key, and every other stored key as it was. */
  lemma LoginLogout(s: Session, userData: View, newUser: Option<bool>)
    ensures var r := Logout(Login(s, userData, newUser));
            && r.user.None? && !r.isNewUser && r.loading == s.loading
            && (forall k :: k in HttpClient.SessionKeys ==> k !in r.storage)
            && forall j :: j !in HttpClient.SessionKeys ==>
                 (j in r.storage <==> j in s.storage) && (j in r.storage ==> r.storage[j] == s.storage[j])
  {
  }

  /** `{!loading && children}`. */
  predicate ShowsChildren(s: Session) {
    !s.loading
  }

  /** The children are hidden until `checkAuth` has finished, and shown
      from then on whatever the fetch returned; a stored token the server
      refused with 401 leaves a session with no user and no session keys. */
  lemma {:induction false} ChildrenAfterCheck(st: Storage, fetch: Fetch)
    ensures !ShowsChildren(Initial(st))
    ensures ShowsChildren(CheckAuth(Initial(st), fetch).0)
    ensures fetch == Failed(Some(401)) && TruthyOpt(Get(st, "token")) ==>
              var s := CheckAuth(Initial(st), fetch).0;
              s.user.None? && forall k :: k in HttpClient.SessionKeys ==> k !in s.storage
  {
    if fetch == Failed(Some(401)) && TruthyOpt(Get(st, "token")) {
      var s := CheckAuth(Initial(st), fetch).0;
      var cleared := HttpClient.OnError(st, Some(401));
      assert s.storage == Remove(cleared, "token");
      forall k | k in HttpClient.SessionKeys ensures k !in s.storage {
        assert k !in cleared;
      }
    }
  }
}

/** The session bookkeeping of frontend/src/App.jsx: a token and the
    serialised user in storage. `JSON.stringify` and `JSON.parse` are taken
    to be inverse, so the user is kept as its serialised text. */
module LegacyApp {
  import opened Optional
  import opened JsStrings
  import opened Storage

  datatype App = App(isAuthenticated: bool, user: Option<string>, storage: Storage)

  /** The load effect: authenticated exactly when a truthy token is
      stored, and then the stored user, if any, is read back. */
  function Load(st: Storage): (a: App)
    ensures a.isAuthenticated <==> TruthyOpt(Get(st, "token"))
    ensures a.isAuthenticated ==> a.user == Get(st, "user")
    ensures !a.isAuthenticated ==> a.user.None?
    ensures a.storage == st
  {
    if TruthyOpt(Get(st, "token")) then App(true, Get(st, "user"), st) else App(false, None, st)
  }

  function Login(a: App, userData: string, token: string): (r: App)
    ensures r.isAuthenticated && r.user == Some(userData)
    ensures "token" in r.storage && r.storage["token"] == token
    ensures "user" in r.storage && r.storage["user"] == userData
    ensures forall k :: k != "token" && k != "user" ==>
              (k in r.storage <==> k in a.storage) && (k in r.storage ==> r.storage[k] == a.storage[k])
  {
    App(true, Some(userData), a.storage["token" := token]["user" := userData])
  }

  function Logout(a: App): (r: App)
    ensures !r.isAuthenticated && r.user.None?
    ensures "token" !in r.storage && "user" !in r.storage
    ensures forall k :: k != "token" && k != "user" ==>
              (k in r.storage <==> k in a.storage) && (k in r.storage ==> r.storage[k] == a.storage[k])
  {
    App(false, None, Remove(Remove(a.storage, "token"), "user"))
  }

  /** Logging in and then out leaves neither key behind and every other
      key as it was. */
  lemma LoginLogout(a: App, userData: string, token: string)
    ensures var r := Logout(Login(a, userData, token));
            && "token" !in r.storage && "user" !in r.storage && !r.isAuthenticated
            && forall k :: k != "token" && k != "user" ==>
                 (k in r.storage <==> k in a.storage) && (k in r.storage ==> r.storage[k] == a.storage[k])
  {
  }

  /** A reload after login restores the session, except that an empty
      token, though it logged the app in, is not kept across the reload. */
  lemma LoginThenReload(a: App, userData: string, token: string)
    ensures var r := Load(Login(a, userData, token).storage);
            && (r.isAuthenticated <==> token != "")
            && (token != "" ==> r.user == Some(userData))
  {
  }
}

/** The initial authentication and the route table of src/App.jsx. */
module Routing {
  import opened Optional
  import opened JsStrings
  import opened Storage

  datatype Route =
    | HomeRoute | SignIn | SignUp | VerifyRoute | About
    | CreateProfile | MainRoute | ProfileRoute(username: string) | CreateBlog | BlogSuccess
    | BlogDetail(blogId: string) | Settings

  /** Either the page of the route is rendered or the router navigates. */
  datatype Screen = Page(route: Route) | Navigate(to: string)

  /** The routes wrapped in the authentication check. */
  predicate Protected(r: Route) {
    r.CreateProfile? || r.MainRoute? || r.ProfileRoute? || r.CreateBlog? || r.BlogSuccess?
    || r.BlogDetail? || r.Settings?
  }

  /** The mount effect: authenticated exactly when a truthy token is
      stored. */
  function InitialAuth(st: Storage): (auth: bool)
    ensures auth <==> "token" in st && st["token"] != ""
  {
    TruthyOpt(Get(st, "token"))
  }

  /** The element each route renders. */
  function Render(r: Route, auth: bool): (s: Screen)
    ensures Protected(r) ==> (s == Page(r) <==> auth) && (!auth ==> s == Navigate("/signin"))
    ensures (r.SignIn? || r.SignUp?) ==> (auth <==> s == Navigate("/main")) && (!auth ==> s == Page(r))
    ensures (r.HomeRoute? || r.VerifyRoute? || r.About?) ==> s == Page(r)
  {
    if Protected(r) then (if auth then Page(r) else Navigate("/signin"))
    else if r.SignIn? || r.SignUp? then (if auth then Navigate("/main") else Page(r))
    else Page(r)
  }

  /** No route renders a page that needs a session without one: every
      screen is either public or a page shown while authenticated. */
  lemma NoProtectedPageWithoutSession(r: Route, st: Storage)
    requires !InitialAuth(st)
    ensures Render(r, InitialAuth(st)).Page? ==> !Protected(Render(r, InitialAuth(st)).route)
  {
  }
}

=== FILE: crypto.dfy ===
/** Idealised stand-ins for bcrypt and JSON Web Tokens.

    bcrypt: a digest records its salt and determines the plaintext it was
    made from, so `Compare(p, Hash(q, salt))` holds exactly when `p == q`
    (no collisions, no cost factor).

    JWT: a token is the prefix `jwt.` followed by the decimal id it was
    signed for; verification accepts exactly the strings `Sign` produces.
    The signing secret and the 30-day expiry are not modelled. */
module Crypto {
  import opened Optional
  import opened JsStrings

  /** What bcrypt stores: never a plaintext string. */
  datatype Digest = Digest(salt: nat, secret: string)

  /** `bcrypt.hash(plain, salt)`. */
  function Hash(plain: string, salt: nat): (d: Digest)
    ensures Compare(plain, d)
    ensures forall q :: Compare(q, d) ==> q == plain
  {
    Digest(salt, plain)
  }

  /** `bcrypt.compare(plain, digest)`. */
  predicate Compare(plain: string, d: Digest) {
    d.secret == plain
  }

  const TokenPrefix: string := "jwt."

  /** `jwt.sign({ id }, secret)`. */
  function Sign(id: nat): (t: string)
    ensures StartsWith(t, TokenPrefix) && |t| > |TokenPrefix|
    ensures forall i :: 0 <= i < |t| ==> t[i] != ' '
  {
    var t := TokenPrefix + Digits(id);
    assert forall i :: |TokenPrefix| <= i < |t| ==> t[i] == Digits(id)[i - |TokenPrefix|];
    t
  }

  /** `jwt.verify(token, secret)`: the id a token was signed for, or `None`
      for anything that is not a token this server issued. */
  function Verify(t: string): (r: Option<nat>)
    ensures r.Some? ==> Sign(r.value) == t
  {
    if StartsWith(t, TokenPrefix) && |t| > |TokenPrefix| && AllDigits(t[|TokenPrefix|..]) then
      var id := Value(t[|TokenPrefix|..]);
      if Sign(id) == t then Some(id) else None
    else None
  }

  /** Every issued token verifies to the id it was issued for. */
  lemma VerifySign(id: nat)
    ensures Verify(Sign(id)) == Some(id)
  {
    var t := Sign(id);
    assert t[|TokenPrefix|..] == Digits(id);
    ValueDigits(id);
  }

  /** Tokens of different users differ. */
  lemma SignInjective(a: nat, b: nat)
    requires Sign(a) == Sign(b)
    ensures a == b
  {
    VerifySign(a);
    VerifySign(b);
  }
}

=== FILE: feed.dfy ===
/** The blog feed of the frontend's main page: the tag filter and search
    over the fetched blogs, the de-duplicated tag list, and the five most
    prolific authors. The fetch itself is left out; `posts` is its
    `data` array, in the order it arrived. */
module Feed {
  import opened Optional
  import opened JsStrings
  import opened Lists

  datatype AuthorRef = AuthorRef(id: string, fullName: string)

  /** A fetched blog: its title is always there, the rest may be missing. */
  datatype Post = Post(title: string, content: Option<string>, tags: Option<seq<string>>,
                       author: Option<AuthorRef>)

  const AllFilter: string := "all"

  /** Some tag of the blog equals the filter, ignoring case. */
  predicate TagMatches(p: Post, filter: string) {
    p.tags.Some? && exists t :: t in p.tags.value && Lower(t) == Lower(filter)
  }

  /** The lower-cased query occurs in the lower-cased title, content or
      some tag. */
  predicate SearchMatches(p: Post, query: string) {
    var q := Lower(query);
    || Includes(Lower(p.title), q)
    || (TruthyOpt(p.content) && Includes(Lower(p.content.value), q))
    || (p.tags.Some? && exists t :: t in p.tags.value && Includes(Lower(t), q))
  }

  /** Whether a blog survives both steps of `getFilteredBlogs`: the tag
      step unless the filter is `all`, the search step only for a query
      that is not blank (the query itself is not trimmed). */
  predicate Shown(p: Post, filter: string, query: string) {
    (filter == AllFilter || TagMatches(p, filter)) && (Trim(query) == "" || SearchMatches(p, query))
  }

  /** `getFilteredBlogs()`: two successive `filter` calls, kept as one pass
      over the conjunction. */
  function FilteredPosts(posts: seq<Post>, filter: string, query: string): (r: seq<Post>)
    ensures SubseqOf(r, posts)
    ensures forall p :: p in r <==> p in posts && Shown(p, filter, query)
    decreases |posts|
  {
    if |posts| == 0 then []
    else
      var rest := FilteredPosts(posts[1..], filter, query);
      if Shown(posts[0], filter, query) then
        assert ([posts[0]] + rest)[1..] == rest;
        [posts[0]] + rest
      else rest
  }

  /** With the `all` filter and a blank query every blog is shown. */
  lemma {:induction false} NoFilterShowsAll(posts: seq<Post>, query: string)
    requires Trim(query) == ""
    ensures FilteredPosts(posts, AllFilter, query) == posts
    decreases |posts|
  {
    if |posts| > 0 {
      NoFilterShowsAll(posts[1..], query);
      assert [posts[0]] + posts[1..] == posts;
    }
  }

  lemma LowerUpper(s: string)
    ensures Lower(Upper(s)) == Lower(s)
  {
  }

  /** The tag filter ignores case: `React` and `REACT` show the same blogs. */
  lemma {:induction false} FilterIgnoresCase(posts: seq<Post>, filter: string, query: string)
    requires filter != AllFilter && Upper(filter) != AllFilter
    ensures FilteredPosts(posts, Upper(filter), query) == FilteredPosts(posts, filter, query)
    decreases |posts|
  {
    LowerUpper(filter);
    if |posts| > 0 {
      FilterIgnoresCase(posts[1..], filter, query);
      assert Shown(posts[0], Upper(filter), query) == Shown(posts[0], filter, query);
    }
  }

  /** `blogs.flatMap(blog => blog.tags || [])`. */
  function AllTags(posts: seq<Post>): (r: seq<string>)
    ensures forall t :: t in r <==> exists p :: p in posts && p.tags.Some? && t in p.tags.value
    decreases |posts|
  {
    if |posts| == 0 then []
    else
      var rest := AllTags(posts[1..]);
      var mine := match posts[0].tags case None => [] case Some(ts) => ts;
      assert forall p :: p in posts <==> p == posts[0] || p in posts[1..];
      mine + rest
  }

  /** `[...new Set(allTags)]`: each tag is inserted the first time it is
      met, so the list is `Dedup` of all tags. */
  method UniqueTags(posts: seq<Post>) returns (tags: seq<string>)
    ensures tags == Dedup(AllTags(posts))
    ensures Distinct(tags)
    ensures forall t :: t in tags <==> t in AllTags(posts)
  {
    var all := AllTags(posts);
    tags := [];
    var i := 0;
    while i < |all|
      invariant 0 <= i <= |all|
      invariant tags == Dedup(all[..i])
    {
      assert all[..i + 1][..i] == all[..i];
      if all[i] !in tags {
        tags := tags + [all[i]];
      }
      i := i + 1;
    }
    assert all[..|all|] == all;
  }

  /** How many blogs name `id` as their author. */
  function CountOf(posts: seq<Post>, id: string): nat
    decreases |posts|
  {
    if |posts| == 0 then 0
    else
      var n := |posts| - 1;
      CountOf(posts[..n], id) + (if posts[n].author.Some? && posts[n].author.value.id == id then 1 else 0)
  }

  /** One `authorCounts` value: the first author object seen for an id and
      its number of blogs. */
  datatype Tally = Tally(author: AuthorRef, count: nat)

  predicate DistinctIds(t: seq<Tally>) {
    forall i, j :: 0 <= i < j < |t| ==> t[i].author.id != t[j].author.id
  }

  function FindId(t: seq<Tally>, id: string): (r: Option<nat>)
    ensures r.Some? ==> r.value < |t| && t[r.value].author.id == id
    ensures r.None? ==> forall k :: 0 <= k < |t| ==> t[k].author.id != id
    decreases |t|
  {
    if |t| == 0 then None
    else if t[0].author.id == id then Some(0)
    else match FindId(t[1..], id) case None => None case Some(k) => Some(k + 1)
  }

  /** The `forEach` that fills `authorCounts`: blogs without an author or
      with an empty id are skipped, each id has one entry, and each entry
      holds the number of blogs of its author. The order of the entries is
      not stated here; `Tally1` keeps every earlier entry in its place. */
  function Tallies(posts: seq<Post>): (t: seq<Tally>)
    ensures DistinctIds(t)
    ensures forall k :: 0 <= k < |t| ==> t[k].author.id != "" && t[k].count == CountOf(posts, t[k].author.id) >= 1
    ensures forall id :: id != "" && CountOf(posts, id) > 0 ==> exists k :: 0 <= k < |t| && t[k].author.id == id
    decreases |posts|
  {
    if |posts| == 0 then []
    else
      var n := |posts| - 1;
      var t := Tallies(posts[..n]);
      assert posts[..n] == posts[..|posts| - 1];
      StepCounts(posts, t);
      Tally1(t, posts[n])
  }

  /** One blog of the `forEach`: a new author is appended with count 1, a
      known one has its count raised. */
  function Tally1(t: seq<Tally>, p: Post): (u: seq<Tally>)
    ensures |u| >= |t|
    ensures forall j :: 0 <= j < |t| ==> u[j].author == t[j].author
  {
    if p.author.None? || p.author.value.id == "" then t
    else
      match FindId(t, p.author.value.id)
      case Some(k) => t[k := t[k].(count := t[k].count + 1)]
      case None => t + [Tally(p.author.value, 1)]
  }

  /** The tallies of `posts` are exactly its authors with their counts. */
  ghost predicate Counted(posts: seq<Post>, t: seq<Tally>) {
    && DistinctIds(t)
    && (forall k :: 0 <= k < |t| ==> t[k].author.id != "" && t[k].count == CountOf(posts, t[k].author.id) >= 1)
    && (forall id :: id != "" && CountOf(posts, id) > 0 ==> exists k :: 0 <= k < |t| && t[k].author.id == id)
  }

  /** A blog added to the end moves only its own author's count. */
  lemma CountOfLast(posts: seq<Post>, id: string)
    requires |posts| > 0
    ensures var p := posts[|posts| - 1];
            CountOf(posts, id) == CountOf(posts[..|posts| - 1], id) + (if p.author.Some? && p.author.value.id == id then 1 else 0)
  {
  }

  /** `Tally1` keeps the tallies counted when the blog is the last one. */
  lemma StepCounts(posts: seq<Post>, t: seq<Tally>)
    requires |posts| > 0 && Counted(posts[..|posts| - 1], t)
    ensures Counted(posts, Tally1(t, posts[|posts| - 1]))
  {
    var n := |posts| - 1;
    var p := posts[n];
    forall id ensures CountOf(posts, id) == CountOf(posts[..n], id) + (if p.author.Some? && p.author.value.id == id then 1 else 0) {
      CountOfLast(posts, id);
    }
    if p.author.Some? && p.author.value.id != "" {
      var id := p.author.value.id;
      match FindId(t, id)
      case Some(k) =>
        var u := Tally1(t, p);
        assert u == t[k := t[k].(count := t[k].count + 1)];
        assert forall j :: 0 <= j < |t| && j != k ==> u[j] == t[j];
      case None =>
        var u := Tally1(t, p);
        assert u == t + [Tally(p.author.value, 1)];
        assert forall j :: 0 <= j < |t| ==> u[j] == t[j];
        assert u[|t|].author.id == id;
    }
  }

  predicate NonIncreasing(t: seq<Tally>) {
    forall i, j :: 0 <= i < j < |t| ==> t[i].count >= t[j].count
  }

  /** Insert `e` after every entry with at least its count. */
  function InsertDesc(s: seq<Tally>, e: Tally): (r: seq<Tally>)
    requires NonIncreasing(s)
    ensures NonIncreasing(r)
    ensures multiset(r) == multiset(s) + multiset{e}
    ensures r[0] == e || (|s| > 0 && r[0] == s[0])
    decreases |s|
  {
    if |s| == 0 || s[0].count < e.count then
      assert multiset([e] + s) == multiset{e} + multiset(s);
      [e] + s
    else
      var rest := InsertDesc(s[1..], e);
      assert s == [s[0]] + s[1..];
      ConsNonIncreasing(s[0], rest);
      [s[0]] + rest
  }

  /** An entry with at least the count of the head of a ranked list can go
      in front of it. */
  lemma ConsNonIncreasing(x: Tally, rest: seq<Tally>)
    requires NonIncreasing(rest) && (|rest| > 0 ==> x.count >= rest[0].count)
    ensures NonIncreasing([x] + rest)
  {
    var r := [x] + rest;
    forall i, j | 0 <= i < j < |r| ensures r[i].count >= r[j].count {
      assert r[j] == rest[j - 1];
      if i > 0 {
        assert r[i] == rest[i - 1];
      } else {
        assert rest[0].count >= rest[j - 1].count;
      }
    }
  }

  /** `sort((a, b) => b.count - a.count)`, a stable sort: by insertion,
      each entry going after the earlier entries with at least its count. */
  function SortDesc(t: seq<Tally>): (r: seq<Tally>)
    ensures NonIncreasing(r)
    ensures multiset(r) == multiset(t)
    decreases |t|
  {
    if |t| == 0 then []
    else
      var n := |t| - 1;
      assert t == t[..n] + [t[n]];
      InsertDesc(SortDesc(t[..n]), t[n])
  }

  const TopCount: nat := 5

  /** `.slice(0, 5)`. */
  function FirstFive(s: seq<Tally>): (r: seq<Tally>)
    ensures |r| == (if |s| <= TopCount then |s| else TopCount)
    ensures r == s[..|r|]
  {
    if |s| <= TopCount then s else s[..TopCount]
  }

  /** `.map(item => item.author)`. */
  function AuthorsOf(s: seq<Tally>): (r: seq<AuthorRef>)
    ensures |r| == |s|
    ensures forall i :: 0 <= i < |s| ==> r[i] == s[i].author
  {
    seq(|s|, i requires 0 <= i < |s| => s[i].author)
  }

  /** The top authors of the sorted tallies. */
  function TopAuthors(posts: seq<Post>): (r: seq<AuthorRef>)
    ensures |r| <= TopCount
  {
    AuthorsOf(FirstFive(SortDesc(Tallies(posts))))
  }

  /** Sorting tallies with distinct ids keeps the same entries, still with
      distinct ids, in non-increasing order of count. */
  lemma SortedTallies(t: seq<Tally>)
    requires DistinctIds(t)
    ensures var sorted := SortDesc(t);
            && (forall x :: x in sorted <==> x in t)
            && DistinctIds(sorted)
            && NonIncreasing(sorted)
  {
    SortedEntries(t, SortDesc(t));
    SortedDistinct(t, SortDesc(t));
  }

  /** The top five of tallies with distinct ids: the first five sorted
      entries' authors. */
  lemma TopOfTallies(t: seq<Tally>)
    requires DistinctIds(t)
    ensures var sorted := SortDesc(t);
            var r := AuthorsOf(FirstFive(sorted));
            && |r| == (if |sorted| <= TopCount then |sorted| else TopCount)
            && (forall i :: 0 <= i < |r| ==> r[i] == sorted[i].author)
            && (forall x :: x in sorted <==> x in t)
            && DistinctIds(sorted)
  {
    SortedTallies(t);
  }

  /** The listed authors are the first five sorted tallies, each of which
      is a tally of the blogs. */
  lemma TopAuthorsFromTallies(posts: seq<Post>)
    ensures var t := Tallies(posts);
            var sorted := SortDesc(t);
            var r := TopAuthors(posts);
            && |r| == (if |sorted| <= TopCount then |sorted| else TopCount)
            && (forall i :: 0 <= i < |r| ==> r[i] == sorted[i].author)
            && (forall x :: x in sorted <==> x in t)
            && DistinctIds(sorted)
  {
    TopOfTallies(Tallies(posts));
  }

  /** Each entry of `t` is an author of `posts` with their number of blogs. */
  predicate CountsOf(posts: seq<Post>, t: seq<Tally>) {
    forall k :: 0 <= k < |t| ==> t[k].author.id != "" && t[k].count == CountOf(posts, t[k].author.id) >= 1
  }

  /** A ranking of authors of `posts`: each an author with blogs, each
      once, by non-increasing number of blogs. */
  predicate Ranked(posts: seq<Post>, r: seq<AuthorRef>) {
    && (forall i :: 0 <= i < |r| ==> r[i].id != "" && CountOf(posts, r[i].id) > 0)
    && (forall i, j :: 0 <= i < j < |r| ==> r[i].id != r[j].id)
    && (forall i, j :: 0 <= i < j < |r| ==> CountOf(posts, r[i].id) >= CountOf(posts, r[j].id))
  }

  /** The first five authors of sorted tallies of `posts` are ranked. */
  lemma RankedOf(posts: seq<Post>, t: seq<Tally>)
    requires DistinctIds(t) && CountsOf(posts, t)
    ensures Ranked(posts, AuthorsOf(FirstFive(SortDesc(t))))
  {
    SortedDistinct(t, SortDesc(t));
    SortedCountsOf(posts, t, SortDesc(t));
    RankedFirstFive(posts, SortDesc(t));
  }

  /** The top-authors list: each entry an author with blogs, each author
      once, by non-increasing number of blogs. */
  lemma TopAuthorsRanked(posts: seq<Post>)
    ensures var r := TopAuthors(posts);
            && (forall i :: 0 <= i < |r| ==> r[i].id != "" && CountOf(posts, r[i].id) > 0)
            && (forall i, j :: 0 <= i < j < |r| ==> r[i].id != r[j].id)
            && (forall i, j :: 0 <= i < j < |r| ==> CountOf(posts, r[i].id) >= CountOf(posts, r[j].id))
  {
    RankedOf(posts, Tallies(posts));
    assert Ranked(posts, TopAuthors(posts));
  }

  /** A reordering of tallies of `posts` is still tallies of `posts`. */
  lemma SortedCountsOf(posts: seq<Post>, t: seq<Tally>, s: seq<Tally>)
    requires CountsOf(posts, t) && multiset(s) == multiset(t)
    ensures CountsOf(posts, s)
  {
    forall i | 0 <= i < |s|
      ensures s[i].author.id != "" && s[i].count == CountOf(posts, s[i].author.id) >= 1
    {
      assert s[i] in multiset(s);
      assert s[i] in t;
    }
  }

  /** The first five authors of ranked tallies of `posts`. */
  lemma RankedFirstFive(posts: seq<Post>, s: seq<Tally>)
    requires NonIncreasing(s) && DistinctIds(s) && CountsOf(posts, s)
    ensures Ranked(posts, AuthorsOf(FirstFive(s)))
  {
    var r := AuthorsOf(FirstFive(s));
    assert forall i :: 0 <= i < |r| ==> r[i] == s[i].author;
  }

  /** An author missing from the list `r` has no more blogs than the fifth
      listed author, and the list is full. */
  predicate Covers(posts: seq<Post>, r: seq<AuthorRef>, id: string) {
    (forall i :: 0 <= i < |r| ==> r[i].id != id) ==>
      |r| == TopCount && CountOf(posts, id) <= CountOf(posts, r[TopCount - 1].id)
  }

  /** The first five sorted authors cover every tally of `t`. */
  lemma LeftOutOf(posts: seq<Post>, t: seq<Tally>, k: nat)
    requires DistinctIds(t) && CountsOf(posts, t) && k < |t|
    ensures Covers(posts, AuthorsOf(FirstFive(SortDesc(t))), t[k].author.id)
  {
    var s := SortDesc(t);
    assert t[k] in multiset(t);
    SortedCountsOf(posts, t, s);
    MissingRanksLower(posts, s, t[k]);
  }

  /** The first five authors of a ranked list cover each of its entries. */
  lemma MissingRanksLower(posts: seq<Post>, s: seq<Tally>, e: Tally)
    requires NonIncreasing(s) && CountsOf(posts, s) && e in s
    ensures Covers(posts, AuthorsOf(FirstFive(s)), e.author.id)
  {
    var r := AuthorsOf(FirstFive(s));
    if forall i :: 0 <= i < |r| ==> r[i].id != e.author.id {
      var m :| 0 <= m < |s| && s[m] == e;
      assert forall i {:trigger s[i]} :: 0 <= i < |r| ==> r[i] == s[i].author;
      assert m >= |r|;
      assert r[TopCount - 1] == s[TopCount - 1].author;
    }
  }

  /** An author with blogs who is left out of the list has no more blogs
      than the fifth listed author. */
  lemma TopAuthorsComplete(posts: seq<Post>, id: string)
    requires id != "" && CountOf(posts, id) > 0
    requires forall i :: 0 <= i < |TopAuthors(posts)| ==> TopAuthors(posts)[i].id != id
    ensures |TopAuthors(posts)| == TopCount
    ensures CountOf(posts, id) <= CountOf(posts, TopAuthors(posts)[TopCount - 1].id)
  {
    var t := Tallies(posts);
    var k :| 0 <= k < |t| && t[k].author.id == id;
    LeftOutOf(posts, t, k);
    assert Covers(posts, TopAuthors(posts), id);
  }

  /** The sorted list holds exactly the entries of the unsorted one. */
  lemma SortedEntries(t: seq<Tally>, sorted: seq<Tally>)
    requires multiset(sorted) == multiset(t)
    ensures forall x :: x in sorted <==> x in t
  {
    assert forall x :: x in sorted <==> x in multiset(sorted);
    assert forall x :: x in t <==> x in multiset(t);
  }

  /** Sorting a list with distinct ids keeps the ids distinct. */
  lemma SortedDistinct(t: seq<Tally>, sorted: seq<Tally>)
    requires DistinctIds(t) && multiset(sorted) == multiset(t)
    ensures DistinctIds(sorted)
  {
    forall i, j | 0 <= i < j < |sorted|
      ensures sorted[i].author.id != sorted[j].author.id
    {
      if sorted[i].author.id == sorted[j].author.id {
        assert sorted[i] in multiset(t) && sorted[j] in multiset(t);
        var a :| 0 <= a < |t| && t[a] == sorted[i];
        var b :| 0 <= b < |t| && t[b] == sorted[j];
        if a == b {
          DistinctOnce(t, a);
          TwiceCounted(sorted, i, j);
          assert false;
        } else {
          assert false;
        }
      }
    }
  }

  /** Two equal entries at different places count twice. */
  lemma TwiceCounted(s: seq<Tally>, i: nat, j: nat)
    requires i < j < |s| && s[i] == s[j]
    ensures multiset(s)[s[i]] >= 2
  {
    assert s == s[..j] + [s[j]] + s[j + 1..];
    assert s[i] in s[..j];
  }

  /** In a list with distinct ids every entry occurs once. */
  lemma {:induction false} DistinctOnce(t: seq<Tally>, a: nat)
    requires DistinctIds(t) && a < |t|
    ensures multiset(t)[t[a]] == 1
    decreases |t|
  {
    var n := |t| - 1;
    assert t == t[..n] + [t[n]];
    assert DistinctIds(t[..n]);
    if a == n {
      assert t[n] !in t[..n];
    } else {
      DistinctOnce(t[..n], a);
      assert t[n] != t[a];
    }
  }
}

/** The prototype main page under src/: an exact, case-sensitive tag filter,
    a search on any non-empty query, and the popular tags of its sample
    blogs. */
module PrototypeFeed {
  import opened JsStrings
  import opened Lists

  datatype SamplePost = SamplePost(title: string, excerpt: string, authorName: string, tags: seq<string>)

  /** The search of the prototype page over title, excerpt, author name and
      tags, lower-cased. */
  predicate Matches(p: SamplePost, query: string) {
    var q := Lower(query);
    || Includes(Lower(p.title), q) || Includes(Lower(p.excerpt), q) || Includes(Lower(p.authorName), q)
    || exists t :: t in p.tags && Includes(Lower(t), q)
  }

  predicate Kept(p: SamplePost, filter: string, query: string) {
    (filter == "all" || filter in p.tags) && (query == "" || Matches(p, query))
  }

  /** `blogs.filter(...)`: the tag filter first, then the search when the
      query is not empty. */
  function Filtered(posts: seq<SamplePost>, filter: string, query: string): (r: seq<SamplePost>)
    ensures SubseqOf(r, posts)
    ensures forall p :: p in r <==> p in posts && Kept(p, filter, query)
    decreases |posts|
  {
    if |posts| == 0 then []
    else
      var rest := Filtered(posts[1..], filter, query);
      if Kept(posts[0], filter, query) then
        assert ([posts[0]] + rest)[1..] == rest;
        [posts[0]] + rest
      else rest
  }

  /** Unlike the frontend, a blank but non-empty query still searches: a
      query of one space keeps only blogs with a space somewhere. */
  lemma SpaceQuerySearches(p: SamplePost)
    requires !Matches(p, " ")
    ensures Filtered([p], "all", " ") == []
  {
  }

  /** `mockBlogs.flatMap(blog => blog.tags)`. */
  function Tags(posts: seq<SamplePost>): (r: seq<string>)
    ensures forall t :: t in r <==> exists p :: p in posts && t in p.tags
    decreases |posts|
  {
    if |posts| == 0 then []
    else
      assert forall p :: p in posts <==> p == posts[0] || p in posts[1..];
      posts[0].tags + Tags(posts[1..])
  }

  /** The popular tags: `Array.from(new Set(...))` of all tags. */
  function PopularTags(posts: seq<SamplePost>): (r: seq<string>)
    ensures Distinct(r)
    ensures forall t :: t in r <==> exists p :: p in posts && t in p.tags
    ensures forall i, j :: 0 <= i < j < |r| ==>
              r[i] in Tags(posts) && r[j] in Tags(posts) && FirstIndex(Tags(posts), r[i]) < FirstIndex(Tags(posts), r[j])
  {
    Dedup(Tags(posts))
  }
}

=== FILE: formatting.dfy ===
/** Selection formatting in the two text editors: wrapping the selected text
    in bold, italic or colour markup, placing the cursor afterwards, and the
    preview's newline step. A selection `[start, end)` comes from a
    textarea, which keeps `start <= end <= |text|`. */
module Formatting {
  import opened Optional
  import opened JsStrings

  datatype Format = Bold | Italic | Color(param: string) | Other(name: string)

  /** The text after an edit and the cursor the editor then sets. */
  datatype Edit = Edit(text: string, cursor: nat)

  const CloseColor: string := "{/color}"

  function OpenColor(param: string): string {
    "{color:" + param + "}"
  }

  /** The markup a format wraps around a selection; `None` for an unknown
      format. */
  function Wrap(f: Format, sel: string): (r: Option<string>)
    ensures f.Other? <==> r.None?
    ensures f == Bold ==> r == Some("**" + sel + "**")
    ensures f == Italic ==> r == Some("*" + sel + "*")
    ensures f.Color? ==> r == Some(OpenColor(f.param) + sel + CloseColor)
  {
    match f
    case Bold => Some("**" + sel + "**")
    case Italic => Some("*" + sel + "*")
    case Color(p) => Some(OpenColor(p) + sel + CloseColor)
    case Other(_) => None
  }

  /** `cursorOffset` as written in `applyFormatting`: 4 for bold, 2 for
      italic, the whole wrapped length for colour. */
  function WrittenOffset(f: Format, sel: string): nat {
    match f
    case Bold => 4
    case Italic => 2
    case Color(p) => |OpenColor(p)| + |sel| + |CloseColor|
    case Other(_) => 0
  }

  /** `applyFormatting(type, param)` of the directional textarea, with the
      cursor as the code sets it. `None` when nothing happens: an empty
      selection or an unknown format (then `onChange` is not called
      either). */
  function ApplyFormattingAsWritten(text: string, start: nat, end: nat, f: Format): (r: Option<Edit>)
    requires start <= end <= |text|
    ensures r.None? <==> start == end || f.Other?
    ensures r.Some? ==> r.value.text == text[..start] + Wrap(f, text[start..end]).value + text[end..]
    ensures r.Some? ==> r.value.cursor == start + WrittenOffset(f, text[start..end])
  {
    var sel := text[start..end];
    if sel == "" then None
    else
      match Wrap(f, sel)
      case None => None
      case Some(w) => Some(Edit(text[..start] + w + text[end..], start + WrittenOffset(f, sel)))
  }

  /** With the written offsets, bolding `hello` leaves the cursor inside the
      word, between `he` and `llo`, not after the closing `**`. */
  lemma BoldCursorInsideMarkup()
    ensures var r := ApplyFormattingAsWritten("hello", 0, 5, Bold);
            && r.Some? && r.value.text == "**hello**" && r.value.cursor == 4
            && r.value.text[..r.value.cursor] == "**he"
  {
    assert "hello"[0..5] == "hello";
    assert "hello"[..0] == "" && "hello"[5..] == "";
  }

  /** `applyFormatting` with the cursor the comment above `setSelectionRange`
      intends, "after selection": right after the wrapped text, as the
      colour case already does for itself. */
  function ApplyFormatting(text: string, start: nat, end: nat, f: Format): (r: Option<Edit>)
    requires start <= end <= |text|
    ensures r.None? <==> start == end || f.Other?
    ensures r.Some? ==>
              var w := Wrap(f, text[start..end]).value;
              && r.value.text == text[..start] + w + text[end..]
              && r.value.cursor == start + |w|
  {
    var sel := text[start..end];
    if sel == "" then None
    else
      match Wrap(f, sel)
      case None => None
      case Some(w) => Some(Edit(text[..start] + w + text[end..], start + |w|))
  }

  /** The corrected cursor sits right after the wrapped selection: what
      lies before it is the old prefix and the markup, what lies after is
      the old suffix. Everything outside the selection is kept. */
  lemma CursorAfterMarkup(text: string, start: nat, end: nat, f: Format)
    requires start <= end <= |text|
    requires ApplyFormatting(text, start, end, f).Some?
    ensures var e := ApplyFormatting(text, start, end, f).value;
            var w := Wrap(f, text[start..end]).value;
            && e.cursor <= |e.text|
            && e.text[..e.cursor] == text[..start] + w
            && e.text[e.cursor..] == text[end..]
            && |e.text| == |text| - (end - start) + |w|
  {
    var e := ApplyFormatting(text, start, end, f).value;
    var w := Wrap(f, text[start..end]).value;
    assert e.text == (text[..start] + w) + text[end..];
  }

  /** The written offsets agree with the intended cursor only for colour. */
  lemma WrittenAgreesOnlyForColor(text: string, start: nat, end: nat, f: Format)
    requires start < end <= |text| && !f.Other?
    ensures ApplyFormattingAsWritten(text, start, end, f) == ApplyFormatting(text, start, end, f)
            <==> f.Color?
  {
  }

  /** `applyColor(color)` of the plain-text editor: `None` (an alert, no
      change) for an empty selection; otherwise the colour markup around the
      selection and the cursor at `end` plus the two tags' lengths. */
  function ApplyColor(content: string, start: nat, end: nat, color: string): (r: Option<Edit>)
    requires start <= end <= |content|
    ensures r.None? <==> start == end
    ensures r.Some? ==>
              && |r.value.text| == |content| + |OpenColor(color)| + |CloseColor|
              && r.value.text[..start] == content[..start]
              && r.value.text[start + |OpenColor(color)| + (end - start) + |CloseColor|..] == content[end..]
              && r.value.cursor == end + |OpenColor(color)| + |CloseColor|
  {
    if start == end then None
    else
      var sel := content[start..end];
      var text := content[..start] + OpenColor(color) + sel + CloseColor + content[end..];
      assert text[..start] == content[..start];
      assert text[start + |OpenColor(color)| + |sel| + |CloseColor|..] == content[end..];
      Some(Edit(text, end + |OpenColor(color)| + |CloseColor|))
  }

  /** Both editors colour a selection the same way: same text, same cursor. */
  lemma ColorEditorsAgree(text: string, start: nat, end: nat, color: string)
    requires start <= end <= |text|
    ensures ApplyColor(text, start, end, color) == ApplyFormatting(text, start, end, Color(color))
  {
    if start < end {
      assert |text[start..end]| == end - start;
      assert ApplyFormatting(text, start, end, Color(color)).value.text ==
             text[..start] + OpenColor(color) + text[start..end] + CloseColor + text[end..];
    }
  }

  const LineBreak: string := "<br>"

  /** `html.replace(/\n/g, '<br>')`. */
  function BreakLines(s: string): (r: string)
    ensures '\n' !in r
    ensures |r| >= |s|
    decreases |s|
  {
    if |s| == 0 then ""
    else
      var rest := BreakLines(s[1..]);
      var head := if s[0] == '\n' then LineBreak else [s[0]];
      assert forall c :: c in head + rest ==> c in head || c in rest;
      head + rest
  }

  /** Splitting on a character other than the first one extends the first
      piece. */
  lemma SplitConsChar(x: char, t: string, c: char)
    requires x != c
    ensures var p := Split(t, [c]);
            Split([x] + t, [c]) == [[x] + p[0]] + p[1..]
  {
    var s := [x] + t;
    assert s[1..] == t;
    assert !StartsWith(s, [c]) by {
      assert s[..1] == [x];
    }
    match IndexOf(t, [c])
    case Some(i) =>
      assert IndexOf(s, [c]) == Some(i + 1);
      SplitConsCharAt(x, t, c, i);
    case None =>
      assert IndexOf(s, [c]).None?;
      SplitWhole(t, [c]);
  }

  /** `SplitConsChar` when the separator occurs first at `i` in `t`. */
  lemma SplitConsCharAt(x: char, t: string, c: char, i: nat)
    requires IndexOf(t, [c]) == Some(i) && IndexOf([x] + t, [c]) == Some(i + 1)
    ensures var p := Split(t, [c]);
            Split([x] + t, [c]) == [[x] + p[0]] + p[1..]
  {
    var s := [x] + t;
    SplitUnfold(s, [c], i + 1);
    SplitUnfold(t, [c], i);
    assert s[..i + 1] == [x] + t[..i];
    assert s[i + 2..] == t[i + 1..];
  }

  /** A separator in front gives an empty first piece. */
  lemma SplitLeadingChar(t: string, c: char)
    ensures Split([c] + t, [c]) == [""] + Split(t, [c])
  {
    var s := [c] + t;
    assert At(s, 0, [c]);
    SplitUnfold(s, [c], 0);
    assert s[1..] == t;
  }

  lemma JoinEmptyHead(p: seq<string>, sep: string)
    requires |p| >= 1
    ensures Join([""] + p, sep) == sep + Join(p, sep)
  {
    assert ([""] + p)[1..] == p;
  }

  lemma JoinExtendHead(x: char, p: seq<string>, sep: string)
    requires |p| >= 1
    ensures Join([[x] + p[0]] + p[1..], sep) == [x] + Join(p, sep)
  {
    var q := [[x] + p[0]] + p[1..];
    assert q[1..] == p[1..];
    if |p| > 1 {
      assert Join(p, sep) == p[0] + sep + Join(p[1..], sep);
    }
  }

  /** The preview's newline step is `split('\n').join('<br>')`. */
  lemma {:induction false} BreakLinesIsSplitJoin(s: string)
    ensures BreakLines(s) == Join(Split(s, "\n"), LineBreak)
    decreases |s|
  {
    if |s| == 0 {
      SplitWhole(s, "\n");
    } else {
      BreakLinesIsSplitJoin(s[1..]);
      assert s == [s[0]] + s[1..];
      if s[0] == '\n' {
        SplitLeadingChar(s[1..], '\n');
        JoinEmptyHead(Split(s[1..], "\n"), LineBreak);
      } else {
        SplitConsChar(s[0], s[1..], '\n');
        JoinExtendHead(s[0], Split(s[1..], "\n"), LineBreak);
      }
    }
  }
}

=== FILE: image_urls.dfy ===
/** `fixImageUrl` of frontend/src/utils/imageUtils.js: force https, and add
    Cloudinary's delivery transformation after the single `/upload/`
    segment of a URL that does not carry one yet. */
module ImageUrls {
  import opened Optional
  import opened JsStrings

  const Insecure: string := "http:"
  const Secure: string := "https:"
  const CloudHost: string := "cloudinary.com"
  const AutoFormat: string := "f_auto"
  const UploadMarker: string := "/upload/"
  const Transformation: string := "w_500,h_500,c_fill,f_auto,q_auto/"

  /** `url.replace('http:', 'https:')` applied to a URL that starts with
      `http:`; the first occurrence is the prefix itself. */
  function Secured(u: string): (r: string)
    ensures StartsWith(u, Insecure) ==> r == Secure + u[|Insecure|..]
    ensures !StartsWith(u, Insecure) ==> r == u
    ensures !StartsWith(r, Insecure)
    ensures |r| >= |u|
  {
    if StartsWith(u, Insecure) then
      var r := Secure + u[|Insecure|..];
      assert r[4] == 's';
      r
    else u
  }

  /** The transformation applies: a Cloudinary URL without `f_auto` whose
      `split('/upload/')` has two pieces. */
  predicate Optimisable(u: string) {
    Includes(u, CloudHost) && !Includes(u, AutoFormat) && |Split(u, UploadMarker)| == 2
  }

  function Optimised(u: string): (r: string)
    ensures Optimisable(u) ==>
              var i := IndexOf(u, UploadMarker).value;
              i + |UploadMarker| <= |u| && r == u[..i + |UploadMarker|] + Transformation + u[i + |UploadMarker|..]
    ensures !Optimisable(u) ==> r == u
  {
    if Includes(u, CloudHost) && !Includes(u, AutoFormat) then
      var parts := Split(u, UploadMarker);
      if |parts| == 2 then
        SplitTwo(u, UploadMarker);
        var i := IndexOf(u, UploadMarker).value;
        assert u[..i + |UploadMarker|] == u[..i] + UploadMarker;
        parts[0] + UploadMarker + Transformation + parts[1]
      else u
    else u
  }

  /** `fixImageUrl(imageUrl)`: `null` for a falsy input. */
  function FixImageUrl(url: Option<string>): (r: Option<string>)
    ensures r.None? <==> !TruthyOpt(url)
    ensures r.Some? ==> r.value == Optimised(Secured(url.value))
    ensures r.Some? ==> !StartsWith(r.value, Insecure)
    ensures r.Some? && !StartsWith(url.value, Insecure) && !Includes(url.value, CloudHost) ==> r == url
  {
    if !TruthyOpt(url) then None
    else
      var v := Secured(url.value);
      OptimisedKeepsScheme(v);
      Some(Optimised(v))
  }

  /** The transformation goes after the scheme: it neither shortens the URL
      nor changes whether it starts with `http:`. */
  lemma OptimisedKeepsScheme(v: string)
    ensures |Optimised(v)| >= |v|
    ensures StartsWith(Optimised(v), Insecure) <==> StartsWith(v, Insecure)
  {
    if Optimisable(v) {
      var w := Optimised(v);
      var n := IndexOf(v, UploadMarker).value + |UploadMarker|;
      assert w[..n] == v[..n];
      assert w[..|Insecure|] == w[..n][..|Insecure|];
      assert v[..|Insecure|] == v[..n][..|Insecure|];
    }
  }

  /** The transformation string itself mentions `f_auto`. */
  lemma TransformationIsAuto()
    ensures Includes(Transformation, AutoFormat)
  {
    assert Transformation[19..25] == AutoFormat;
    IncludesAt(Transformation, AutoFormat, 19);
  }

  /** Optimising an optimised URL changes nothing. */
  lemma {:induction false} OptimisedIdempotent(v: string)
    ensures Optimised(Optimised(v)) == Optimised(v)
  {
    if Optimisable(v) {
      var i := IndexOf(v, UploadMarker).value;
      var n := i + |UploadMarker|;
      TransformationIsAuto();
      IncludesInside(v[..n], Transformation, v[n..], AutoFormat);
    }
  }

  /** `fixImageUrl` is idempotent: a fixed URL is its own fix. */
  lemma {:induction false} FixIdempotent(url: Option<string>)
    ensures FixImageUrl(FixImageUrl(url)) == FixImageUrl(url)
  {
    if TruthyOpt(url) {
      OptimisedKeepsScheme(Secured(url.value));
      OptimisedIdempotent(Secured(url.value));
    }
  }
}

=== FILE: js_strings.dfy ===
/** The JavaScript string primitives the application relies on, over
    sequences of code points: `startsWith`, `indexOf`/`includes`, `split`
    with a non-empty separator, `trim`, ASCII case mapping, and decimal
    numerals. */
module JsStrings {
  import opened Optional

  /** JavaScript truthiness of a string: only the empty string is falsy. */
  predicate Truthy(s: string) {
    |s| > 0
  }

  /** Truthiness of a possibly absent string (`null`/`undefined` are falsy). */
  predicate TruthyOpt(s: Option<string>) {
    s.Some? && Truthy(s.value)
  }

  predicate StartsWith(s: string, p: string) {
    |p| <= |s| && s[..|p|] == p
  }

  /** `p` occurs in `s` starting at index `i`. */
  predicate At(s: string, i: nat, p: string) {
    i + |p| <= |s| && s[i..i + |p|] == p
  }

  /** `s.indexOf(p)`: the first index at which `p` occurs, if any. */
  function IndexOf(s: string, p: string): (r: Option<nat>)
    ensures r.Some? ==> At(s, r.value, p)
    ensures r.Some? ==> forall j :: 0 <= j < r.value ==> !At(s, j, p)
    ensures r.None? ==> forall j :: 0 <= j <= |s| ==> !At(s, j, p)
    decreases |s|
  {
    if |s| < |p| then None
    else if StartsWith(s, p) then Some(0)
    else
      match IndexOf(s[1..], p)
      case None =>
        assert forall j :: 1 <= j <= |s| ==> At(s, j, p) == At(s[1..], j - 1, p);
        None
      case Some(k) =>
        assert forall j :: 1 <= j <= |s| ==> At(s, j, p) == At(s[1..], j - 1, p);
        Some(k + 1)
  }

  /** A one-character pattern occurs exactly where that character is. */
  lemma AtChar(h: string, c: char)
    ensures forall j: nat :: At(h, j, [c]) <==> j < |h| && h[j] == c
  {
    forall j: nat | j < |h|
      ensures At(h, j, [c]) <==> h[j] == c
    {
      assert h[j..j + 1][0] == h[j];
    }
  }

  /** The first `c` of `a + [c] + b`, when `a` has none, ends `a`. */
  lemma IndexOfChar(a: string, c: char, b: string)
    requires forall i :: 0 <= i < |a| ==> a[i] != c
    ensures IndexOf(a + [c] + b, [c]) == Some(|a|)
  {
    var h := a + [c] + b;
    AtChar(h, c);
    assert h[|a|] == c;
    assert forall i :: 0 <= i < |a| ==> h[i] == a[i];
  }

  /** `s.includes(p)`. */
  predicate Includes(s: string, p: string) {
    IndexOf(s, p).Some?
  }

  lemma IncludesAt(s: string, p: string, i: nat)
    requires At(s, i, p)
    ensures Includes(s, p)
  {
  }

  /** An occurrence inside a middle piece is an occurrence of the whole. */
  lemma IncludesInside(a: string, x: string, b: string, p: string)
    requires Includes(x, p)
    ensures Includes(a + x + b, p)
  {
    var j := IndexOf(x, p).value;
    var s := a + x + b;
    assert s[|a| + j..|a| + j + |p|] == x[j..j + |p|];
    IncludesAt(s, p, |a| + j);
  }

  /** `s.split(sep)` for a non-empty separator: the pieces between the
      leftmost non-overlapping occurrences of `sep`. */
  function Split(s: string, sep: string): (parts: seq<string>)
    requires |sep| > 0
    ensures |parts| >= 1
    ensures forall k :: 0 <= k < |parts| ==> !Includes(parts[k], sep)
    decreases |s|
  {
    match IndexOf(s, sep)
    case None => [s]
    case Some(i) =>
      HeadHasNoSeparator(s, sep, i);
      [s[..i]] + Split(s[i + |sep|..], sep)
  }

  /** The text before the first occurrence does not contain the pattern. */
  lemma HeadHasNoSeparator(s: string, sep: string, i: nat)
    requires |sep| > 0 && IndexOf(s, sep) == Some(i)
    ensures !Includes(s[..i], sep)
  {
    var head := s[..i];
    forall j | 0 <= j <= |head|
      ensures !At(head, j, sep)
    {
      if j + |sep| <= |head| {
        assert head[j..j + |sep|] == s[j..j + |sep|];
        assert !At(s, j, sep);
      }
    }
  }

  /** One step of `split` at the first separator. */
  lemma SplitUnfold(s: string, sep: string, i: nat)
    requires |sep| > 0 && IndexOf(s, sep) == Some(i)
    ensures Split(s, sep) == [s[..i]] + Split(s[i + |sep|..], sep)
  {
  }

  /** Text with exactly one separator, the first one, splits into the two
      sides. */
  lemma SplitOnce(a: string, sep: string, b: string)
    requires |sep| > 0 && IndexOf(a + sep + b, sep) == Some(|a|) && !Includes(b, sep)
    ensures Split(a + sep + b, sep) == [a, b]
  {
    var s := a + sep + b;
    SplitUnfold(s, sep, |a|);
    assert s[..|a|] == a;
    assert s[|a| + |sep|..] == b;
  }

  /** A string without the separator splits into itself. */
  lemma SplitWhole(s: string, sep: string)
    requires |sep| > 0 && !Includes(s, sep)
    ensures Split(s, sep) == [s]
  {
  }

  /** `s.split(sep)` has exactly two pieces when `sep` occurs once, and
      they are the text before and after that occurrence. */
  lemma SplitTwo(s: string, sep: string)
    requires |sep| > 0
    ensures |Split(s, sep)| == 2 <==>
              IndexOf(s, sep).Some? && !Includes(s[IndexOf(s, sep).value + |sep|..], sep)
    ensures |Split(s, sep)| == 2 ==>
              var i := IndexOf(s, sep).value;
              Split(s, sep) == [s[..i], s[i + |sep|..]]
  {
    match IndexOf(s, sep)
    case None =>
    case Some(i) =>
      var rest := s[i + |sep|..];
      SplitUnfold(s, sep, i);
      match IndexOf(rest, sep)
      case None =>
        SplitWhole(rest, sep);
      case Some(k) =>
        SplitUnfold(rest, sep, k);
  }

  /** `parts.join(sep)`. */
  function Join(parts: seq<string>, sep: string): string
    decreases |parts|
  {
    if |parts| == 0 then ""
    else if |parts| == 1 then parts[0]
    else parts[0] + sep + Join(parts[1..], sep)
  }

  /** Splitting undoes joining on a character that no piece contains. */
  lemma {:induction false} SplitJoinChar(ts: seq<string>, c: char)
    requires |ts| >= 1 && forall k :: 0 <= k < |ts| ==> c !in ts[k]
    ensures Split(Join(ts, [c]), [c]) == ts
    decreases |ts|
  {
    if |ts| == 1 {
      AtChar(ts[0], c);
      SplitWhole(ts[0], [c]);
    } else {
      var rest := Join(ts[1..], [c]);
      assert Join(ts, [c]) == ts[0] + [c] + rest;
      assert forall i :: 0 <= i < |ts[0]| ==> ts[0][i] != c by {
        assert forall i :: 0 <= i < |ts[0]| ==> ts[0][i] in ts[0];
      }
      IndexOfChar(ts[0], c, rest);
      SplitUnfold(Join(ts, [c]), [c], |ts[0]|);
      assert (ts[0] + [c] + rest)[..|ts[0]|] == ts[0];
      assert (ts[0] + [c] + rest)[|ts[0]| + 1..] == rest;
      SplitJoinChar(ts[1..], c);
      assert [ts[0]] + ts[1..] == ts;
    }
  }

  /** Splitting loses nothing: joining the pieces back gives the input. */
  lemma {:induction false} JoinSplit(s: string, sep: string)
    requires |sep| > 0
    ensures Join(Split(s, sep), sep) == s
    decreases |s|
  {
    match IndexOf(s, sep)
    case None =>
    case Some(i) =>
      var rest := s[i + |sep|..];
      var parts := Split(rest, sep);
      JoinSplit(rest, sep);
      assert Split(s, sep) == [s[..i]] + parts;
      assert ([s[..i]] + parts)[1..] == parts;
      assert Join([s[..i]] + parts, sep) == s[..i] + sep + Join(parts, sep);
      assert s == s[..i] + s[i..i + |sep|] + rest;
  }

  /** The code points ECMAScript's `trim` removes (WhiteSpace and
      LineTerminator). */
  predicate IsSpace(c: char) {
    var n := c as int;
    n == 0x09 || n == 0x0A || n == 0x0B || n == 0x0C || n == 0x0D || n == 0x20
    || n == 0xA0 || n == 0x1680 || (0x2000 <= n <= 0x200A)
    || n == 0x2028 || n == 0x2029 || n == 0x202F || n == 0x205F
    || n == 0x3000 || n == 0xFEFF
  }

  predicate AllSpace(s: string) {
    forall i :: 0 <= i < |s| ==> IsSpace(s[i])
  }

  function TrimStart(s: string): (r: string)
    ensures |r| <= |s| && r == s[|s| - |r|..]
    ensures AllSpace(s[..|s| - |r|])
    ensures |r| > 0 ==> !IsSpace(r[0])
    decreases |s|
  {
    if |s| > 0 && IsSpace(s[0]) then TrimStart(s[1..]) else s
  }

  function TrimEnd(s: string): (r: string)
    ensures |r| <= |s| && r == s[..|r|]
    ensures AllSpace(s[|r|..])
    ensures |r| > 0 ==> !IsSpace(r[|r| - 1])
    decreases |s|
  {
    if |s| > 0 && IsSpace(s[|s| - 1]) then TrimEnd(s[..|s| - 1]) else s
  }

  /** How many white-space code points `s` starts with. */
  function LeadingSpace(s: string): nat {
    |s| - |TrimStart(s)|
  }

  /** `s.trim()`: the slice of `s` that starts after its leading white
      space and stops before its trailing white space. */
  function Trim(s: string): (r: string)
    ensures LeadingSpace(s) + |r| <= |s|
    ensures r == s[LeadingSpace(s)..LeadingSpace(s) + |r|]
    ensures |r| > 0 ==> !IsSpace(r[0]) && !IsSpace(r[|r| - 1])
  {
    var t := TrimStart(s);
    var r := TrimEnd(t);
    assert r == s[|s| - |t|..][..|r|] == s[|s| - |t|..|s| - |t| + |r|];
    r
  }

  /** Text with no white space at either end is its own trim. */
  lemma TrimKeeps(s: string)
    requires |s| > 0 ==> !IsSpace(s[0]) && !IsSpace(s[|s| - 1])
    ensures Trim(s) == s
  {
  }

  /** `!s.trim()`: trimming leaves nothing exactly when every code point is
      white space. */
  lemma {:induction false} TrimEmptyIffAllSpace(s: string)
    ensures Trim(s) == "" <==> AllSpace(s)
  {
    var t := TrimStart(s);
    var r := TrimEnd(t);
    var lead := |s| - |t|;
    assert forall k :: 0 <= k < lead ==> IsSpace(s[k]) by {
      forall k | 0 <= k < lead ensures IsSpace(s[k]) {
        assert s[..lead][k] == s[k];
      }
    }
    assert forall k :: lead <= k < |s| ==> t[k - lead] == s[k];
    assert AllSpace(s) ==> |t| == 0 by {
      assert |t| > 0 ==> t[0] == s[lead];
    }
    assert forall k :: |r| <= k < |t| ==> IsSpace(t[k]) by {
      forall k | |r| <= k < |t| ensures IsSpace(t[k]) {
        assert t[|r|..][k - |r|] == t[k];
      }
    }
  }

  function LowerChar(c: char): char {
    if 'A' <= c <= 'Z' then (c as int + 32) as char else c
  }

  function UpperChar(c: char): char {
    if 'a' <= c <= 'z' then (c as int - 32) as char else c
  }

  /** `s.toLowerCase()` on ASCII letters. */
  function Lower(s: string): (r: string)
    ensures |r| == |s|
    ensures forall i :: 0 <= i < |s| ==> r[i] == LowerChar(s[i])
  {
    seq(|s|, i requires 0 <= i < |s| => LowerChar(s[i]))
  }

  /** `s.toUpperCase()` on ASCII letters. */
  function Upper(s: string): (r: string)
    ensures |r| == |s|
    ensures forall i :: 0 <= i < |s| ==> r[i] == UpperChar(s[i])
  {
    seq(|s|, i requires 0 <= i < |s| => UpperChar(s[i]))
  }

  predicate IsDigit(c: char) {
    '0' <= c <= '9'
  }

  predicate AllDigits(s: string) {
    forall i :: 0 <= i < |s| ==> IsDigit(s[i])
  }

  function DigitChar(d: nat): char
    requires d < 10
  {
    ('0' as int + d) as char
  }

  /** `n.toString()` for a non-negative integer. */
  function Digits(n: nat): (r: string)
    ensures |r| >= 1 && AllDigits(r)
    ensures n >= 10 ==> r[0] != '0'
    decreases n
  {
    if n < 10 then [DigitChar(n)] else Digits(n / 10) + [DigitChar(n % 10)]
  }

  /** The value of a string of decimal digits. */
  function Value(s: string): nat
    requires AllDigits(s)
    decreases |s|
  {
    if |s| == 0 then 0
    else Value(s[..|s| - 1]) * 10 + (s[|s| - 1] as int - '0' as int)
  }

  lemma {:induction false} ValueDigits(n: nat)
    ensures Value(Digits(n)) == n
    decreases n
  {
    if n >= 10 {
      ValueDigits(n / 10);
      var d := Digits(n);
      assert d[..|d| - 1] == Digits(n / 10);
    }
  }

  /** A numeral in [10^(k-1), 10^k) has exactly k digits; stated for the six
      digits of a one-time code. */
  lemma {:induction false} DigitsLength(n: nat, k: nat)
    requires k >= 1 && Pow10(k - 1) <= n < Pow10(k)
    ensures |Digits(n)| == k
    decreases k
  {
    if k > 1 {
      DigitsLength(n / 10, k - 1);
    }
  }

  function Pow10(k: nat): (r: nat)
    ensures r >= 1
  {
    if k == 0 then 1 else 10 * Pow10(k - 1)
  }
}

=== FILE: lists.dfy ===
/** Set-like operations on JavaScript arrays that the handlers and pages
    use: `filter(v => v !== x)`, the includes/filter/push toggle, and
    de-duplication in first-occurrence order (`[...new Set(xs)]`). */
module Lists {

  /** `xs.filter(v => v !== x)`: every copy of `x` removed, everything else
      kept with its multiplicity. */
  function Without<T(==)>(xs: seq<T>, x: T): (r: seq<T>)
    ensures multiset(r) == multiset(xs)[x := 0]
    ensures x !in r
    ensures x !in xs ==> r == xs
    decreases |xs|
  {
    if |xs| == 0 then []
    else
      assert xs == [xs[0]] + xs[1..];
      var rest := Without(xs[1..], x);
      if xs[0] == x then rest else [xs[0]] + rest
  }

  lemma {:induction false} WithoutAppend<T>(xs: seq<T>, ys: seq<T>, x: T)
    ensures Without(xs + ys, x) == Without(xs, x) + Without(ys, x)
    decreases |xs|
  {
    if |xs| == 0 {
      assert xs + ys == ys;
    } else {
      assert (xs + ys)[0] == xs[0];
      assert (xs + ys)[1..] == xs[1..] + ys;
      WithoutAppend(xs[1..], ys, x);
    }
  }

  /** The like and subscribe toggle: remove every copy of `x` when present,
      append it otherwise. */
  function Toggle<T(==,!new)>(xs: seq<T>, x: T): (r: seq<T>)
    ensures x in r <==> x !in xs
    ensures forall y :: y != x ==> (y in r <==> y in xs)
    ensures x !in xs ==> |r| == |xs| + 1 && r[..|xs|] == xs && r[|xs|] == x
    ensures x in xs ==> |r| == |xs| - multiset(xs)[x]
  {
    if x in xs then
      var r := Without(xs, x);
      assert forall y :: y in r <==> multiset(r)[y] > 0;
      assert |multiset(r)| == |multiset(xs)| - multiset(xs)[x];
      r
    else
      xs + [x]
  }

  /** Toggling twice restores the set of members; when `x` was absent it
      restores the sequence itself. */
  lemma {:induction false} ToggleTwice<T(!new)>(xs: seq<T>, x: T)
    ensures forall y :: y in Toggle(Toggle(xs, x), x) <==> y in xs
    ensures x !in xs ==> Toggle(Toggle(xs, x), x) == xs
  {
    if x !in xs {
      WithoutAppend(xs, [x], x);
      assert Without([x], x) == [];
    }
  }

  /** Index of the first occurrence of `y`. */
  function FirstIndex<T(==)>(xs: seq<T>, y: T): (i: nat)
    requires y in xs
    ensures i < |xs| && xs[i] == y
    ensures forall j :: 0 <= j < i ==> xs[j] != y
    decreases |xs|
  {
    if xs[0] == y then 0 else 1 + FirstIndex(xs[1..], y)
  }

  lemma {:induction false} FirstIndexPrefix<T>(xs: seq<T>, n: nat, y: T)
    requires n <= |xs| && y in xs[..n]
    ensures FirstIndex(xs[..n], y) == FirstIndex(xs, y)
  {
    var a := FirstIndex(xs[..n], y);
    var b := FirstIndex(xs, y);
    assert xs[a] == y;
    assert b <= a;
    assert xs[..n][b] == y;
  }

  /** `r` is `xs` with some elements left out, the rest in their order. */
  predicate SubseqOf<T(==)>(r: seq<T>, xs: seq<T>)
    decreases |xs|
  {
    |r| == 0 || (|xs| > 0 && ((r[0] == xs[0] && SubseqOf(r[1..], xs[1..])) || SubseqOf(r, xs[1..])))
  }

  predicate Distinct<T(==)>(xs: seq<T>) {
    forall i, j :: 0 <= i < j < |xs| ==> xs[i] != xs[j]
  }

  /** `[...new Set(xs)]`: each element once, in the order of its first
      occurrence. */
  function Dedup<T(==,!new)>(xs: seq<T>): (r: seq<T>)
    ensures Distinct(r)
    ensures forall y :: y in r <==> y in xs
    ensures forall i, j :: 0 <= i < j < |r| ==> FirstIndex(xs, r[i]) < FirstIndex(xs, r[j])
    decreases |xs|
  {
    if |xs| == 0 then []
    else
      var n := |xs| - 1;
      var prefix := xs[..n];
      assert xs == prefix + [xs[n]];
      var d := Dedup(prefix);
      assert forall i :: 0 <= i < |d| ==> FirstIndex(prefix, d[i]) == FirstIndex(xs, d[i]) by {
        forall i | 0 <= i < |d| ensures FirstIndex(prefix, d[i]) == FirstIndex(xs, d[i]) {
          FirstIndexPrefix(xs, n, d[i]);
        }
      }
      if xs[n] in d then d
      else
        assert xs[n] !in prefix;
        assert FirstIndex(xs, xs[n]) == n;
        d + [xs[n]]
  }
}

=== FILE: optional.dfy ===
/** The absent-or-present value the JavaScript sources express with
    `null`/`undefined`. */
module Optional {

  datatype Option<+T> = None | Some(value: T) {

    /** The value, or `default` when absent (JavaScript's `x ?? default`). */
    function GetOr(default: T): T {
      match this
      case Some(v) => v
      case None => default
    }
  }
}

=== FILE: otp_auth.dfy ===
/** The email-verification flow of server/controllers/authController.js:
    register, verify, resend and login over the user collection and a ledger
    of hashed one-time codes.

    The random draw, the bcrypt salts and whether the mail transport
    delivered are parameters. The ledger is kept in creation order, so "the
    most recent record for an email" is the last one. */
module OtpAuth {
  import opened Optional
  import opened JsStrings
  import opened Crypto
  import opened Accounts

  /** One OTP document: the email it was issued for and the digest of the code. */
  datatype OtpRecord = OtpRecord(email: string, otp: Digest)

  datatype State = State(store: Store, ledger: seq<OtpRecord>)

  /** What a handler leaves behind: the new state, the reply, and the
      plaintext code handed to the mail transport, if one was delivered. */
  datatype Step = Step(state: State, reply: Reply, mailed: Option<string>)

  const OtpLow: nat := 100000
  const OtpSpan: nat := 900000

  /** `generateOTP()`, with `draw` standing for
      `Math.floor(Math.random() * 900000)`. */
  function GenerateOtp(draw: nat): (code: string)
    requires draw < OtpSpan
    ensures |code| == 6 && AllDigits(code)
    ensures Value(code) == OtpLow + draw
    ensures OtpLow <= Value(code) <= 999999
  {
    var n := OtpLow + draw;
    assert Pow10(5) == 100000 && Pow10(6) == 1000000 by {
      assert Pow10(1) == 10;
      assert Pow10(2) == 100;
      assert Pow10(3) == 1000;
      assert Pow10(4) == 10000;
    }
    DigitsLength(n, 6);
    ValueDigits(n);
    Digits(n)
  }

  /** The records of the ledger that belong to `email`, in order. */
  function RecordsFor(ledger: seq<OtpRecord>, email: string): (r: seq<OtpRecord>)
    ensures |r| <= |ledger|
    ensures forall k :: 0 <= k < |r| ==> r[k].email == email
    decreases |ledger|
  {
    if |ledger| == 0 then []
    else if ledger[0].email == email then [ledger[0]] + RecordsFor(ledger[1..], email)
    else RecordsFor(ledger[1..], email)
  }

  /** The ledger without the records of `email` (`OTP.deleteMany({ email })`). */
  function WithoutEmail(ledger: seq<OtpRecord>, email: string): (r: seq<OtpRecord>)
    ensures RecordsFor(r, email) == []
    ensures forall e :: e != email ==> RecordsFor(r, e) == RecordsFor(ledger, e)
    decreases |ledger|
  {
    if |ledger| == 0 then []
    else if ledger[0].email == email then WithoutEmail(ledger[1..], email)
    else [ledger[0]] + WithoutEmail(ledger[1..], email)
  }

  /** `OTP.findOne({ email }).sort({ createdAt: -1 })`: the index of the last
      record of `email`. */
  function Latest(ledger: seq<OtpRecord>, email: string): (r: Option<nat>)
    ensures r.Some? ==> r.value < |ledger| && ledger[r.value].email == email
    ensures r.Some? ==> forall k :: r.value < k < |ledger| ==> ledger[k].email != email
    ensures r.None? ==> forall k :: 0 <= k < |ledger| ==> ledger[k].email != email
    decreases |ledger|
  {
    if |ledger| == 0 then None
    else if ledger[|ledger| - 1].email == email then Some(|ledger| - 1)
    else Latest(ledger[..|ledger| - 1], email)
  }

  /** `OTP.deleteOne({ _id })`: the ledger without the record at `k`. */
  function RemoveAt(ledger: seq<OtpRecord>, k: nat): (r: seq<OtpRecord>)
    requires k < |ledger|
    ensures |r| == |ledger| - 1
    ensures r == ledger[..k] + ledger[k + 1..]
  {
    ledger[..k] + ledger[k + 1..]
  }

  const MsgRegistered: string := "User registered! Please check your email for verification OTP"
  const MsgCodeMissing: string := "OTP has expired or is invalid"
  const MsgCodeWrong: string := "Invalid OTP"
  const MsgVerified: string := "Email verified successfully"
  const MsgAlreadyVerified: string := "Email is already verified"
  const MsgResent: string := "New OTP has been sent to your email"
  const MsgVerifyFirst: string := "Please verify your email first"

  /** `register`: reject a taken email or username; otherwise record the
      hashed code, mail the plaintext, and only then save the unverified
      user. A failed delivery aborts with 500 after the code was recorded. */
  function Register(s: State, fullName: string, username: string, email: string, password: string,
                    draw: nat, otpSalt: nat, passwordSalt: nat, delivered: bool): (r: Step)
    requires draw < OtpSpan
    ensures Taken(s.store.users, email, username) <==> r.reply.status == 400
    ensures r.reply.status == 400 ==> r.state == s && r.mailed.None?
    ensures r.reply.status == 400 ==>
              (r.reply.message == MsgEmailInUse || r.reply.message == MsgUsernameTaken)
    ensures r.reply.status != 400 ==>
              && |r.state.ledger| == |s.ledger| + 1
              && r.state.ledger[..|s.ledger|] == s.ledger
              && r.state.ledger[|s.ledger|].email == email
    ensures r.reply.status == 500 ==> r.state.store == s.store && r.mailed.None?
    ensures r.reply.status == 201 ==>
              && r.mailed.Some? && |r.mailed.value| == 6 && AllDigits(r.mailed.value)
              && Compare(r.mailed.value, r.state.ledger[|s.ledger|].otp)
              && |r.state.store.users| == |s.store.users| + 1
              && r.state.store.users[..|s.store.users|] == s.store.users
    ensures r.reply.status in {201, 400, 500}
    ensures !Taken(s.store.users, email, username) ==> r.reply.status == (if delivered then 201 else 500)
    ensures r.reply.status == 500 ==> r.reply.message == ServerError
    ensures r.reply.status == 201 ==>
              && r.reply.message == MsgRegistered
              && r.mailed == Some(GenerateOtp(draw))
              && r.state.store.nextId == s.store.nextId + 1
              && var u := r.state.store.users[|s.store.users|];
              && u.id == s.store.nextId && u.fullName == fullName && u.username == username && u.email == email
              && u.profilePicture == DefaultPicture && u.bio == "" && !u.isVerified && u.subscribers == []
              && Compare(password, u.password)
    ensures r.state.store.users == s.store.users
            || (&& r.state.store.users == s.store.users + [r.state.store.users[|s.store.users|]]
                && !r.state.store.users[|s.store.users|].isVerified)
  {
    var users := s.store.users;
    match FindByEmailOrUsername(users, email, username)
    case Some(i) =>
      if users[i].email == email then Step(s, Fail(400, MsgEmailInUse), None)
      else Step(s, Fail(400, MsgUsernameTaken), None)
    case None =>
      var code := GenerateOtp(draw);
      var ledger := s.ledger + [OtpRecord(email, Hash(code, otpSalt))];
      if !delivered then Step(State(s.store, ledger), Fail(500, ServerError), None)
      else
        var u := User(s.store.nextId, fullName, username, email, Hash(password, passwordSalt),
                      DefaultPicture, "", false, []);
        Step(State(Store(users + [u], s.store.nextId + 1), ledger),
             Reply(201, MsgRegistered, None, None), Some(code))
  }

  /** The view `verifyEmail` returns: the profile fields plus the flag. */
  function VerifiedView(u: User): View {
    View(u.id, u.fullName, u.username, Some(u.email), Some(u.profilePicture), Some(u.bio),
         Some(u.isVerified), None, None)
  }

  /** `verifyEmail`: match the code against the most recent record of the
      email only; on a match set the flag, delete exactly that record and
      issue a token. With no user for the email the handler throws (500)
      before changing anything. */
  function VerifyEmail(s: State, email: string, otp: string): (r: Step)
    ensures r.mailed.None?
    ensures r.reply.status != 200 ==> r.state == s
    ensures Latest(s.ledger, email).None? ==> r.reply == Fail(400, MsgCodeMissing)
    ensures (Latest(s.ledger, email).Some? && !Compare(otp, s.ledger[Latest(s.ledger, email).value].otp))
              ==> r.reply == Fail(400, MsgCodeWrong)
    ensures r.reply.status == 200 <==>
              && Latest(s.ledger, email).Some?
              && Compare(otp, s.ledger[Latest(s.ledger, email).value].otp)
              && FindByEmail(s.store.users, email).Some?
    ensures r.reply.status == 200 ==>
              var k := Latest(s.ledger, email).value;
              var i := FindByEmail(s.store.users, email).value;
              && r.state.ledger == s.ledger[..k] + s.ledger[k + 1..]
              && r.state.store.nextId == s.store.nextId
              && |r.state.store.users| == |s.store.users|
              && r.state.store.users[i] == s.store.users[i].(isVerified := true)
              && (forall j :: 0 <= j < |s.store.users| && j != i ==>
                    r.state.store.users[j] == s.store.users[j])
              && r.reply.token == Some(Sign(s.store.users[i].id))
              && r.reply.message == MsgVerified
              && r.reply.user == Some(VerifiedView(r.state.store.users[i]))
              && r.reply.user.value.username == s.store.users[i].username
              && r.reply.user.value.isVerified == Some(true)
  {
    match Latest(s.ledger, email)
    case None => Step(s, Fail(400, MsgCodeMissing), None)
    case Some(k) =>
      if !Compare(otp, s.ledger[k].otp) then Step(s, Fail(400, MsgCodeWrong), None)
      else
        match FindByEmail(s.store.users, email)
        case None => Step(s, Fail(500, ServerError), None)
        case Some(i) =>
          var u := s.store.users[i].(isVerified := true);
          Step(State(Store(Put(s.store.users, i, u), s.store.nextId), RemoveAt(s.ledger, k)),
               Reply(200, MsgVerified, Some(Sign(u.id)), Some(VerifiedView(u))), None)
  }

  /** `resendOTP`: unknown email 404, verified user 400; otherwise every
      record of the email is deleted and one fresh record is added. A failed
      delivery still leaves the new record in place. */
  function ResendOtp(s: State, email: string, draw: nat, otpSalt: nat, delivered: bool): (r: Step)
    requires draw < OtpSpan
    ensures r.state.store == s.store
    ensures FindByEmail(s.store.users, email).None? ==> r.reply == Fail(404, MsgNoUser) && r.state == s
    ensures (FindByEmail(s.store.users, email).Some?
             && s.store.users[FindByEmail(s.store.users, email).value].isVerified)
              ==> r.reply == Fail(400, MsgAlreadyVerified) && r.state == s
    ensures (FindByEmail(s.store.users, email).Some?
             && !s.store.users[FindByEmail(s.store.users, email).value].isVerified) ==>
              && r.reply.status == (if delivered then 200 else 500)
              && r.reply.message == (if delivered then MsgResent else ServerError)
              && |RecordsFor(r.state.ledger, email)| == 1
              && Compare(GenerateOtp(draw), RecordsFor(r.state.ledger, email)[0].otp)
              && (forall e :: e != email ==> RecordsFor(r.state.ledger, e) == RecordsFor(s.ledger, e))
    ensures r.mailed.Some? <==> r.reply.status == 200
    ensures r.mailed.Some? ==> r.mailed.value == GenerateOtp(draw)
  {
    match FindByEmail(s.store.users, email)
    case None => Step(s, Fail(404, MsgNoUser), None)
    case Some(i) =>
      if s.store.users[i].isVerified then Step(s, Fail(400, MsgAlreadyVerified), None)
      else
        var code := GenerateOtp(draw);
        var ledger := WithoutEmail(s.ledger, email) + [OtpRecord(email, Hash(code, otpSalt))];
        RecordsForAppend(WithoutEmail(s.ledger, email), OtpRecord(email, Hash(code, otpSalt)));
        if !delivered then Step(State(s.store, ledger), Fail(500, ServerError), None)
        else Step(State(s.store, ledger), Reply(200, MsgResent, None, None), Some(code))
  }

  /** `login`: the same 401 for an unknown email and a wrong password; the
      verification gate is consulted only after the password matched. */
  function Login(s: State, email: string, password: string): (r: Reply)
    ensures r.status == 200 || r.status == 401
    ensures r.status == 200 <==>
              && FindByEmail(s.store.users, email).Some?
              && Compare(password, s.store.users[FindByEmail(s.store.users, email).value].password)
              && s.store.users[FindByEmail(s.store.users, email).value].isVerified
    ensures r.status == 200 ==>
              var u := s.store.users[FindByEmail(s.store.users, email).value];
              r.token == Some(Sign(u.id)) && r.user == Some(ProfileView(u))
    ensures r.status == 401 ==> r.token.None? && r.user.None?
    ensures r.message == MsgVerifyFirst ==>
              && FindByEmail(s.store.users, email).Some?
              && Compare(password, s.store.users[FindByEmail(s.store.users, email).value].password)
  {
    match FindByEmail(s.store.users, email)
    case None => Fail(401, MsgBadCredentials)
    case Some(i) =>
      var u := s.store.users[i];
      if !Compare(password, u.password) then Fail(401, MsgBadCredentials)
      else if !u.isVerified then Fail(401, MsgVerifyFirst)
      else Reply(200, "", Some(Sign(u.id)), Some(ProfileView(u)))
  }

  lemma {:induction false} RecordsForAppend(ledger: seq<OtpRecord>, rec: OtpRecord)
    ensures RecordsFor(ledger + [rec], rec.email) == RecordsFor(ledger, rec.email) + [rec]
    ensures forall e :: e != rec.email ==> RecordsFor(ledger + [rec], e) == RecordsFor(ledger, e)
    decreases |ledger|
  {
    if |ledger| == 0 {
      assert [rec][1..] == [];
    } else {
      assert (ledger + [rec])[1..] == ledger[1..] + [rec];
      RecordsForAppend(ledger[1..], rec);
    }
  }
}

=== FILE: otp_auth_props.dfy ===
/** Properties of the email-verification flow that relate several calls. */
module OtpAuthProps {
  import opened Optional
  import opened JsStrings
  import opened Crypto
  import opened Accounts
  import opened OtpAuth

  lemma {:induction false} RecordsForConcat(a: seq<OtpRecord>, b: seq<OtpRecord>, e: string)
    ensures RecordsFor(a + b, e) == RecordsFor(a, e) + RecordsFor(b, e)
    decreases |a|
  {
    if |a| == 0 {
      assert a + b == b;
    } else {
      assert (a + b)[0] == a[0];
      assert (a + b)[1..] == a[1..] + b;
      RecordsForConcat(a[1..], b, e);
    }
  }

  /** An email has no records exactly when no record carries it. */
  lemma {:induction false} NoRecordsIff(ledger: seq<OtpRecord>, e: string)
    ensures |RecordsFor(ledger, e)| == 0 <==> forall k :: 0 <= k < |ledger| ==> ledger[k].email != e
    decreases |ledger|
  {
    if |ledger| > 0 {
      NoRecordsIff(ledger[1..], e);
      assert forall k :: 1 <= k < |ledger| ==> ledger[k] == ledger[1..][k - 1];
    }
  }

  /** The last record of an email exists exactly when the email has records. */
  lemma LatestIffRecords(ledger: seq<OtpRecord>, e: string)
    ensures Latest(ledger, e).None? <==> |RecordsFor(ledger, e)| == 0
  {
    NoRecordsIff(ledger, e);
  }

  /** Deleting one record of `e` removes one of its records and nothing else. */
  lemma RemoveAtRecords(ledger: seq<OtpRecord>, k: nat, e: string)
    requires k < |ledger|
    ensures ledger[k].email == e ==> |RecordsFor(RemoveAt(ledger, k), e)| == |RecordsFor(ledger, e)| - 1
    ensures ledger[k].email != e ==> RecordsFor(RemoveAt(ledger, k), e) == RecordsFor(ledger, e)
  {
    assert ledger == ledger[..k] + [ledger[k]] + ledger[k + 1..];
    RecordsForConcat(ledger[..k] + [ledger[k]], ledger[k + 1..], e);
    RecordsForConcat(ledger[..k], [ledger[k]], e);
    RecordsForConcat(ledger[..k], ledger[k + 1..], e);
  }

  /** Records after the last one of `e` do not change which one is last. */
  lemma {:induction false} LatestIgnoresTail(a: seq<OtpRecord>, b: seq<OtpRecord>, e: string)
    requires forall k :: 0 <= k < |b| ==> b[k].email != e
    ensures Latest(a + b, e) == Latest(a, e)
    decreases |b|
  {
    if |b| == 0 {
      assert a + b == a;
    } else {
      assert (a + b)[|a + b| - 1] == b[|b| - 1];
      assert (a + b)[..|a + b| - 1] == a + b[..|b| - 1];
      LatestIgnoresTail(a, b[..|b| - 1], e);
    }
  }

  /** Uniqueness of ids, emails and usernames survives a registration. */
  lemma RegisterKeepsValid(s: State, fullName: string, username: string, email: string, password: string,
                           draw: nat, otpSalt: nat, passwordSalt: nat, delivered: bool)
    requires draw < OtpSpan && Valid(s.store)
    ensures Valid(Register(s, fullName, username, email, password, draw, otpSalt, passwordSalt, delivered).state.store)
  {
    var r := Register(s, fullName, username, email, password, draw, otpSalt, passwordSalt, delivered);
    if r.reply.status == 201 {
      AppendKeepsValid(s.store, r.state.store.users[|s.store.users|]);
    }
  }

  /** "Email already in use" is reported when the first user matching either
      field is one with that email, in particular when the email's owner comes
      before every holder of the username. */
  lemma EmailReportedFirst(s: State, fullName: string, username: string, email: string, password: string,
                           draw: nat, otpSalt: nat, passwordSalt: nat, delivered: bool, i: nat)
    requires draw < OtpSpan
    requires i < |s.store.users| && s.store.users[i].email == email
    requires forall j :: 0 <= j < i ==> s.store.users[j].username != username
    ensures Register(s, fullName, username, email, password, draw, otpSalt, passwordSalt, delivered).reply
            == Fail(400, MsgEmailInUse)
  {
    var m := FindByEmailOrUsername(s.store.users, email, username);
    assert m.Some? && m.value <= i;
    assert s.store.users[m.value].email == email by {
      if m.value < i {
        assert s.store.users[m.value].username != username;
      }
    }
  }

  /** The email preference holds only within the one document found: when an
      earlier user holds the username, "Username already taken" is reported
      even though another user owns the email. */
  lemma UsernameReportedBeforeLaterEmail(s: State, fullName: string, username: string, email: string,
                                         password: string, draw: nat, otpSalt: nat, passwordSalt: nat,
                                         delivered: bool)
    requires draw < OtpSpan
    requires |s.store.users| == 2
    requires s.store.users[0].username == username && s.store.users[0].email != email
    requires s.store.users[1].email == email
    ensures Register(s, fullName, username, email, password, draw, otpSalt, passwordSalt, delivered).reply
            == Fail(400, MsgUsernameTaken)
  {
    assert FindByEmailOrUsername(s.store.users, email, username) == Some(0);
  }

  /** A fresh registration cannot log in before verifying, even with the
      exact password, and the mailed code then verifies the new user, after
      which the same password logs in. */
  lemma {:induction false} RegisterVerifyLogin(s: State, fullName: string, username: string, email: string,
                                               password: string, draw: nat, otpSalt: nat, passwordSalt: nat)
    requires draw < OtpSpan && Valid(s.store)
    requires !Taken(s.store.users, email, username)
    ensures var r := Register(s, fullName, username, email, password, draw, otpSalt, passwordSalt, true);
            && r.reply.status == 201
            && Login(r.state, email, password) == Fail(401, MsgVerifyFirst)
            && var v := VerifyEmail(r.state, email, r.mailed.value);
               && v.reply.status == 200
               && v.reply.token.Some? && Verify(v.reply.token.value) == Some(s.store.nextId)
               && v.reply.user.Some? && v.reply.user.value.username == username
               && v.reply.user.value.id == s.store.nextId
               && Login(v.state, email, password).status == 200
  {
    var r := Register(s, fullName, username, email, password, draw, otpSalt, passwordSalt, true);
    var n := |s.store.users|;
    var users := r.state.store.users;
    assert FindByEmail(users, email) == Some(n) by {
      assert forall j :: 0 <= j < n ==> users[j] == s.store.users[j];
      assert users[n].email == email;
    }
    assert Latest(r.state.ledger, email) == Some(|s.ledger|);
    var v := VerifyEmail(r.state, email, r.mailed.value);
    assert v.reply.status == 200;
    VerifySign(s.store.nextId);
    var vusers := v.state.store.users;
    assert FindByEmail(vusers, email) == Some(n) by {
      assert forall j :: 0 <= j < n ==> vusers[j].email == users[j].email;
    }
  }

  /** Verification consumes exactly one record of the email and touches no
      other email's records. */
  lemma VerifyConsumesOneRecord(s: State, email: string, otp: string)
    requires VerifyEmail(s, email, otp).reply.status == 200
    ensures |RecordsFor(VerifyEmail(s, email, otp).state.ledger, email)| == |RecordsFor(s.ledger, email)| - 1
    ensures forall e :: e != email ==>
              RecordsFor(VerifyEmail(s, email, otp).state.ledger, e) == RecordsFor(s.ledger, e)
  {
    var k := Latest(s.ledger, email).value;
    RemoveAtRecords(s.ledger, k, email);
    forall e | e != email
      ensures RecordsFor(VerifyEmail(s, email, otp).state.ledger, e) == RecordsFor(s.ledger, e)
    {
      RemoveAtRecords(s.ledger, k, e);
    }
  }

  /** A code is single-use: when the email had one outstanding record, a
      second verification, with any code, finds nothing to match. */
  lemma SecondVerifyFails(s: State, email: string, otp: string, again: string)
    requires |RecordsFor(s.ledger, email)| == 1
    requires VerifyEmail(s, email, otp).reply.status == 200
    ensures VerifyEmail(VerifyEmail(s, email, otp).state, email, again).reply == Fail(400, MsgCodeMissing)
  {
    VerifyConsumesOneRecord(s, email, otp);
    LatestIffRecords(VerifyEmail(s, email, otp).state.ledger, email);
  }

  /** Single use is per record, not per user: an older record of the same
      email (left, for instance, by a registration whose mail failed) still
      verifies after the newest one was consumed, and issues another token. */
  lemma StaleRecordStillVerifies(s: State, email: string, newest: string, stale: string)
    requires Latest(s.ledger, email).Some?
    requires Latest(s.ledger[..Latest(s.ledger, email).value], email).Some?
    requires Compare(newest, s.ledger[Latest(s.ledger, email).value].otp)
    requires Compare(stale, s.ledger[Latest(s.ledger[..Latest(s.ledger, email).value], email).value].otp)
    requires FindByEmail(s.store.users, email).Some?
    ensures VerifyEmail(s, email, newest).reply.status == 200
    ensures VerifyEmail(VerifyEmail(s, email, newest).state, email, stale).reply.status == 200
  {
    var k := Latest(s.ledger, email).value;
    var v := VerifyEmail(s, email, newest);
    LatestIgnoresTail(s.ledger[..k], s.ledger[k + 1..], email);
    var i := FindByEmail(s.store.users, email).value;
    var vusers := v.state.store.users;
    assert FindByEmail(vusers, email) == Some(i) by {
      assert forall j :: 0 <= j < |vusers| ==> vusers[j].email == s.store.users[j].email;
    }
  }

  /** After a successful resend only the newly mailed code verifies: every
      earlier code of the email is rejected as "Invalid OTP". */
  lemma ResendInvalidatesEarlierCodes(s: State, email: string, draw: nat, otpSalt: nat, prior: string)
    requires draw < OtpSpan
    requires ResendOtp(s, email, draw, otpSalt, true).reply.status == 200
    ensures var r := ResendOtp(s, email, draw, otpSalt, true);
            && VerifyEmail(r.state, email, r.mailed.value).reply.status == 200
            && (prior != r.mailed.value ==> VerifyEmail(r.state, email, prior).reply == Fail(400, MsgCodeWrong))
  {
    var r := ResendOtp(s, email, draw, otpSalt, true);
    var rest := WithoutEmail(s.ledger, email);
    assert r.state.ledger == rest + [OtpRecord(email, Hash(r.mailed.value, otpSalt))];
    assert Latest(r.state.ledger, email) == Some(|rest|);
  }

  /** Login does not reveal whether an email is registered: an unknown email
      and a wrong password get the identical reply. */
  lemma LoginHidesUnknownEmail(s: State, email: string, password: string, other: string, known: string)
    requires FindByEmail(s.store.users, email).None?
    requires FindByEmail(s.store.users, known).Some?
    requires !Compare(other, s.store.users[FindByEmail(s.store.users, known).value].password)
    ensures Login(s, email, password) == Login(s, known, other) == Fail(401, MsgBadCredentials)
  {
  }
}

=== FILE: otp_input.dfy ===
/** The six-slot code input of the prototype's verification page: typing
    into a slot, pasting a whole code, the backspace focus move, the
    completeness check before verifying, the resend countdown and the
    resend reset. Focus is modelled as the index of the slot to focus. */
module OtpInput {
  import opened Optional
  import opened JsStrings

  const SlotCount: nat := 6
  const CountdownStart: nat := 60
  const MsgIncomplete: string := "Please enter the complete verification code."

  /** `['', '', '', '', '', '']`. */
  const EmptySlots: seq<string> := ["", "", "", "", "", ""]

  /** The regex `^[0-9]$`. */
  predicate OneDigit(v: string) {
    |v| == 1 && IsDigit(v[0])
  }

  /** A slot is empty or holds one digit. */
  predicate ValidSlot(v: string) {
    v == "" || OneDigit(v)
  }

  predicate WellFormed(otp: seq<string>) {
    |otp| == SlotCount && forall i :: 0 <= i < |otp| ==> ValidSlot(otp[i])
  }

  /** The slots after a keystroke and the slot to focus next. */
  datatype Typed = Typed(otp: seq<string>, focus: Option<nat>)

  /** `handleOtpChange(e, index)`: a non-empty value that is not one digit
      is ignored (`None`); otherwise the value goes into slot `index` and,
      if it is not empty and not in the last slot, focus moves on. */
  function OtpChange(otp: seq<string>, index: nat, value: string): (r: Option<Typed>)
    requires index < |otp|
    ensures r.None? <==> value != "" && !OneDigit(value)
    ensures r.Some? ==> |r.value.otp| == |otp| && r.value.otp[index] == value
    ensures r.Some? ==> forall j :: 0 <= j < |otp| && j != index ==> r.value.otp[j] == otp[j]
    ensures r.Some? ==> (r.value.focus.Some? <==> value != "" && index < SlotCount - 1)
    ensures r.Some? && r.value.focus.Some? ==> r.value.focus.value == index + 1
    ensures r.Some? && WellFormed(otp) ==> WellFormed(r.value.otp)
  {
    if value != "" && !OneDigit(value) then None
    else Some(Typed(otp[index := value], if value != "" && index < SlotCount - 1 then Some(index + 1) else None))
  }

  /** `handleKeyDown`: backspace in an empty slot other than the first
      moves focus back one slot. */
  function BackspaceFocus(otp: seq<string>, index: nat, key: string): (r: Option<nat>)
    requires index < |otp|
    ensures r.Some? <==> key == "Backspace" && otp[index] == "" && index > 0
    ensures r.Some? ==> r.value + 1 == index
  {
    if key == "Backspace" && otp[index] == "" && index > 0 then Some(index - 1) else None
  }

  /** Backspace that deletes a digit empties its slot without moving focus;
      a second backspace in the now empty slot moves focus back. */
  lemma DeleteThenBackspace(otp: seq<string>, index: nat)
    requires index < |otp| && otp[index] != ""
    ensures OtpChange(otp, index, "") == Some(Typed(otp[index := ""], None))
    ensures BackspaceFocus(otp, index, "Backspace").None?
    ensures index > 0 ==> BackspaceFocus(otp[index := ""], index, "Backspace") == Some(index - 1)
  {
  }

  /** `s.split('')`: one single-character string per character. */
  function Chars(s: string): (r: seq<string>)
    ensures |r| == |s|
    ensures forall i :: 0 <= i < |r| ==> r[i] == [s[i]]
  {
    seq(|s|, i requires 0 <= i < |s| => [s[i]])
  }

  /** `handlePaste`: text matching `^\d{6}$` replaces every slot, digit by
      digit; anything else is ignored (`None`). */
  function Paste(data: string): (r: Option<seq<string>>)
    ensures r.Some? <==> |data| == SlotCount && AllDigits(data)
    ensures r.Some? ==> WellFormed(r.value) && Complete(r.value)
    ensures r.Some? ==> forall i :: 0 <= i < SlotCount ==> r.value[i] == [data[i]]
  {
    if |data| == SlotCount && AllDigits(data) then Some(Chars(data)) else None
  }

  /** Joining the pieces of `split('')` with `''` gives the string back. */
  lemma {:induction false} JoinChars(s: string)
    ensures Join(Chars(s), "") == s
    decreases |s|
  {
    if |s| > 1 {
      JoinChars(s[1..]);
      assert Chars(s)[1..] == Chars(s[1..]);
      assert s == [s[0]] + s[1..];
    } else if |s| == 1 {
      assert s == [s[0]];
      assert Chars(s) == [s];
    }
  }

  /** A pasted code is the code then verified: `otp.join('')` gives the
      pasted text back. */
  lemma PasteRoundTrip(data: string)
    requires Paste(data).Some?
    ensures Code(Paste(data).value) == data
  {
    JoinChars(data);
  }

  /** No slot is empty: the negation of `otp.some(digit => !digit)`. */
  predicate Complete(otp: seq<string>) {
    forall i :: 0 <= i < |otp| ==> otp[i] != ""
  }

  /** `otp.join('')`. */
  function Code(otp: seq<string>): string {
    Join(otp, "")
  }

  /** What verifying stores before moving on: a mock token and user name,
      both depending on the sign-in provider, and the provider itself when
      there is one. */
  datatype Verified = Verified(token: string, username: string, provider: Option<string>)

  /** `handleVerify`: an incomplete code is an error and nothing is stored;
      otherwise the mock session of the page. */
  function Verify(otp: seq<string>, provider: string): (r: Result)
    ensures r.Incomplete? <==> !Complete(otp)
    ensures r.Incomplete? ==> r.msg == MsgIncomplete
    ensures r.Proceed? ==> (r.session.provider.Some? <==> provider != "")
    ensures r.Proceed? && provider == "" ==> r.session.token == "mock-jwt-token" && r.session.username == "testuser"
    ensures r.Proceed? && provider != "" ==>
              r.session.token == "mock-jwt-token-" + provider && r.session.username == provider + "User"
  {
    if !Complete(otp) then Incomplete(MsgIncomplete)
    else if provider != "" then Proceed(Verified("mock-jwt-token-" + provider, provider + "User", Some(provider)))
    else Proceed(Verified("mock-jwt-token", "testuser", None))
  }

  datatype Result = Incomplete(msg: string) | Proceed(session: Verified)

  /** A well-formed complete code is six digits. */
  lemma {:induction false} CompleteCodeIsSixDigits(otp: seq<string>)
    requires WellFormed(otp) && Complete(otp)
    ensures Code(otp) == otp[0] + otp[1] + otp[2] + otp[3] + otp[4] + otp[5]
    ensures |Code(otp)| == SlotCount && AllDigits(Code(otp))
  {
    JoinStep(otp, 0);
    JoinStep(otp, 1);
    JoinStep(otp, 2);
    JoinStep(otp, 3);
    JoinStep(otp, 4);
    assert otp[5..] == [otp[5]];
    assert forall i :: 0 <= i < SlotCount ==> |otp[i]| == 1 && IsDigit(otp[i][0]);
    var c := Code(otp);
    assert c == otp[0] + (otp[1] + (otp[2] + (otp[3] + (otp[4] + otp[5]))));
    assert forall i :: 0 <= i < SlotCount ==> c[i] == otp[i][0];
  }

  lemma JoinStep(ps: seq<string>, i: nat)
    requires i + 1 < |ps|
    ensures Join(ps[i..], "") == ps[i] + Join(ps[i + 1..], "")
  {
    assert ps[i..][1..] == ps[i + 1..];
  }

  /** Any keystroke on a fresh input leaves it incomplete. */
  lemma OneKeyIsIncomplete(index: nat, value: string)
    requires index < SlotCount && OneDigit(value)
    ensures Verify(OtpChange(EmptySlots, index, value).value.otp, "").Incomplete?
  {
    var j := if index == 0 then 1 else 0;
    assert OtpChange(EmptySlots, index, value).value.otp[j] == "";
  }

  /** The countdown and whether resend is offered. */
  datatype Clock = Clock(timer: nat, canResend: bool)

  /** One run of the countdown effect: a positive timer loses a second;
      at zero, resend becomes available. */
  function Tick(c: Clock): (r: Clock)
    ensures c.timer > 0 ==> r.timer + 1 == c.timer && r.canResend == c.canResend
    ensures c.timer == 0 ==> r == Clock(0, true)
  {
    if c.timer > 0 then c.(timer := c.timer - 1) else c.(canResend := true)
  }

  function Ticks(c: Clock, k: nat): Clock
    decreases k
  {
    if k == 0 then c else Ticks(Tick(c), k - 1)
  }

  /** While the timer runs, each tick takes one second off and resend stays
      as it was. */
  lemma {:induction false} CountDown(c: Clock, k: nat)
    requires k <= c.timer
    ensures Ticks(c, k) == Clock(c.timer - k, c.canResend)
    decreases k
  {
    if k > 0 {
      CountDown(Tick(c), k - 1);
    }
  }

  /** Resend is offered exactly from the tick after the timer reaches 0. */
  lemma ResendOfferedAtZero(c: Clock, k: nat)
    requires !c.canResend
    ensures Ticks(c, k).canResend <==> k > c.timer
  {
    if k <= c.timer {
      CountDown(c, k);
    } else {
      CountDown(c, c.timer);
      TicksCompose(c, c.timer, k - c.timer);
      StaysAtZero(Clock(0, false), k - c.timer);
    }
  }

  lemma {:induction false} TicksCompose(c: Clock, a: nat, b: nat)
    ensures Ticks(c, a + b) == Ticks(Ticks(c, a), b)
    decreases a
  {
    if a > 0 {
      TicksCompose(Tick(c), a - 1, b);
    }
  }

  lemma {:induction false} StaysAtZero(c: Clock, k: nat)
    requires c.timer == 0 && k > 0
    ensures Ticks(c, k) == Clock(0, true)
    decreases k
  {
    if k > 1 {
      StaysAtZero(Tick(c), k - 1);
    }
  }

  /** The page state that resending touches. */
  datatype Page = Page(otp: seq<string>, clock: Clock, error: Option<string>, success: Option<string>)

  const MsgResent: string := "A new verification code has been sent to your email."

  /** `handleResendOtp` once the simulated request is done: the timer back
      at 60, resend withdrawn, every slot cleared, the error gone and the
      success message shown. */
  function Resend(p: Page): (r: Page)
    ensures r.clock == Clock(CountdownStart, false)
    ensures WellFormed(r.otp) && forall i :: 0 <= i < SlotCount ==> r.otp[i] == ""
    ensures r.error.None? && r.success == Some(MsgResent)
  {
    Page(EmptySlots, Clock(CountdownStart, false), None, Some(MsgResent))
  }

  /** After a resend, the next resend is offered only after another full
      minute of ticks. */
  lemma ResendWaitsAMinute(p: Page, k: nat)
    ensures Ticks(Resend(p).clock, k).canResend <==> k > CountdownStart
  {
    ResendOfferedAtZero(Resend(p).clock, k);
  }

  /** The code social sign-ins fill in by themselves. */
  const ProviderCode: seq<string> := ["1", "2", "3", "4", "5", "6"]

  /** The auto-filled code is a complete, well-formed code, so a social
      sign-in verifies with the provider's mock session. */
  lemma ProviderCodeVerifies(provider: string)
    requires provider != ""
    ensures WellFormed(ProviderCode) && Complete(ProviderCode)
    ensures Verify(ProviderCode, provider) ==
            Proceed(Verified("mock-jwt-token-" + provider, provider + "User", Some(provider)))
  {
  }
}

=== FILE: profile_forms.dfy ===
/** The create-profile page: picture selection with its type and size
    checks (the same in the frontend and the prototype), and, in the
    frontend, the update request and the locally updated user built from
    the upload's answer. The upload and update requests themselves are
    parameters: their answers are given. */
module ProfileForm {
  import opened Optional
  import opened JsStrings

  const MsgNotImage: string := "Please select an image file"
  const MsgTooLarge: string := "Image must be less than 5MB"
  const MsgUploadFailed: string := "Failed to upload profile picture"
  const MsgUpdateFailed: string := "Failed to update profile"
  const ImagePrefix: string := "image/"

  /** `5 * 1024 * 1024` bytes. */
  const MaxImageBytes: nat := 5 * 1024 * 1024

  /** A chosen file: its MIME type and size in bytes. */
  datatype File = File(name: string, mime: string, size: nat)

  /** `formData`, the preview and the error message of the page. */
  datatype Draft = Draft(bio: string, picture: Option<File>, preview: Option<string>, error: Option<string>)

  /** `handleFileChange`: no file changes nothing; a type not starting with
      `image/` and then a size over 5 MiB are refused with a message and
      the form kept; an accepted file becomes the picture, its data URL the
      preview, and the error is cleared. */
  function FileChange(d: Draft, file: Option<File>, dataUrl: string): (r: Draft)
    ensures file.None? ==> r == d
    ensures file.Some? && !StartsWith(file.value.mime, ImagePrefix) ==> r == d.(error := Some(MsgNotImage))
    ensures file.Some? && StartsWith(file.value.mime, ImagePrefix) && file.value.size > MaxImageBytes ==>
              r == d.(error := Some(MsgTooLarge))
    ensures r.picture != d.picture ==> r.picture == file && r.error.None?
    ensures r.bio == d.bio
  {
    match file
    case None => d
    case Some(f) =>
      if !StartsWith(f.mime, ImagePrefix) then d.(error := Some(MsgNotImage))
      else if f.size > MaxImageBytes then d.(error := Some(MsgTooLarge))
      else d.(picture := file, preview := Some(dataUrl), error := None)
  }

  /** A file is taken exactly when it is an image of at most 5 MiB. */
  predicate Acceptable(f: File) {
    StartsWith(f.mime, ImagePrefix) && f.size <= MaxImageBytes
  }

  /** An acceptable file is taken with no error; any other file leaves the
      form as it was, with an error. */
  lemma FileChangeIffAcceptable(d: Draft, f: File, dataUrl: string)
    ensures Acceptable(f) ==>
              FileChange(d, Some(f), dataUrl) == Draft(d.bio, Some(f), Some(dataUrl), None)
    ensures !Acceptable(f) ==>
              var r := FileChange(d, Some(f), dataUrl);
              r.error.Some? && r.(error := d.error) == d
  {
  }

  /** Exactly 5 MiB is accepted; one byte more is not. */
  lemma SizeBoundary(d: Draft, name: string, mime: string, dataUrl: string)
    requires StartsWith(mime, ImagePrefix)
    ensures FileChange(d, Some(File(name, mime, MaxImageBytes)), dataUrl).error.None?
    ensures FileChange(d, Some(File(name, mime, MaxImageBytes + 1)), dataUrl).error == Some(MsgTooLarge)
  {
  }

  /** The type is checked before the size: a non-image file is refused as
      such whatever its size. */
  lemma TypeBeforeSize(d: Draft, f: File, dataUrl: string)
    requires !StartsWith(f.mime, ImagePrefix) && f.size > MaxImageBytes
    ensures FileChange(d, Some(f), dataUrl).error == Some(MsgNotImage)
  {
  }

  /** The answer of the upload request. */
  datatype UploadAnswer = UploadAnswer(success: bool, imageUrl: Option<string>)

  /** What the upload step yields: the URL, if any, or the thrown message. */
  datatype Outcome<T> = Done(value: T) | Failed(msg: string)

  /** The upload step of `handleSubmit`: no picture, no upload and no URL;
      otherwise the answer's URL when it reports success, and an error when
      it does not. */
  function UploadedUrl(d: Draft, answer: UploadAnswer): (r: Outcome<Option<string>>)
    ensures d.picture.None? ==> r == Done(None)
    ensures d.picture.Some? && answer.success ==> r == Done(answer.imageUrl)
    ensures r.Failed? <==> d.picture.Some? && !answer.success
    ensures r.Failed? ==> r.msg == MsgUploadFailed
  {
    if d.picture.None? then Done(None)
    else if answer.success then Done(answer.imageUrl)
    else Failed(MsgUploadFailed)
  }

  /** The body of `PUT /api/users/profile`. */
  datatype UpdateData = UpdateData(bio: string, profilePicture: Option<string>)

  /** `updateData`: always the bio; the picture only for a truthy URL. */
  function Payload(bio: string, url: Option<string>): (r: UpdateData)
    ensures r.bio == bio
    ensures r.profilePicture.Some? <==> TruthyOpt(url)
    ensures r.profilePicture.Some? ==> r.profilePicture == url
  {
    UpdateData(bio, if TruthyOpt(url) then url else None)
  }

  /** The user kept by the auth context; other fields are carried along. */
  datatype LocalUser = LocalUser(id: string, username: string, email: string, bio: string,
                                 profilePicture: Option<string>)

  /** `updatedUser`: the new bio, the new URL or else the old picture;
      everything else as it was. */
  function UpdatedUser(user: LocalUser, bio: string, url: Option<string>): (r: LocalUser)
    ensures r.bio == bio
    ensures TruthyOpt(url) ==> r.profilePicture == url
    ensures !TruthyOpt(url) ==> r.profilePicture == user.profilePicture
    ensures r.(bio := user.bio, profilePicture := user.profilePicture) == user
  {
    user.(bio := bio, profilePicture := if TruthyOpt(url) then url else user.profilePicture)
  }

  /** What submitting sends and, if the update succeeds, the user the page
      logs in with. */
  datatype Submitted = Submitted(sent: UpdateData, user: LocalUser)

  /** `handleSubmit` as a whole: a failed upload sends nothing; otherwise the
      update is sent, and a reported failure of it is an error. */
  function Submit(d: Draft, user: LocalUser, upload: UploadAnswer, updateOk: bool): (r: Outcome<Submitted>)
    ensures d.picture.Some? && !upload.success ==> r == Failed(MsgUploadFailed)
    ensures (d.picture.None? || upload.success) && !updateOk ==> r == Failed(MsgUpdateFailed)
    ensures r.Done? <==> (d.picture.None? || upload.success) && updateOk
    ensures r.Done? ==> r.value.sent.bio == d.bio && r.value.user.bio == d.bio
    ensures r.Done? && d.picture.Some? ==>
              r.value.sent == Payload(d.bio, upload.imageUrl) && r.value.user == UpdatedUser(user, d.bio, upload.imageUrl)
    ensures r.Done? && d.picture.None? ==> r.value.sent.profilePicture.None? && r.value.user == user.(bio := d.bio)
  {
    match UploadedUrl(d, upload)
    case Failed(m) => Failed(m)
    case Done(url) =>
      if !updateOk then Failed(MsgUpdateFailed)
      else Done(Submitted(Payload(d.bio, url), UpdatedUser(user, d.bio, url)))
  }

  /** The sent picture and the kept picture agree: whenever a picture is
      sent, the local user holds that same picture. */
  lemma SentPictureIsKept(d: Draft, user: LocalUser, upload: UploadAnswer)
    requires Submit(d, user, upload, true).Done?
    ensures var s := Submit(d, user, upload, true).value;
            s.sent.profilePicture.Some? ==> s.user.profilePicture == s.sent.profilePicture
    ensures var s := Submit(d, user, upload, true).value;
            s.sent.profilePicture.None? ==> s.user.profilePicture == user.profilePicture
  {
  }
}

=== FILE: server_users.dfy ===
/** The profile and subscription handlers of
    server/controllers/userController.js: the public profile view, the
    truthy-field profile patch, and the subscribe toggle with its
    read-only check. The caller is the authenticated user's id. */
module ServerUsers {
  import opened Optional
  import opened JsStrings
  import opened Lists
  import opened Accounts

  const MsgSelfSubscribe: string := "You cannot subscribe to yourself"
  const MsgSubscribed: string := "Subscribed successfully"
  const MsgUnsubscribed: string := "Unsubscribed successfully"

  /** The public profile: no email, and the number of subscribers instead
      of the list. */
  function PublicView(u: User): (v: View)
    ensures v.id == u.id && v.username == u.username && v.fullName == u.fullName
    ensures v.profilePicture == Some(u.profilePicture) && v.bio == Some(u.bio)
    ensures v.email.None? && v.subscribers.None? && v.isVerified.None?
    ensures v.subscribersCount == Some(|u.subscribers|)
  {
    View(u.id, u.fullName, u.username, None, Some(u.profilePicture), Some(u.bio), None, None,
         Some(|u.subscribers|))
  }

  /** `getUserByUsername`. */
  function GetUserByUsername(users: seq<User>, username: string): (r: Reply)
    ensures FindByUsername(users, username).None? <==> r == Fail(404, MsgNoUser)
    ensures r.status == 200 ==>
              && r.user.Some? && r.user.value.email.None?
              && r.user.value == PublicView(users[FindByUsername(users, username).value])
  {
    match FindByUsername(users, username)
    case None => Fail(404, MsgNoUser)
    case Some(i) => Reply(200, "", None, Some(PublicView(users[i])))
  }

  /** `getCurrentUser`: the caller's own profile, with the email and the
      subscriber list beside its length, and never the password. */
  function GetCurrentUser(users: seq<User>, caller: UserId): (r: Reply)
    ensures FindById(users, caller).None? <==> r == Fail(404, MsgNoUser)
    ensures FindById(users, caller).Some? ==>
              var u := users[FindById(users, caller).value];
              && r.status == 200 && r.token.None?
              && r.user == Some(View(caller, u.fullName, u.username, Some(u.email), Some(u.profilePicture),
                                     Some(u.bio), None, Some(u.subscribers), Some(|u.subscribers|)))
  {
    match FindById(users, caller)
    case None => Fail(404, MsgNoUser)
    case Some(i) =>
      var u := users[i];
      Reply(200, "", None, Some(ProfileView(u).(subscribers := Some(u.subscribers),
                                                subscribersCount := Some(|u.subscribers|))))
  }

  datatype Outcome = Outcome(users: seq<User>, reply: Reply)

  /** The fields a profile update may set: each only when the request
      carries a truthy value for it. */
  function Patched(u: User, fullName: Option<string>, bio: Option<string>,
                   profilePicture: Option<string>): (r: User)
    ensures r.id == u.id && r.username == u.username && r.email == u.email
    ensures r.password == u.password && r.isVerified == u.isVerified && r.subscribers == u.subscribers
    ensures r.fullName == (if TruthyOpt(fullName) then fullName.value else u.fullName)
    ensures r.bio == (if TruthyOpt(bio) then bio.value else u.bio)
    ensures r.profilePicture == (if TruthyOpt(profilePicture) then profilePicture.value else u.profilePicture)
  {
    var u1 := if TruthyOpt(fullName) then u.(fullName := fullName.value) else u;
    var u2 := if TruthyOpt(bio) then u1.(bio := bio.value) else u1;
    if TruthyOpt(profilePicture) then u2.(profilePicture := profilePicture.value) else u2
  }

  /** `updateProfile`: patch the caller's own record. */
  function UpdateProfile(users: seq<User>, caller: UserId, fullName: Option<string>, bio: Option<string>,
                         profilePicture: Option<string>): (r: Outcome)
    ensures FindById(users, caller).None? <==> r == Outcome(users, Fail(404, MsgNoUser))
    ensures FindById(users, caller).Some? ==>
              var i := FindById(users, caller).value;
              && r.reply.status == 200
              && r.users == Put(users, i, Patched(users[i], fullName, bio, profilePicture))
              && r.reply.user == Some(ProfileView(r.users[i]))
  {
    match FindById(users, caller)
    case None => Outcome(users, Fail(404, MsgNoUser))
    case Some(i) =>
      var u := Patched(users[i], fullName, bio, profilePicture);
      Outcome(Put(users, i, u), Reply(200, "", None, Some(ProfileView(u))))
  }

  /** What a profile update answers is what the next current-user request
      shows, apart from the subscriber fields only the latter carries. */
  lemma UpdateThenGet(users: seq<User>, caller: UserId, fullName: Option<string>, bio: Option<string>,
                      profilePicture: Option<string>)
    requires FindById(users, caller).Some?
    ensures var r := UpdateProfile(users, caller, fullName, bio, profilePicture);
            var g := GetCurrentUser(r.users, caller);
            && g.status == 200
            && r.reply.user == Some(g.user.value.(subscribers := None, subscribersCount := None))
  {
    var i := FindById(users, caller).value;
    SameIds(users, i, Patched(users[i], fullName, bio, profilePicture));
  }

  /** In a valid store every user is found both by id and by username, and
      the public profile is the current-user view without the email and the
      subscriber list. */
  lemma ProfilesAgree(st: Store, j: nat)
    requires Valid(st) && j < |st.users|
    ensures var u := st.users[j];
            && GetUserByUsername(st.users, u.username).user == Some(PublicView(u))
            && GetCurrentUser(st.users, u.id).status == 200
            && PublicView(u) == GetCurrentUser(st.users, u.id).user.value.(email := None, subscribers := None)
  {
    var u := st.users[j];
    assert FindByUsername(st.users, u.username) == Some(j);
    assert FindById(st.users, u.id) == Some(j);
  }

  /** A profile update keeps the store's uniqueness invariant. */
  lemma UpdateProfileKeepsValid(st: Store, caller: UserId, fullName: Option<string>, bio: Option<string>,
                                profilePicture: Option<string>)
    requires Valid(st)
    ensures Valid(Store(UpdateProfile(st.users, caller, fullName, bio, profilePicture).users, st.nextId))
  {
  }

  /** Empty strings never clear a field: an update carrying only empty
      values leaves the user as it was. */
  lemma EmptyUpdateChangesNothing(users: seq<User>, caller: UserId)
    requires FindById(users, caller).Some?
    ensures UpdateProfile(users, caller, Some(""), Some(""), Some("")).users == users
  {
    var i := FindById(users, caller).value;
    assert Patched(users[i], Some(""), Some(""), Some("")) == users[i];
  }

  /** The body of a subscribe or check-subscription reply. */
  datatype Subscription = Subscription(status: nat, message: string, isSubscribed: Option<bool>,
                                       subscribersCount: Option<nat>)

  /** `subscribeUser`: refuse the caller's own id before any look-up, 404
      for an unknown target, otherwise toggle the caller in the target's
      subscribers and report the new membership and count. */
  function SubscribeUser(users: seq<User>, caller: UserId, target: UserId): (r: (seq<User>, Subscription))
    ensures target == caller ==> r == (users, Subscription(400, MsgSelfSubscribe, None, None))
    ensures target != caller && FindById(users, target).None? ==>
              r == (users, Subscription(404, MsgNoUser, None, None))
    ensures target != caller && FindById(users, target).Some? ==>
              var i := FindById(users, target).value;
              && |r.0| == |users|
              && var subs := r.0[i].subscribers;
              && r.0 == Put(users, i, users[i].(subscribers := subs))
              && r.1.status == 200
              && (caller in subs <==> caller !in users[i].subscribers)
              && (forall u :: u != caller ==> (u in subs <==> u in users[i].subscribers))
              && r.1.isSubscribed == Some(caller in subs)
              && r.1.subscribersCount == Some(|subs|)
              && (r.1.message == MsgSubscribed <==> caller in subs)
  {
    if target == caller then (users, Subscription(400, MsgSelfSubscribe, None, None))
    else
      match FindById(users, target)
      case None => (users, Subscription(404, MsgNoUser, None, None))
      case Some(i) =>
        var subs := Toggle(users[i].subscribers, caller);
        var now := caller in subs;
        (Put(users, i, users[i].(subscribers := subs)),
         Subscription(200, if now then MsgSubscribed else MsgUnsubscribed, Some(now), Some(|subs|)))
  }

  /** `checkSubscription`: read-only membership and count. */
  function CheckSubscription(users: seq<User>, caller: UserId, target: UserId): (r: Subscription)
    ensures FindById(users, target).None? <==> r == Subscription(404, MsgNoUser, None, None)
    ensures FindById(users, target).Some? ==>
              var u := users[FindById(users, target).value];
              r.status == 200
              && r.isSubscribed == Some(caller in u.subscribers)
              && r.subscribersCount == Some(|u.subscribers|)
  {
    match FindById(users, target)
    case None => Subscription(404, MsgNoUser, None, None)
    case Some(i) =>
      Subscription(200, "", Some(caller in users[i].subscribers), Some(|users[i].subscribers|))
  }

  /** What a subscribe reports is what a following check reads back. */
  lemma SubscribeThenCheck(users: seq<User>, caller: UserId, target: UserId)
    requires target != caller && FindById(users, target).Some?
    ensures var (after, s) := SubscribeUser(users, caller, target);
            var c := CheckSubscription(after, caller, target);
            c.status == 200 && c.isSubscribed == s.isSubscribed && c.subscribersCount == s.subscribersCount
  {
    var i := FindById(users, target).value;
    var after := SubscribeUser(users, caller, target).0;
    assert FindById(after, target) == Some(i) by {
      assert forall j :: 0 <= j < |users| ==> after[j].id == users[j].id;
    }
  }

  /** Subscribing twice restores the set of subscribers, and the list itself
      when the caller was not subscribed. */
  lemma {:induction false} SubscribeTwice(users: seq<User>, caller: UserId, target: UserId)
    requires target != caller && FindById(users, target).Some?
    ensures var i := FindById(users, target).value;
            var twice := SubscribeUser(SubscribeUser(users, caller, target).0, caller, target).0;
            && |twice| == |users|
            && (forall u :: u in twice[i].subscribers <==> u in users[i].subscribers)
            && (caller !in users[i].subscribers ==> twice == users)
  {
    var i := FindById(users, target).value;
    var subs := users[i].subscribers;
    var once := users[i := users[i].(subscribers := Toggle(subs, caller))];
    assert SubscribeUser(users, caller, target).0 == once;
    SameIds(users, i, once[i]);
    var twice := once[i := users[i].(subscribers := Toggle(Toggle(subs, caller), caller))];
    assert SubscribeUser(once, caller, target).0 == twice;
    assert twice == users[i := users[i].(subscribers := Toggle(Toggle(subs, caller), caller))];
    ToggleTwice(subs, caller);
  }
}

=== FILE: settings.dfy ===
/** The settings page of the frontend: the live password checklist, the
    single-field form handlers, the privacy handler's checkbox rule and the
    save confirmation messages. The forms are string-keyed objects; saving
    is simulated by the page itself and the picture upload is left out. */
module Settings {
  import opened Optional
  import opened JsStrings

  const MinPassword: nat := 8

  /** `newPassword.length >= 8`. */
  predicate LongEnough(p: string) {
    |p| >= MinPassword
  }

  /** `/[A-Z]/.test(p)`. */
  predicate HasUpper(p: string) {
    exists i :: 0 <= i < |p| && 'A' <= p[i] <= 'Z'
  }

  /** `/[0-9]/.test(p)`. */
  predicate HasDigit(p: string) {
    exists i :: 0 <= i < |p| && IsDigit(p[i])
  }

  /** The checklist under the password fields: one tick per requirement,
      in the order shown. */
  function Checklist(p: string): (r: seq<bool>)
    ensures |r| == 3
    ensures r[0] <==> |p| >= MinPassword
    ensures r[1] <==> exists i :: 0 <= i < |p| && 'A' <= p[i] <= 'Z'
    ensures r[2] <==> exists i :: 0 <= i < |p| && '0' <= p[i] <= '9'
  {
    [LongEnough(p), HasUpper(p), HasDigit(p)]
  }

  /** The class each checklist item gets. */
  function ItemClass(ok: bool): (r: string)
    ensures r == "valid" <==> ok
    ensures r == "" <==> !ok
  {
    if ok then "valid" else ""
  }

  /** Under the model's ASCII case mapping (`JsStrings.Lower`), a password
      has an upper-case letter exactly when lower-casing it changes it. The
      page itself never lower-cases the password, and JavaScript's
      `toLowerCase` also changes letters outside A-Z. */
  lemma UpperIffLowerChanges(p: string)
    ensures HasUpper(p) <==> Lower(p) != p
  {
    if Lower(p) != p {
      var i :| 0 <= i < |p| && Lower(p)[i] != p[i];
    }
  }

  /** Typing more never unticks a requirement. */
  lemma ChecklistMonotone(p: string, more: string)
    ensures forall k :: 0 <= k < 3 && Checklist(p)[k] ==> Checklist(p + more)[k]
  {
    if HasUpper(p) {
      var i :| 0 <= i < |p| && 'A' <= p[i] <= 'Z';
      assert (p + more)[i] == p[i];
    }
    if HasDigit(p) {
      var i :| 0 <= i < |p| && IsDigit(p[i]);
      assert (p + more)[i] == p[i];
    }
  }

  /** A form value: the text of an input or the state of a checkbox. */
  datatype Value = Text(s: string) | Flag(b: bool)

  type Form = map<string, Value>

  /** `setForm({...form, [name]: value})`, the profile, account and
      notification handlers: the named field takes the new value (it is
      added when absent) and every other field is kept. */
  function SetField(form: Form, name: string, v: Value): (r: Form)
    ensures r.Keys == form.Keys + {name}
    ensures name in r && r[name] == v
    ensures forall k :: k in form && k != name ==> k in r && r[k] == form[k]
  {
    form[name := v]
  }

  /** Setting a field to the value it already has changes nothing. */
  lemma SetSameValue(form: Form, name: string)
    requires name in form
    ensures SetField(form, name, form[name]) == form
  {
  }

  /** The last of two writes to the same field wins. */
  lemma SetTwice(form: Form, name: string, v: Value, w: Value)
    ensures SetField(SetField(form, name, v), name, w) == SetField(form, name, w)
  {
  }

  /** `handleProfileChange` and `handleAccountChange`: the input's text. */
  function TextChange(form: Form, name: string, value: string): (r: Form)
    ensures name in r && r[name] == Text(value)
    ensures forall k :: k in form && k != name ==> k in r && r[k] == form[k]
    ensures r.Keys == form.Keys + {name}
  {
    SetField(form, name, Text(value))
  }

  /** `handleNotificationChange`: the checkbox state. */
  function NotificationChange(form: Form, name: string, checked: bool): (r: Form)
    ensures name in r && r[name] == Flag(checked)
    ensures forall k :: k in form && k != name ==> k in r && r[k] == form[k]
    ensures r.Keys == form.Keys + {name}
  {
    SetField(form, name, Flag(checked))
  }

  /** `handlePrivacyChange`: `checked` for a checkbox, `value` for any other
      input type. */
  function PrivacyChange(form: Form, name: string, value: string, inputType: string, checked: bool): (r: Form)
    ensures name in r
    ensures r[name].Flag? <==> inputType == "checkbox"
    ensures inputType == "checkbox" ==> r[name] == Flag(checked)
    ensures inputType != "checkbox" ==> r[name] == Text(value)
    ensures forall k :: k in form && k != name ==> k in r && r[k] == form[k]
  {
    SetField(form, name, if inputType == "checkbox" then Flag(checked) else Text(value))
  }

  /** A privacy change on a checkbox is a notification-style change, and on
      any other input a text change. */
  lemma PrivacyIsOneOfTheOthers(form: Form, name: string, value: string, inputType: string, checked: bool)
    ensures inputType == "checkbox" ==>
              PrivacyChange(form, name, value, inputType, checked) == NotificationChange(form, name, checked)
    ensures inputType != "checkbox" ==>
              PrivacyChange(form, name, value, inputType, checked) == TextChange(form, name, value)
  {
  }

  /** The confirmation `saveSettings(formType)` shows; an unknown form type
      looks up nothing. */
  function SaveMessage(formType: string): (r: Option<string>)
    ensures r.Some? <==> formType in {"profile", "account", "notifications", "privacy"}
    ensures formType == "profile" ==> r == Some("Profile settings saved successfully!")
    ensures formType == "account" ==> r == Some("Account settings updated successfully!")
    ensures formType == "notifications" ==> r == Some("Notification preferences updated!")
    ensures formType == "privacy" ==> r == Some("Privacy settings updated successfully!")
  {
    if formType == "profile" then Some("Profile settings saved successfully!")
    else if formType == "account" then Some("Account settings updated successfully!")
    else if formType == "notifications" then Some("Notification preferences updated!")
    else if formType == "privacy" then Some("Privacy settings updated successfully!")
    else None
  }

  /** The picture and whether the avatar gallery is open. */
  datatype Picture = Picture(image: string, galleryOpen: bool)

  /** `selectAvatar`: take the suggestion and close the gallery. */
  function SelectAvatar(p: Picture, avatar: string): (r: Picture)
    ensures r.image == avatar && !r.galleryOpen
  {
    Picture(avatar, false)
  }

  /** `toggleAvatarGallery`. */
  function ToggleGallery(p: Picture): (r: Picture)
    ensures r.image == p.image && r.galleryOpen != p.galleryOpen
  {
    p.(galleryOpen := !p.galleryOpen)
  }

  /** Choosing a suggestion closes the gallery, choosing it again changes
      nothing, and reopening the gallery keeps the chosen picture. */
  lemma SelectThenToggle(p: Picture, avatar: string)
    ensures SelectAvatar(SelectAvatar(p, avatar), avatar) == SelectAvatar(p, avatar)
    ensures ToggleGallery(SelectAvatar(p, avatar)) == Picture(avatar, true)
  {
  }

  lemma ToggleGalleryTwice(p: Picture)
    ensures ToggleGallery(ToggleGallery(p)) == p
  {
  }
}

=== FILE: simple_auth.dfy ===
/** The authentication controller of backend/: registration creates an
    already verified user and signs a token at once; login checks only the
    password. The bcrypt salt is a parameter; the hashing hook of the User
    schema is represented by storing `Hash(password, salt)`. */
module SimpleAuth {
  import opened Optional
  import opened Crypto
  import opened Accounts

  datatype Outcome = Outcome(store: Store, reply: Reply)

  const MsgRegistered: string := "User registered successfully"

  /** The view `register` returns: id, names and email only. */
  function RegisteredView(u: User): View {
    View(u.id, u.fullName, u.username, Some(u.email), None, None, None, None, None)
  }

  /** `register`: a taken email or username is rejected with 400, the email
      check winning for the one document found; otherwise a verified user is
      saved and a token for it returned with 201. */
  function Register(st: Store, fullName: string, username: string, email: string, password: string,
                    salt: nat): (r: Outcome)
    ensures Taken(st.users, email, username) <==> r.reply.status == 400
    ensures r.reply.status == 400 ==>
              && r.store == st && r.reply.token.None?
              && (r.reply.message == MsgEmailInUse || r.reply.message == MsgUsernameTaken)
    ensures r.reply.status != 400 ==>
              && r.reply.status == 201
              && r.store.nextId == st.nextId + 1
              && |r.store.users| == |st.users| + 1
              && r.store.users == st.users + [r.store.users[|st.users|]]
              && var u := r.store.users[|st.users|];
                 && u.id == st.nextId && u.email == email && u.username == username
                 && u.fullName == fullName && u.isVerified && Compare(password, u.password)
                 && r.reply.token == Some(Sign(u.id))
                 && r.reply.user == Some(RegisteredView(u))
  {
    match FindByEmailOrUsername(st.users, email, username)
    case Some(i) =>
      if st.users[i].email == email then Outcome(st, Fail(400, MsgEmailInUse))
      else Outcome(st, Fail(400, MsgUsernameTaken))
    case None =>
      var u := User(st.nextId, fullName, username, email, Hash(password, salt), DefaultPicture, "", true, []);
      Outcome(Store(st.users + [u], st.nextId + 1),
              Reply(201, MsgRegistered, Some(Sign(u.id)), Some(RegisteredView(u))))
  }

  /** `login`: 401 "Invalid credentials" for an unknown email or a wrong
      password, otherwise a token and the profile view. There is no
      verification gate. */
  function Login(st: Store, email: string, password: string): (r: Reply)
    ensures r.status == 200 || r.status == 401
    ensures r.status == 200 <==>
              && FindByEmail(st.users, email).Some?
              && Compare(password, st.users[FindByEmail(st.users, email).value].password)
    ensures r.status == 401 ==> r == Fail(401, MsgBadCredentials)
    ensures r.status == 200 ==>
              var u := st.users[FindByEmail(st.users, email).value];
              r.token == Some(Sign(u.id)) && r.user == Some(ProfileView(u))
  {
    match FindByEmail(st.users, email)
    case None => Fail(401, MsgBadCredentials)
    case Some(i) =>
      var u := st.users[i];
      if !Compare(password, u.password) then Fail(401, MsgBadCredentials)
      else Reply(200, "", Some(Sign(u.id)), Some(ProfileView(u)))
  }

  /** Registration keeps ids, emails and usernames unique. */
  lemma RegisterKeepsValid(st: Store, fullName: string, username: string, email: string, password: string,
                           salt: nat)
    requires Valid(st)
    ensures Valid(Register(st, fullName, username, email, password, salt).store)
  {
    var r := Register(st, fullName, username, email, password, salt);
    if r.reply.status == 201 {
      AppendKeepsValid(st, r.store.users[|st.users|]);
    }
  }

  /** Right after registering, the same credentials log in, and both tokens
      name the new user. */
  lemma RegisterThenLogin(st: Store, fullName: string, username: string, email: string, password: string,
                          salt: nat)
    requires !Taken(st.users, email, username)
    ensures var r := Register(st, fullName, username, email, password, salt);
            && r.reply.status == 201
            && Login(r.store, email, password).status == 200
            && Login(r.store, email, password).token == r.reply.token
            && Verify(r.reply.token.value) == Some(st.nextId)
  {
    var r := Register(st, fullName, username, email, password, salt);
    var users := r.store.users;
    assert FindByEmail(users, email) == Some(|st.users|) by {
      assert forall j :: 0 <= j < |st.users| ==> users[j] == st.users[j];
    }
    VerifySign(st.nextId);
  }
}

=== FILE: text_utils.dfy ===
/** The page-level text helpers: initials, truncation with an ellipsis and
    the tag-stripping excerpts. Case mapping is the ASCII one of
    `JsStrings`. */
module TextUtils {
  import opened Optional
  import opened JsStrings
  import opened Lists

  /** The words of `split(' ')` that are not empty, in order. */
  function NonEmpty(words: seq<string>): (r: seq<string>)
    ensures |r| <= |words|
    ensures forall i :: 0 <= i < |r| ==> |r[i]| > 0
    ensures forall w :: w in r <==> w in words && |w| > 0
  {
    if |words| == 0 then []
    else if |words[0]| == 0 then NonEmpty(words[1..])
    else [words[0]] + NonEmpty(words[1..])
  }

  /** `words.map(word => word[0]).join('')`: an empty word's `word[0]` is
      `undefined`, which `join` writes as nothing. */
  function Heads(words: seq<string>): (r: string)
    ensures |r| == |NonEmpty(words)|
    ensures forall i :: 0 <= i < |r| ==> r[i] == NonEmpty(words)[i][0]
  {
    if |words| == 0 then ""
    else if |words[0]| == 0 then Heads(words[1..])
    else [words[0][0]] + Heads(words[1..])
  }

  /** `getInitials(name)`, answering `fallback` for a falsy name: one
      upper-cased character per non-empty space-separated word. */
  function Initials(name: Option<string>, fallback: string): (r: string)
    ensures !TruthyOpt(name) ==> r == fallback
    ensures TruthyOpt(name) ==>
              var words := NonEmpty(Split(name.value, " "));
              && |r| == |words|
              && forall i :: 0 <= i < |r| ==> r[i] == UpperChar(words[i][0])
  {
    if !TruthyOpt(name) then fallback
    else Upper(Heads(Split(name.value, " ")))
  }

  /** `getInitials` of the avatar utilities and the profile page: `''` for
      no name. */
  function AvatarInitials(name: Option<string>): (r: string)
    ensures !TruthyOpt(name) ==> r == ""
    ensures TruthyOpt(name) ==> |r| == |NonEmpty(Split(name.value, " "))|
  {
    Initials(name, "")
  }

  /** `getInitials` of the blog card: `'A'` for no name. */
  function CardInitials(name: Option<string>): (r: string)
    ensures !TruthyOpt(name) ==> r == "A"
    ensures TruthyOpt(name) ==> |r| == |NonEmpty(Split(name.value, " "))|
  {
    Initials(name, "A")
  }

  /** A single word gives its upper-cased first character. */
  lemma {:induction false} OneWordInitial(name: string)
    requires |name| > 0 && !Includes(name, " ")
    ensures AvatarInitials(Some(name)) == [UpperChar(name[0])]
  {
    SplitWhole(name, " ");
    assert NonEmpty([name]) == [name] by {
      assert [name][1..] == [];
    }
  }

  /** Spaces alone give no initials at all, not the fallback. */
  lemma {:induction false} BlankNameNoInitials(n: nat)
    requires n > 0
    ensures CardInitials(Some(seq(n, _ => ' '))) == ""
  {
    var name := seq(n, _ => ' ');
    var words := Split(name, " ");
    assert forall k :: 0 <= k < |words| ==> words[k] == "" by {
      forall k | 0 <= k < |words| ensures words[k] == "" {
        OnlySeparators(name, k);
      }
    }
    NoWordsNoHeads(words);
  }

  /** Every piece of a string of spaces split on a space is empty. */
  lemma {:induction false} OnlySeparators(s: string, k: nat)
    requires forall i :: 0 <= i < |s| ==> s[i] == ' '
    requires k < |Split(s, " ")|
    ensures Split(s, " ")[k] == ""
    decreases |s|
  {
    AtChar(s, ' ');
    if |s| == 0 {
      SplitWhole(s, " ");
    } else {
      assert At(s, 0, " ");
      SplitUnfold(s, " ", 0);
      if k > 0 {
        OnlySeparators(s[1..], k - 1);
      }
    }
  }

  lemma NoWordsNoHeads(words: seq<string>)
    requires forall k :: 0 <= k < |words| ==> words[k] == ""
    ensures NonEmpty(words) == []
  {
    assert forall w :: w in words ==> |w| == 0;
  }

  /** `truncate(str, n)` of the blog card: a string longer than `n` keeps
      `substr(0, n - 1)` (nothing when `n` is 0) and gains `'...'`; an
      absent string stays absent. */
  function Truncate(s: Option<string>, n: nat): (r: Option<string>)
    ensures s.None? ==> r.None?
    ensures s.Some? && |s.value| <= n ==> r == s
    ensures s.Some? && |s.value| > n ==>
              var keep := if n == 0 then 0 else n - 1;
              && r.Some? && |r.value| == keep + 3
              && r.value[..keep] == s.value[..keep] && r.value[keep..] == "..."
  {
    match s
    case None => None
    case Some(t) =>
      if |t| > n then Some(t[..if n == 0 then 0 else n - 1] + "...") else s
  }

  /** `truncateText(text, maxLength)` of the main page: `''` for a falsy
      text; a longer text keeps its first `maxLength` characters and gains
      `'...'`. */
  function TruncateText(text: Option<string>, max: nat): (r: string)
    ensures !TruthyOpt(text) ==> r == ""
    ensures TruthyOpt(text) && |text.value| <= max ==> r == text.value
    ensures TruthyOpt(text) && |text.value| > max ==>
              |r| == max + 3 && r[..max] == text.value[..max] && r[max..] == "..."
  {
    if !TruthyOpt(text) then ""
    else if |text.value| <= max then text.value
    else text.value[..max] + "..."
  }

  /** The two truncations differ by one kept character: the card keeps
      `n - 1` where the main page keeps `n`. */
  lemma CardKeepsOneFewer(s: string, n: nat)
    requires |s| > n >= 1
    ensures Truncate(Some(s), n) == Some(TruncateText(Some(s), n - 1))
  {
  }

  /** What a blog card shows: at most three tags, the title cut at 80 and
      the content at 180 (each then at most two characters longer, for the
      ellipsis replaces only the last kept character). */
  datatype Card = Card(tags: seq<string>, title: Option<string>, excerpt: Option<string>)

  function CardOf(title: Option<string>, content: Option<string>, tags: Option<seq<string>>): (c: Card)
    ensures tags.None? ==> c.tags == []
    ensures tags.Some? ==> |c.tags| == (if |tags.value| < 3 then |tags.value| else 3)
                           && c.tags == tags.value[..|c.tags|]
    ensures c.title.Some? ==> |c.title.value| <= 82
    ensures c.excerpt.Some? ==> |c.excerpt.value| <= 182
  {
    Card(match tags case None => [] case Some(ts) => if |ts| <= 3 then ts else ts[..3],
         Truncate(title, 80), Truncate(content, 180))
  }

  /** `content.replace(regex, '')` for the tag pattern `<[^>]*>` (with
      `minInner` 0) or `<([^>]+)>` (with `minInner` 1): from left to right,
      a `<` starts a match that ends at the first `>` after it, provided at
      least `minInner` characters lie between; a `<` that starts no match
      is kept. */
  function StripTags(s: string, minInner: nat): (r: string)
    ensures |r| <= |s|
    ensures forall c :: c in r ==> c in s
    decreases |s|
  {
    if |s| == 0 then ""
    else if s[0] == '<' && '>' in s[1..] && FirstIndex(s[1..], '>') >= minInner then
      StripTags(s[1 + FirstIndex(s[1..], '>') + 1..], minInner)
    else
      var rest := StripTags(s[1..], minInner);
      assert forall c :: c in [s[0]] + rest ==> c == s[0] || c in rest;
      [s[0]] + rest
  }

  /** No `<` is followed anywhere later by `>`. */
  predicate TagFree(s: string) {
    forall i, j :: 0 <= i < j < |s| && s[i] == '<' ==> s[j] != '>'
  }

  /** With the `<[^>]*>` pattern nothing tag-like survives. */
  lemma {:induction false} StripLeavesNoTag(s: string)
    ensures TagFree(StripTags(s, 0))
    decreases |s|
  {
    if |s| > 0 {
      if s[0] == '<' && '>' in s[1..] {
        StripLeavesNoTag(s[1 + FirstIndex(s[1..], '>') + 1..]);
      } else {
        var rest := StripTags(s[1..], 0);
        StripLeavesNoTag(s[1..]);
        var r := [s[0]] + rest;
        assert StripTags(s, 0) == r;
        forall i, j | 0 <= i < j < |r| && r[i] == '<'
          ensures r[j] != '>'
        {
          if i == 0 {
            assert r[j] == rest[j - 1];
            assert rest[j - 1] in rest;
          } else {
            assert r[i] == rest[i - 1] && r[j] == rest[j - 1];
          }
        }
      }
    }
  }

  /** Text that is already tag-free passes through unchanged. */
  lemma {:induction false} StripTagFree(s: string)
    requires TagFree(s)
    ensures StripTags(s, 0) == s
    decreases |s|
  {
    if |s| > 0 {
      assert s[0] == '<' ==> forall j :: 0 <= j < |s[1..]| ==> s[1..][j] == s[j + 1] != '>';
      assert TagFree(s[1..]) by {
        forall i, j | 0 <= i < j < |s[1..]| && s[1..][i] == '<'
          ensures s[1..][j] != '>'
        {
          assert s[i + 1] == '<';
        }
      }
      StripTagFree(s[1..]);
    }
  }

  /** Stripping twice is stripping once. */
  lemma StripIdempotent(s: string)
    ensures StripTags(StripTags(s, 0), 0) == StripTags(s, 0)
  {
    StripLeavesNoTag(s);
    StripTagFree(StripTags(s, 0));
  }

  /** The `<([^>]+)>` pattern leaves an empty `<>` alone. */
  lemma EmptyTagKept()
    ensures StripTags("<>", 1) == "<>"
    ensures StripTags("<>", 0) == ""
  {
    assert "<>"[1..] == ">";
    assert FirstIndex(">", '>') == 0;
    assert "<>"[2..] == "";
    assert ">"[1..] == "";
  }

  /** Text without `<` is left as it is by either pattern, so the home
      excerpt of plain text is its first 100 characters. */
  lemma {:induction false} PlainTextKept(s: string, minInner: nat)
    requires '<' !in s
    ensures StripTags(s, minInner) == s
    decreases |s|
  {
    if |s| > 0 {
      assert s[0] != '<';
      assert '<' !in s[1..] by {
        assert forall c :: c in s[1..] ==> c in s;
      }
      PlainTextKept(s[1..], minInner);
    }
  }

  /** `createExcerpt` of the profile page: strip `<[^>]*>`, then keep 150
      characters and add `'...'` when longer. */
  function ProfileExcerpt(content: string): (r: string)
    ensures var plain := StripTags(content, 0);
            && (|plain| <= 150 ==> r == plain)
            && (|plain| > 150 ==> |r| == 153 && r[..150] == plain[..150] && r[150..] == "...")
    ensures TagFree(r)
  {
    var plain := StripTags(content, 0);
    StripLeavesNoTag(content);
    if |plain| > 150 then
      var r := plain[..150] + "...";
      assert forall i :: 0 <= i < 150 ==> r[i] == plain[i];
      assert forall i :: 150 <= i < 153 ==> r[i] != '<' && r[i] != '>';
      r
    else plain
  }

  /** `createExcerpt` of the home page: strip `<([^>]+)>`, then
      `substring(0, 100)`. */
  function HomeExcerpt(content: string): (r: string)
    ensures var plain := StripTags(content, 1);
            |r| == (if |plain| < 100 then |plain| else 100) && r == plain[..|r|]
  {
    var plain := StripTags(content, 1);
    plain[..if |plain| < 100 then |plain| else 100]
  }
}

=== FILE: uri_component.dfy ===
/** `encodeURIComponent` and `decodeURIComponent` over Unicode scalar
    values: the unreserved characters stay, every other character becomes
    the `%XX` escapes of its UTF-8 bytes (upper-case hex). */
module UriComponent {
  import opened Optional

  /** The characters `encodeURIComponent` leaves alone. */
  predicate Unreserved(c: char) {
    ('A' <= c <= 'Z') || ('a' <= c <= 'z') || ('0' <= c <= '9')
    || c == '-' || c == '_' || c == '.' || c == '!' || c == '~' || c == '*' || c == '\'' || c == '('
    || c == ')'
  }

  predicate IsHex(c: char) {
    ('0' <= c <= '9') || ('A' <= c <= 'F') || ('a' <= c <= 'f')
  }

  function HexDigit(d: nat): (c: char)
    requires d < 16
    ensures IsHex(c)
  {
    if d < 10 then ('0' as int + d) as char else ('A' as int + d - 10) as char
  }

  function HexValue(c: char): (r: Option<nat>)
    ensures r.Some? <==> IsHex(c)
    ensures r.Some? ==> r.value < 16
  {
    if '0' <= c <= '9' then Some(c as int - '0' as int)
    else if 'A' <= c <= 'F' then Some(c as int - 'A' as int + 10)
    else if 'a' <= c <= 'f' then Some(c as int - 'a' as int + 10)
    else None
  }

  lemma HexRoundTrip(d: nat)
    requires d < 16
    ensures HexValue(HexDigit(d)) == Some(d)
  {
  }

  /** One escaped byte. */
  function Pct(b: nat): (r: string)
    requires b < 256
    ensures |r| == 3 && r[0] == '%' && IsHex(r[1]) && IsHex(r[2])
  {
    ['%', HexDigit(b / 16), HexDigit(b % 16)]
  }

  /** Several escaped bytes. */
  function Pcts(bs: seq<nat>): (r: string)
    requires forall k :: 0 <= k < |bs| ==> bs[k] < 256
    ensures |r| == 3 * |bs| && forall i :: 0 <= i < |r| ==> Safe(r[i])
  {
    if |bs| == 0 then ""
    else
      var head := Pct(bs[0]);
      var tail := Pcts(bs[1..]);
      assert forall i :: 3 <= i < 3 + |tail| ==> (head + tail)[i] == tail[i - 3];
      head + tail
  }

  /** A character is safe in a query string when it is unreserved or part
      of an escape. */
  predicate Safe(c: char) {
    Unreserved(c) || c == '%' || IsHex(c)
  }

  /** The UTF-8 bytes of a scalar value. */
  function Utf8(cp: nat): (bs: seq<nat>)
    requires cp <= 0x10FFFF
    ensures 1 <= |bs| <= 4 && forall k :: 0 <= k < |bs| ==> bs[k] < 256
  {
    if cp < 0x80 then [cp]
    else if cp < 0x800 then [0xC0 + cp / 64, 0x80 + cp % 64]
    else if cp < 0x10000 then [0xE0 + cp / 4096, 0x80 + (cp / 64) % 64, 0x80 + cp % 64]
    else [0xF0 + cp / 262144, 0x80 + (cp / 4096) % 64, 0x80 + (cp / 64) % 64, 0x80 + cp % 64]
  }

  /** The UTF-8 bytes of a scalar value, escaped. */
  function EscapeUtf8(cp: nat): (r: string)
    requires cp <= 0x10FFFF
    ensures |r| == 3 * |Utf8(cp)| && forall i :: 0 <= i < |r| ==> Safe(r[i])
  {
    Pcts(Utf8(cp))
  }

  function EncodeChar(c: char): (r: string)
    ensures |r| > 0 && forall i :: 0 <= i < |r| ==> Safe(r[i])
  {
    if Unreserved(c) then [c] else EscapeUtf8(c as int)
  }

  /** `encodeURIComponent(s)`. */
  function Encode(s: string): (r: string)
    ensures forall i :: 0 <= i < |r| ==> Safe(r[i])
    decreases |s|
  {
    if |s| == 0 then ""
    else
      var head := EncodeChar(s[0]);
      var tail := Encode(s[1..]);
      assert forall i :: |head| <= i < |head| + |tail| ==> (head + tail)[i] == tail[i - |head|];
      head + tail
  }

  /** Encoding works character by character. */
  lemma {:induction false} EncodeAppend(a: string, b: string)
    ensures Encode(a + b) == Encode(a) + Encode(b)
    decreases |a|
  {
    if |a| > 0 {
      assert (a + b)[1..] == a[1..] + b;
      EncodeAppend(a[1..], b);
    } else {
      assert a + b == b;
    }
  }

  /** Text made only of unreserved characters is its own encoding. */
  lemma {:induction false} EncodeUnreserved(s: string)
    requires forall i :: 0 <= i < |s| ==> Unreserved(s[i])
    ensures Encode(s) == s
    decreases |s|
  {
    if |s| > 0 {
      EncodeUnreserved(s[1..]);
      assert [s[0]] + s[1..] == s;
    }
  }

  /** The byte escaped at `at`, if there is a well-formed escape there. */
  function ReadByte(s: string, at: nat): (r: Option<nat>)
    ensures r.Some? ==> r.value < 256
  {
    if at + 3 <= |s| && s[at] == '%' && HexValue(s[at + 1]).Some? && HexValue(s[at + 2]).Some? then
      Some(HexValue(s[at + 1]).value * 16 + HexValue(s[at + 2]).value)
    else None
  }

  lemma ReadPct(s: string, at: nat, b: nat)
    requires b < 256 && at + 3 <= |s| && s[at..at + 3] == Pct(b)
    ensures ReadByte(s, at) == Some(b)
  {
    assert s[at + 1] == HexDigit(b / 16) && s[at + 2] == HexDigit(b % 16);
    HexRoundTrip(b / 16);
    HexRoundTrip(b % 16);
  }

  /** A continuation byte `10xxxxxx` escaped at `at`: its six payload bits. */
  function Continuation(s: string, at: nat): (r: Option<nat>)
    ensures r.Some? ==> r.value < 64
  {
    match ReadByte(s, at)
    case Some(b) => if 0x80 <= b < 0xC0 then Some(b - 0x80) else None
    case None => None
  }

  /** A scalar value, refusing surrogates and values beyond U+10FFFF. */
  function Scalar(cp: nat): (r: Option<char>)
    ensures r.Some? ==> r.value as int == cp
  {
    if cp < 0xD800 || (0xE000 <= cp <= 0x10FFFF) then Some(cp as char) else None
  }

  /** The first character of an encoded string and how many characters of
      the input it took; `None` where `decodeURIComponent` throws. */
  function DecodeOne(s: string): (r: Option<(char, nat)>)
    requires |s| > 0
    ensures r.Some? ==> 1 <= r.value.1 <= |s|
  {
    if s[0] != '%' then Some((s[0], 1))
    else
      match ReadByte(s, 0)
      case None => None
      case Some(b0) =>
        if b0 < 0x80 then Some((b0 as char, 3))
        else if 0xC0 <= b0 < 0xE0 then
          match Continuation(s, 3)
          case None => None
          case Some(x1) =>
            var cp := (b0 - 0xC0) * 64 + x1;
            if cp < 0x80 then None
            else match Scalar(cp) case None => None case Some(c) => Some((c, 6))
        else if 0xE0 <= b0 < 0xF0 then
          if Continuation(s, 3).None? || Continuation(s, 6).None? then None
          else
            var cp := (b0 - 0xE0) * 4096 + Continuation(s, 3).value * 64 + Continuation(s, 6).value;
            if cp < 0x800 then None
            else match Scalar(cp) case None => None case Some(c) => Some((c, 9))
        else if 0xF0 <= b0 < 0xF8 then
          if Continuation(s, 3).None? || Continuation(s, 6).None? || Continuation(s, 9).None? then None
          else
            var cp := (b0 - 0xF0) * 262144 + Continuation(s, 3).value * 4096 + Continuation(s, 6).value * 64
                      + Continuation(s, 9).value;
            if cp < 0x10000 then None
            else match Scalar(cp) case None => None case Some(c) => Some((c, 12))
        else None
  }

  /** `decodeURIComponent(s)`, or `None` for a malformed escape. */
  function Decode(s: string): (r: Option<string>)
    decreases |s|
  {
    if |s| == 0 then Some("")
    else
      match DecodeOne(s)
      case None => None
      case Some((c, k)) =>
        match Decode(s[k..])
        case None => None
        case Some(t) => Some([c] + t)
  }

  lemma Split64(x: nat)
    ensures x == (x / 64) * 64 + x % 64
  {
  }

  lemma DecodeTwo(cp: nat, rest: string)
    requires 0x80 <= cp < 0x800
    ensures DecodeOne(EscapeUtf8(cp) + rest) == Some((cp as char, 6))
  {
    var bs := Utf8(cp);
    ReadAt(bs, rest, 1);
    Split64(cp);
  }

  /** A three-byte scalar value is its three six-bit groups. */
  lemma Groups3(cp: nat)
    requires cp < 0x10000
    ensures cp / 4096 < 16 && cp == (cp / 4096) * 4096 + ((cp / 64) % 64) * 64 + cp % 64
  {
    Split64(cp);
    Split64(cp / 64);
    assert cp / 64 / 64 == cp / 4096;
  }

  /** A four-byte scalar value is its four six-bit groups. */
  lemma Groups4(cp: nat)
    requires cp <= 0x10FFFF
    ensures cp / 262144 < 8
    ensures cp == (cp / 262144) * 262144 + ((cp / 4096) % 64) * 4096 + ((cp / 64) % 64) * 64 + cp % 64
  {
    Split64(cp);
    Split64(cp / 64);
    Split64(cp / 4096);
    assert cp / 64 / 64 == cp / 4096;
    assert cp / 4096 / 64 == cp / 262144;
  }

  lemma ReadThree(s: string, x0: nat, x1: nat, x2: nat)
    requires x0 < 16 && x1 < 64 && x2 < 64
    requires ReadByte(s, 0) == Some(0xE0 + x0) && ReadByte(s, 3) == Some(0x80 + x1)
    requires ReadByte(s, 6) == Some(0x80 + x2)
    requires var cp := x0 * 4096 + x1 * 64 + x2; 0x800 <= cp && (cp < 0xD800 || 0xE000 <= cp)
    ensures |s| > 0 && DecodeOne(s) == Some(((x0 * 4096 + x1 * 64 + x2) as char, 9))
  {
  }

  lemma ReadFour(s: string, x0: nat, x1: nat, x2: nat, x3: nat)
    requires x0 < 8 && x1 < 64 && x2 < 64 && x3 < 64
    requires ReadByte(s, 0) == Some(0xF0 + x0) && ReadByte(s, 3) == Some(0x80 + x1)
    requires ReadByte(s, 6) == Some(0x80 + x2) && ReadByte(s, 9) == Some(0x80 + x3)
    requires 0x10000 <= x0 * 262144 + x1 * 4096 + x2 * 64 + x3 <= 0x10FFFF
    ensures |s| > 0 && DecodeOne(s) == Some(((x0 * 262144 + x1 * 4096 + x2 * 64 + x3) as char, 12))
  {
  }

  /** The `k`-th escape of a run of escapes sits at offset `3 * k`. */
  lemma {:induction false} PctsAt(bs: seq<nat>, rest: string, k: nat)
    requires k < |bs| && forall j :: 0 <= j < |bs| ==> bs[j] < 256
    ensures var s := Pcts(bs) + rest; 3 * k + 3 <= |s| && s[3 * k..3 * k + 3] == Pct(bs[k])
    decreases k
  {
    var s := Pcts(bs) + rest;
    assert s == Pct(bs[0]) + (Pcts(bs[1..]) + rest);
    if k > 0 {
      PctsAt(bs[1..], rest, k - 1);
      assert s[3..] == Pcts(bs[1..]) + rest;
    }
  }

  /** The `k`-th escape of a run of escapes reads back as its byte. */
  lemma ReadAt(bs: seq<nat>, rest: string, k: nat)
    requires k < |bs| && forall j :: 0 <= j < |bs| ==> bs[j] < 256
    ensures ReadByte(Pcts(bs) + rest, 3 * k) == Some(bs[k])
  {
    PctsAt(bs, rest, k);
    ReadPct(Pcts(bs) + rest, 3 * k, bs[k]);
  }

  lemma DecodeThree(cp: nat, rest: string)
    requires 0x800 <= cp < 0x10000 && (cp < 0xD800 || 0xE000 <= cp)
    ensures DecodeOne(EscapeUtf8(cp) + rest) == Some((cp as char, 9))
  {
    var x0, x1, x2 := cp / 4096, (cp / 64) % 64, cp % 64;
    var s := EscapeUtf8(cp) + rest;
    assert ReadByte(s, 0) == Some(0xE0 + x0) && ReadByte(s, 3) == Some(0x80 + x1)
        && ReadByte(s, 6) == Some(0x80 + x2) by {
      var bs := Utf8(cp);
      assert bs == [0xE0 + x0, 0x80 + x1, 0x80 + x2];
      ReadAt(bs, rest, 0);
      ReadAt(bs, rest, 1);
      ReadAt(bs, rest, 2);
    }
    assert x0 < 16 && cp == x0 * 4096 + x1 * 64 + x2 by {
      Groups3(cp);
    }
    ReadThree(s, x0, x1, x2);
  }

  lemma DecodeFour(cp: nat, rest: string)
    requires 0x10000 <= cp <= 0x10FFFF
    ensures DecodeOne(EscapeUtf8(cp) + rest) == Some((cp as char, 12))
  {
    var x0, x1, x2, x3 := cp / 262144, (cp / 4096) % 64, (cp / 64) % 64, cp % 64;
    var s := EscapeUtf8(cp) + rest;
    assert ReadByte(s, 0) == Some(0xF0 + x0) && ReadByte(s, 3) == Some(0x80 + x1)
        && ReadByte(s, 6) == Some(0x80 + x2) && ReadByte(s, 9) == Some(0x80 + x3) by {
      var bs := Utf8(cp);
      assert bs == [0xF0 + x0, 0x80 + x1, 0x80 + x2, 0x80 + x3];
      ReadAt(bs, rest, 0);
      ReadAt(bs, rest, 1);
      ReadAt(bs, rest, 2);
      ReadAt(bs, rest, 3);
    }
    assert x0 < 8 && cp == x0 * 262144 + x1 * 4096 + x2 * 64 + x3 by {
      Groups4(cp);
    }
    ReadFour(s, x0, x1, x2, x3);
  }

  /** Decoding the first character of an encoding gives that character back
      and consumes exactly its escape. */
  lemma DecodeEncodeChar(c: char, rest: string)
    ensures DecodeOne(EncodeChar(c) + rest) == Some((c, |EncodeChar(c)|))
  {
    var cp := c as int;
    if Unreserved(c) {
    } else if cp < 0x80 {
      ReadPct(EncodeChar(c) + rest, 0, cp);
    } else if cp < 0x800 {
      DecodeTwo(cp, rest);
    } else if cp < 0x10000 {
      DecodeThree(cp, rest);
    } else {
      DecodeFour(cp, rest);
    }
  }

  /** `decodeURIComponent(encodeURIComponent(s)) === s`. */
  lemma {:induction false} DecodeEncode(s: string)
    ensures Decode(Encode(s)) == Some(s)
    decreases |s|
  {
    if |s| > 0 {
      var head := EncodeChar(s[0]);
      DecodeEncodeChar(s[0], Encode(s[1..]));
      assert (head + Encode(s[1..]))[|head|..] == Encode(s[1..]);
      DecodeEncode(s[1..]);
      assert [s[0]] + s[1..] == s;
    }
  }
}
